=== FILE: README.md ===
# Hierarchy — a Dafny model of the plug-in's rule sets

Hierarchy is a Unity Editor plug-in that draws extra information and toggles in the
hierarchy window. Each row can carry:

- icons before and after the object's name and at the right edge (active, lock, static,
  layer, tag, the game-object icon, log counts, …);
- mini labels showing tag, layer or sorting layer;
- zebra striping and a tree.

Most of the code is immediate-mode drawing. Under it sit small, deterministic rule sets,
and this project models them and proves what they promise:

- **Icons** (`icons.dfy`, `serialization.dfy`): the icon classes with their names, sides and
  widths. Covered:
  - name-based equality, hashing and the registry;
  - the name→icon conversion, where an unknown name gives the "None" icon;
  - the position lists filtered by the `IconPosition` bit flags;
  - `IconData` / `IconList` serialisation to names and back.
- **Preferences** (`prefitem.dfy`, `preferences.dfy`, `preferences_gui.dfy`):
  - a typed preference item over an abstract key→text store, with default, skip-unchanged
    writes, forced saves, reset and load-failure fallback;
  - which buttons are enabled and force-disabling one;
  - the default values and the mini-label index→provider mapping;
  - the preference keys;
  - the rules of the preferences window that decide when something is written.
- **Per-row state** (`hierarchy_info.dfy`, `minilabels.dfy`, `custom_hierarchy.dfy`):
  - what `DrawItemInformation` records;
  - the tag, layer and sorting-layer mini labels;
  - the 0/1/2-label layout;
  - the right-button drag selection;
  - dropping locked objects from the selection;
  - where a long name is cut;
  - the numeric child toggle;
  - the objects an edit applies to.
- **Logs** (`log_entry.dfy`, `warnings_icon.dfy`):
  - reading the console's entries;
  - grouping them by owning game object;
  - the dirty/cool-down reload rule;
  - the warnings icon's capped, precedence-ordered text buffers, click targets and width.
- **Change propagation** (`change_icons.dfy`, over the scene forest of `scene.dfy`):
  - the ctrl/cmd flip table of `AskChangeModeIfNecessary`;
  - the lock, static, active, layer, tag and game-object icons applying a new value to
    exactly the selected objects, or to their whole subtrees.
- **Helpers** (`utility.dfy`, `find_type.dfy`): `EnumFlagsToString`, `TransformIsLastChild`,
  the label-style table, lock/unlock as one hide-flag bit, `SafeGetWidth`, and the `FindType`
  cache.

Unity objects are abstracted:

- a game object is a record (id, name, tag, layer, static flag, active flag, hide flags as a
  `bv32`, picking);
- the scene is a forest of nodes;
- the editor's services (EditorPrefs, JSON, dialogs, the current event) become parameters.

Shared helpers live in `wrappers.dfy` (Option/Result), `seqs.dfy`, `text.dfy` (decimal
text) and `geometry.dfy` (rects).

## Model

| member | source | states |
|---|---|---|
| Icons.PositionFlags | Icons/IconPosition.cs:8-12 | The three base positions are the distinct single bits 1, 2, 4; SafeArea holds after-name and rightmost but not before-name; All holds every base position |
| Icons.EmptyIconFacts | Icons/EmptyIcon.cs:8-16 | The "None" icon is named "None", is 0 wide and has side All, so it qualifies for every position list |
| Icons.NamesIdentifyKinds | Icons/HierarchyIcon.cs:32 | Two icon classes have the same Name exactly when they are the same class, so Name-keyed lookups identify a class |
| Icons.IconEqMeaning | Icons/HierarchyIcon.cs:130-153 | `==` holds exactly for two nulls or two instances with the same Name; `!=` is its negation |
| Icons.IconEqIsEquivalence | Icons/HierarchyIcon.cs:130-148 | `==` is reflexive, symmetric and transitive |
| Icons.EqualsAgreesWithEq | Icons/HierarchyIcon.cs:108-111 | `Equals` on an icon agrees with `==`, and is false for an argument that is not an icon |
| Icons.EqualIconsHashEqually | Icons/HierarchyIcon.cs:103-106 | Icons that are `==` have the same hash code |
| Icons.RegisteredIcons | Icons/HierarchyIcon.cs:23 | The static constructor makes one instance per icon class, in class order |
| Icons.ToDictionary | Icons/HierarchyIcon.cs:23 | Building a dictionary fails exactly when two items share a key; otherwise its keys are exactly the items' keys and each maps to an item with that key |
| Icons.RegistryBuilds | Icons/HierarchyIcon.cs:23 | The registry dictionary builds: no two icon classes share a Name |
| Icons.Registry | Icons/HierarchyIcon.cs:17-23 | The registry maps every class's Name to that class's instance, and every key to an instance with that Name |
| Icons.FromName | Icons/HierarchyIcon.cs:113-123 | The name conversion yields the registered icon with that Name, or the static EmptyIcon for an unknown name |
| Icons.FromNameRoundTrip | Icons/HierarchyIcon.cs:113-123 | Converting an icon's Name back gives an icon `==` to it; a name no class has gives an icon `==` EmptyIcon |
| Icons.WithPosition | Icons/HierarchyIcon.cs:25-27 | A position list holds exactly the given icons whose side has that position bit |
| Icons.PositionLists | Icons/HierarchyIcon.cs:25-27 | "None" is in all three lists; every class is in the after-name and rightmost lists; a SafeArea class is never a before-name icon |
| Icons.IndexOfIcon | Preferences.cs:104 | `IndexOf` is -1 exactly when no element is `==` the icon, otherwise the first such index |
| Icons.RemoveIcon | Preferences.cs:123-124 | `Remove` drops the first element `==` the icon and leaves a list without one unchanged |
| Icons.RemoveIconContains | Preferences.cs:123-124 | Removing keeps every other icon's membership and, for an icon held at most once, removes it |
| Serialization.DataRoundTrip | IconData.cs:15-28 | Serialising stores the Name of a non-null icon and keeps `_name` for a null one; an unknown name deserialises to EmptyIcon; a serialise/deserialise round trip gives an icon `==` the original |
| Serialization.ListCallbacks | Icons/IconList.cs:22-48 | Serialising makes one IconData per element, in order; deserialising with null data changes nothing, and otherwise replaces the list by the data's icons in order |
| Serialization.ListRoundTrip | Icons/IconList.cs:22-48 | A saved and reloaded list keeps its length and order, each icon `==` the original and null becoming EmptyIcon |
| Serialization.SaveAfterLoad | Icons/IconList.cs:22-48 | Loading names and saving again gives the same names with every unknown name replaced by "None" |
| PrefItems.StorageKeyInjective | PrefItem.cs:12-22 | The storage key is "Hierarchy" followed by the key, and distinct keys give distinct storage keys |
| PrefItems.ResetValue | PrefItem.cs:140-151 | A reset does nothing while the key is absent; otherwise it restores the default and deletes the key; no other key changes |
| PrefItems.LoadValue | PrefItem.cs:92-112 | Loading decodes the stored text into the value; a decode failure resets the item |
| PrefItems.Create | PrefItem.cs:20-38 | A new item's key gets the prefix; its value is the default while the key is absent and the loaded value otherwise |
| PrefItems.SetValue | PrefItem.cs:114-138 | Setting always updates the value; an unchanged value is not written unless forced; a failed write leaves the store alone |
| PrefItems.ForceSave | PrefItem.cs:153-156 | A forced save writes the current value even when unchanged |
| PrefItems.SetDefaultValue | PrefItem.cs:82-90 | The default is always recorded; the value follows it only while the key is absent |
| PrefItems.PersistThenReload | PrefItem.cs:20-38 | A value that was written is what a new item under the same key starts with |
| PrefItems.ResetThenReload | PrefItem.cs:140-151 | After a reset a new item under the same key starts with the default |
| PrefItems.LoadFailureResets | PrefItem.cs:105-111 | Undecodable stored text makes a new item start with the default and deletes the key |
| Preferences.ForceDisableButton | Preferences.cs:107-128 | The left-side button falls back to EmptyIcon when it is the button; the first occurrence is removed from both lists; both lists are saved |
| Preferences.IsButtonEnabledMeaning | Preferences.cs:92-105 | A null button is never enabled; a button is enabled exactly when it is the left-side button or either list contains it |
| Preferences.ForceDisableButtonDisables | Preferences.cs:107-128 | After force-disabling a button that each list held at most once it is no longer enabled, and every other non-empty button keeps its state |
| Preferences.DefaultButtons | Preferences.cs:23-44 | With the default preferences exactly the None button and the warnings, sound, active, lock and static buttons are enabled |
| Preferences.ValidIndices | Preferences.cs:87-90 | The configured indices that name a provider type: those strictly between 0 and the table's length, in order |
| Preferences.MiniLabelProviders | Preferences.cs:87-90 | One provider per valid configured index, in order, each the type the table holds at that index; index 0 and out-of-range indices are dropped |
| Preferences.DefaultMiniLabelProviders | Preferences.cs:46-50 | The default slots are [2, 1], giving the layer label and then the tag label |
| Preferences.MemberKey | Preferences.cs:181-193 | A member gets an item only when it carries the attribute; its key is the attribute's key when non-empty, else the member name |
| Preferences.StorageKeys | Preferences.cs:181-193 | The stored keys are exactly the prefixed keys of the members that get an item |
| Preferences.StorageKeysDistinct | Preferences.cs:181-193 | Distinctly named members without explicit keys are stored under distinct keys |
| PreferencesGUI.MenuItems | PreferencesGUI.cs:29-46 | The add-menu offers exactly the candidates not already in the list and not `==` EmptyIcon |
| PreferencesGUI.ChooseMenuItemEffect | PreferencesGUI.cs:39-40 | Choosing an item appends it and force-saves the list; afterwards the menu no longer offers it and still offers every other icon |
| PreferencesGUI.DisplayAddMeaning | PreferencesGUI.cs:250-254 | The add button shows exactly when some candidate is missing from the list and is not EmptyIcon |
| PreferencesGUI.LeftSideButtonPopup | PreferencesGUI.cs:321-346 | Not drawn, or an out-of-range choice: nothing changes |
| PreferencesGUI.LeftSideButtonPopupEffect | PreferencesGUI.cs:321-346 | A valid choice leaves the stored icon `==` the chosen one; the same Name does not save, and another icon is set and force-saved |
| PreferencesGUI.MiniLabelPopups | PreferencesGUI.cs:184-192 | Fewer than two slots throw IndexOutOfRange, with a one-slot array already holding the top choice and nothing saved; unchanged choices change nothing; a change writes and saves the slots |
| PreferencesGUI.MiniLabelPopupsKeepProviders | PreferencesGUI.cs:184-192 | Providers that match the stored slots before popups that do not throw still match them after |
| PreferencesGUI.DoGUIValue | PreferencesGUI.cs:281-319 | The value editors change nothing unless the item is drawn; then they write the edited value only when it differs |
| MiniLabels.MiniLabelIndex | MiniLabels/MiniLabelProvider.cs:9-15 | Each label type has exactly one index in the type list, and it is not 0 ("None") |
| MiniLabels.SortingSourcePriority | MiniLabels/SortingLayerMiniLabel.cs:15-45 | The sorting source is the SortingGroup if present, else the SpriteRenderer, else the ParticleSystemRenderer |
| MiniLabels.FillContent | MiniLabels/TagMiniLabel.cs:10-13 | Tag text when the row has a tag, layer name when it has a layer, "layer:order" when a sorting source exists, otherwise empty; stale sorting fields are kept |
| MiniLabels.HasValueAfterFill | MiniLabels/MiniLabelProvider.cs:25-33 | After `Init` a label has a value exactly when its text is non-empty: tag shown, layer shown, or a sorting source found |
| MiniLabels.SortingTextInjective | MiniLabels/SortingLayerMiniLabel.cs:47 | A "layer:order" text determines its layer (without ':') and order |
| MiniLabels.ColonPosition | MiniLabels/SortingLayerMiniLabel.cs:47 | The first ':' of the text ends the layer name |
| MiniLabels.FadedIsStale | MiniLabels/SortingLayerMiniLabel.cs:42-55 | Without a sorting source the label fades by the fields it read last, as they are not reset |
| MiniLabels.Draw | MiniLabels/MiniLabelProvider.cs:46-67 | No value: no effect. Otherwise the left edge moves left by the measure, the alpha is the disabled one exactly when faded, and a tag/layer edit is forwarded only on a GUI change |
| HierarchyInfo.DrawItemInformation | HierarchyInfo.cs:61-114 | First-visible exactly when the event kind changed; HasTag/HasLayer from the defaults; a failing tag read gives "Untagged"; FinalRect takes the previous RawRect on a first-visible call; FullSizeRect starts at 0 |
| HierarchyInfo.FinalRectIsPreviousPassEnd | HierarchyInfo.cs:100-105 | Over a pass of one event kind FinalRect ends as the previous pass's last rect and RawRect as this pass's last rect |
| HierarchyInfo.SamePassKeepsFinalRect | HierarchyInfo.cs:69-70 | Rows after the first of a pass are not first-visible and keep FinalRect |
| CustomHierarchy.CalcMiniLabelSize | CustomHierarchy.cs:502-512 | 0 with no labels, the single measure with one, the larger of the first two otherwise |
| CustomHierarchy.DrawMiniLabel | CustomHierarchy.cs:441-500 | Nothing for a non-object row. A single provider is drawn when it has a value. With two, each valued label is drawn in its own half (the first on top) when both have values or centring is off, and the edge moves past the wider drawn label. With centring on and one value, that label is drawn across the row. Each drawn label moves the left edge by its measure, after a 3-pixel gap |
| CustomHierarchy.MiniLabelsFitReservedSize | CustomHierarchy.cs:441-512 | The labels never take more room than CalcMiniLabelSize plus the 3-pixel margin |
| CustomHierarchy.Span | CustomHierarchy.cs:581-587 | The drag rectangle is normalised: xMin ≤ xMax and yMin ≤ yMax, spanning both corners |
| CustomHierarchy.DoSelection | CustomHierarchy.cs:556-664 | Unsupported, disabled or not the right button, and mouse-up: the drag selection is cleared and nothing else changes. A drag on the first visible row starts the drag at the mouse, or keeps the start of the one under way; the rect spans the mouse and the start; the list keeps the earlier objects and with ctrl gains the current selection, which it becomes. A repaint moves nothing while the mouse is within the visible rows; below them the rect reaches the bottom-right of the row after the last, above them that of the row before the first |
| CustomHierarchy.LayoutMakesMembershipOverlap | CustomHierarchy.cs:649-662 | After Layout the row is in the drag selection exactly when the rect overlaps it, provided it was listed at most once |
| CustomHierarchy.DragSelectionStaysDistinct | CustomHierarchy.cs:556-664 | Without ctrl the drag list never holds a row twice |
| CustomHierarchy.CtrlDragCanKeepRow | CustomHierarchy.cs:620-662 | With ctrl a row can be listed twice and then survives a Layout whose rect misses it |
| CustomHierarchy.IgnoreLockedSelection | CustomHierarchy.cs:161-186 | Same length; exactly the locked non-persistent game objects become null; changed exactly when one did |
| CustomHierarchy.DoTrailing | CustomHierarchy.cs:398-439 | Inactive: the row's right edge. Otherwise the label's end or the icons' start, whichever is smaller |
| CustomHierarchy.ChildToggle | CustomHierarchy.cs:188-211 | Drawn exactly for a game object with children on repaint with the numeric toggle on; shows the count in two digits; 18 wide from 100 children, else 14 |
| CustomHierarchy.RemovePersistentAsWritten | CustomHierarchy.cs:688-692 | The forward RemoveAt loop keeps what the skipping reference walk keeps |
| CustomHierarchy.SelectedObjectsAndCurrentAsWritten | CustomHierarchy.cs:676-701 | The list as the code builds it, from the skipping loop |
| CustomHierarchy.PersistentSurvivesRemoveAt | CustomHierarchy.cs:688-692 | Two persistent objects in a row: the second stays in the list |
| CustomHierarchy.SelectedObjectsAndCurrent | CustomHierarchy.cs:676-701 | Corrected: just the current object unless "change all" with two or more selected; then no nulls, every non-persistent object, the current one, and nothing else |
| CustomHierarchy.CorrectedAgreesWithIconHandlers | Icons/HierarchyIcon.cs:88-96 | The corrected list names the same objects as the icon handlers' version |
| CustomHierarchy.AsWrittenDisagreesWithIconHandlers | CustomHierarchy.cs:688-692 | The list as written holds a persistent object that the icon handlers' version leaves out |
| LogEntries.HasModeMeaning | LogEntry.cs:221-224 | HasMode holds exactly when the entry shares a flag with the mode |
| LogEntries.NewLogEntry | LogEntry.cs:103-151 | Fails exactly when neither "condition" nor "message" exists; the text is "condition" when present; instance id 0 is no object; ClassType exactly for a script with a class |
| LogEntries.ReadEntries | LogEntry.cs:168-175 | Rows are read in order, entry k from row k with row index k, stopping at the first row that cannot be read |
| LogEntries.CompileEntriesOf | LogEntry.cs:188-191 | Exactly the entries with a ClassType |
| LogEntries.EntriesOwnedBy | LogEntry.cs:193-203 | Exactly the entries whose object is the game object or one of its components |
| LogEntries.FiltersKeepRowOrder | LogEntry.cs:170-203 | Both filters keep entries in row order |
| LogEntries.GroupsOfMeaning | LogEntry.cs:193-203 | The grouped dictionary has exactly the owners as keys, each with its entries in row order |
| LogEntries.ReadEntriesMembership | LogEntry.cs:168-175 | An entry is read exactly when its row reads as it and no row up to it fails |
| LogEntries.ReadFailsAtFirstFailure | LogEntry.cs:168-175 | The read fails exactly when some row cannot be read |
| LogEntries.ReloadReferences | LogEntry.cs:161-219 | The reload fails exactly when some row cannot be read; compile entries are exactly the read entries with a ClassType, in row order |
| LogEntries.ReloadGroups | LogEntry.cs:193-203 | The game-object groups are those of the read entries, in row order |
| LogEntries.MarkEntriesDirty | LogEntry.cs:153-159 | Dirty afterwards exactly when it was dirty or the warnings icon is enabled; nothing else changes |
| LogEntries.UpdateTick | LogEntry.cs:64-100 | A reload happens only after more than 0.75 s, and then dirty is false and the time is now; dirty entries past the cool-down are always reloaded; clean entries with the icon off never are |
| LogEntries.UpdateTickReloadsWhen | LogEntry.cs:68-91 | A tick reloads exactly when more than 0.75 s have passed and the entries were dirty, or are made dirty by a changed compile state or a lower log count with the icon enabled |
| LogEntries.CooldownBlocksReload | LogEntry.cs:68-91 | Within 0.75 s of the last update nothing is reloaded and the log count is not recorded |
| WarningsIcon.AddCompileEntry | Icons/WarningsIcon.cs:76-86 | A compile entry goes to warnings exactly when its mode has a warning flag, otherwise to errors, and only below the cap |
| WarningsIcon.AddContextEntry | Icons/WarningsIcon.cs:99-137 | A context entry goes to at most one buffer: the first of log/warning/error it flags whose buffer is below 750 characters |
| WarningsIcon.Initialize | Icons/WarningsIcon.cs:54-65 | A row that is not a game object keeps the buffers the last game-object row left |
| WarningsIcon.InitializeForgetsPreviousRow | Icons/WarningsIcon.cs:54-65 | On a game-object row every buffer and target is cleared first: the result does not depend on the previous row's |
| WarningsIcon.ContextEntriesKeepCap | Icons/WarningsIcon.cs:107-120 | Text is appended only below 750 characters, so buffers within the cap plus one longest line stay within it, however many context entries come |
| WarningsIcon.CompileEntriesKeepCap | Icons/WarningsIcon.cs:78-86 | The same bound holds however many compile entries come |
| WarningsIcon.InitializeKeepsCap | Icons/WarningsIcon.cs:52-138 | With no missing component, a whole row's buffers end within the cap plus one longest line |
| WarningsIcon.MissingComponentLines | Icons/WarningsIcon.cs:69-72 | Each missing component adds one warning line |
| WarningsIcon.ContextTargets | Icons/WarningsIcon.cs:122-135 | Each category's target is the first qualifying context entry with a file, regardless of the cap |
| WarningsIcon.CompileTargets | Icons/WarningsIcon.cs:88-96 | The same for compile entries |
| WarningsIcon.WidthCountsNonEmptyBuffers | Icons/WarningsIcon.cs:25-48 | The width is 16 per non-empty buffer and matches the icon width table |
| WarningsIcon.DoSingleGUI | Icons/WarningsIcon.cs:155-175 | An empty buffer draws nothing; otherwise one button at x, which then moves by 16 |
| WarningsIcon.HandleGUIDraw | Icons/WarningsIcon.cs:140-153 | Nothing unless a game-object row is repainted or scripts may be opened; then one button per non-empty buffer, in log/warning/error order, 16 apart, each opening its category's target |
| ChangeIcons.SelectedObjectsAndCurrent | Icons/HierarchyIcon.cs:88-96 | Just the current object unless "change all" with two or more selected; then the non-persistent selection and the current object, each once |
| ChangeIcons.AskChangeModeIfNecessary | Icons/HierarchyIcon.cs:52-86 | ObjectOnly flips to ObjectAndChildren with ctrl, and back; any other mode asks only when an object has children, else ObjectOnly with no dialog |
| ChangeIcons.ControlFlipsFixedModes | Icons/HierarchyIcon.cs:56-65 | The flip table in both directions |
| ChangeIcons.Propagate | Icons/LockIcon.cs:33-77 | Any other mode changes nothing; ObjectOnly updates exactly the selected objects; ObjectAndChildren updates their whole subtrees; the scene keeps its shape |
| ChangeIcons.PropagateAt | Icons/LayerIcon.cs:33-62 | Each node is updated exactly when it is selected, or below a selected node with children, in an applying mode |
| ChangeIcons.LockIconClick | Icons/LockIcon.cs:16-81 | Nothing without a change; otherwise every affected object gets the opposite of the current object's lock state |
| ChangeIcons.StaticIconClick | Icons/StaticIcon.cs:14-57 | Nothing without a change; otherwise every affected object gets the negated static flag of the current object |
| ChangeIcons.ActiveIconClick | Icons/ActiveIcon.cs:13-42 | Nothing without a change; otherwise exactly the listed objects get the negated active flag, never their children |
| ChangeIcons.ChangeLayerAndAskForChildren | Icons/LayerIcon.cs:28-63 | The given objects, or their subtrees, get the new layer, by the layer ask mode |
| ChangeIcons.LayerIconClick | Icons/LayerIcon.cs:15-26 | The layer changes only when the GUI reported a change |
| ChangeIcons.ChangeTagAndAskForChildren | Icons/TagIcon.cs:28-58 | The given objects, or their subtrees, get the new tag, by the tag ask mode |
| ChangeIcons.TagIconClick | Icons/TagIcon.cs:15-26 | The tag changes only on a GUI change to a different tag |
| ChangeIcons.LockingIsIdempotent | Utility.cs:86-97 | Locking twice is locking once |
| ChangeIcons.UnlockingIsIdempotent | Utility.cs:99-110 | Unlocking twice is unlocking once |
| ChangeIcons.GameObjectIconContent | Icons/GameObjectHierarchyIcon.cs:21-30 | The image follows HideDefaultIcon; the tooltip shows exactly with tooltips on and not relevant-only |
| ChangeIcons.GameObjectIconWidth | Icons/GameObjectHierarchyIcon.cs:17 | 16 with an image, 0 without |
| ChangeIcons.GameObjectIconAffected | Icons/GameObjectHierarchyIcon.cs:45-57 | Exactly the selected objects, plus all their descendants with children, without duplicates |
| ChangeIcons.ListedObjectsAffected | Icons/GameObjectHierarchyIcon.cs:45-57 | Every listed object is affected in either mode |
| Utility.EnumFlagsToString | Utility.cs:148-182 | "Everything" for -1; otherwise the names of the set single-bit members in the order `Enum.GetValues` yields them (ascending unsigned value, an aliased value once per alias), joined by ", "; "" for a non-Int32 enum |
| Utility.ListedNamesMembers | Utility.cs:164 | A name is listed exactly when its member is one non-zero bit that the value has |
| Utility.FlagsTextEmpty | Utility.cs:171-182 | The text is empty exactly when no member is listed |
| Utility.TransformIsLastChild | Utility.cs:66-74 | True for null; otherwise whether the sibling index is the parent's child count minus 1 |
| Utility.LastChildHasNoNextSibling | Utility.cs:66-74 | A child is the last exactly when it has no next sibling in the scene |
| Utility.GetHierarchyLabelStyle | Utility.cs:47-64 | Default label for null; broken for a missing asset, prefab for a connected one, normal otherwise; the disabled variant exactly when inactive |
| Utility.LockObject | Utility.cs:86-97 | Sets NotEditable and no other flag; picking is disabled only when locked objects may not be picked |
| Utility.UnlockObject | Utility.cs:99-110 | Clears NotEditable and no other flag; picking is enabled only when locked objects may not be picked |
| Utility.UnlockAfterLock | Utility.cs:86-110 | Unlock after lock leaves the flags without NotEditable |
| Utility.SafeGetWidth | Utility.cs:194-207 | A failing width gives 0 and disables the icon; otherwise the width is widened by half of the icon size over 15 |
| Utility.SafeGetWidthGrowsWithSize | Utility.cs:194-207 | Each extra pixel of icon size widens a readable icon by half a pixel; a failing width stays 0 and disabled at every size |
| Scene.MapForestAt | Icons/LockIcon.cs:35-76 | A walk keeps the scene's shape and updates exactly the nodes it covers |
| Scene.CoveredMeaning | Icons/StaticIcon.cs:32-54 | A walk covers the selected nodes, and with children every node below a selected one |
| FindType.FirstMatch | Extensions/System/StringExtensions.cs:28-36 | The first assembly in order that resolves the name, and nothing when none does |
| FindType.SearchAssemblies | Extensions/System/StringExtensions.cs:28-36 | The loop with its early exit returns that first match |
| FindType.FindType | Extensions/System/StringExtensions.cs:13-41 | A cached name answers from the cache with nothing else changed; otherwise the editor assembly first, then the domain's assemblies, read once; the answer is cached, a miss included |
| FindType.SecondLookupIsCached | Extensions/System/StringExtensions.cs:17-20 | A second lookup of a name returns the first answer and changes nothing, whatever is loaded by then |
| FindType.AssembliesReadOnce | Extensions/System/StringExtensions.cs:26 | Once read, the domain's assemblies are never read again |
| FindType.FindTypeKeepsConsistent | Extensions/System/StringExtensions.cs:13-41 | Every cached answer stays the one an uncached search over the kept assemblies gives |
| FindType.CacheIsTransparent | Extensions/System/StringExtensions.cs:13-41 | On a consistent cache, FindType answers what an uncached search gives |

## Left out

- Pixel layout and drawing are not modelled, because they only feed draw calls. This covers
  tree lines, striping, tints, separators, hover, tooltips, icon and label drawing, and the
  right-icon loop of `OnItemGUI`.
- Styles, the GUI colour and indent scopes and the icon-type enum are not modelled; they are
  GUI state.
- The reflection shims into editor internals are not modelled; their results are inputs.
- The delayed-callback helper is not modelled.
- The sound and memory icons (fades, the profiler, text measurement) are not modelled.
  Their widths are inputs.
- EditorPrefs is a map from key to text. JSON is an abstract codec passed as a parameter.
- Undo registration and `ShowIconSelector` are not modelled.
- The dialog answer, the current event, modifier keys and `LayerMask.LayerToName` are inputs.
- The `ChildrenChangeMode` and `EntryMode` enums are not part of this model. The first is
  ObjectOnly | ObjectAndChildren | Ask | any other value; the second is a set of flags.
- Icon instances are compared by class and Name, not by object identity. Each class is
  instantiated once in the registry, and the static EmptyIcon is a separate instance.
- The order in which the assembly lists the icon classes is taken as their declaration
  order.
- `String.GetHashCode` is replaced by a deterministic function of the name.
- Rects and widths are real numbers, not single-precision floats.
- PrefItems.ResetValue: installs the default itself, where `Clone` installs a JSON round trip of it. For value types and `int[]` the two are equal. For icon values the round trip re-resolves each name, so it holds the registered instance `==` each icon and EmptyIcon for a null one (`Serialization.ListRoundTrip`, `Serialization.DataRoundTrip`).
- PrefItems.SetDefaultValue: the same difference as `ResetValue` for the value it installs while the key is absent.
- PrefItems.SetValue: the skip test is structural equality. The source calls `Equals`, which is reference equality for `IconList`, `IconData` and `int[]`, and it never skips while the value is null. A structurally equal value encodes to the same text, so the only difference is a store write the model omits.
- WarningsIcon.AppendLine: the line break is the single character `\n`. `Environment.NewLine` is `\r\n` on Windows, where each line is one character longer.
- WarningsIcon.AddCompileEntry: with a two-character line break the 750-character cap can be reached one entry earlier; the cap lemmas' extra character becomes two.
- WarningsIcon.AddContextEntry: the same line-break difference as `AddCompileEntry`.
- Utility.LockObject: the copy of the hide flags to the prefab instance handle (`ApplyHideFlagsToPrefab`) and `EditorUtility.SetDirty` are not modelled.
- Utility.UnlockObject: the same parts as `LockObject` are not modelled.
- The log types that the static constructor finds by name are not modelled.
- Exceptions inside the update loop, and the icon they disable, are not modelled.
- Tooltips of the warnings icon are not modelled.
- `FindTypeInAssembly` is modelled as a map lookup per assembly. The case-insensitive match
  of `GetType` is folded into that map.
- The order of `GetAssemblies` is an input.
- ChangeIcons.Propagate walks each selected subtree once. The handlers may walk an object twice when it is both selected and below another selected object. Every update sets a fixed value, so the result is the same: `ChangeIcons.LockingIsIdempotent` and `ChangeIcons.UnlockingIsIdempotent` prove this for the lock, and the other updates assign a field.
- CustomHierarchy.SelectedObjectsAndCurrentAsWritten: `Remove(null)` drops only the first null. The model's list never holds null, because the current object is passed as a value when present.

## Findings

| source | as written | input that shows it | evidently intended | confidence | as-written member | corrected member |
|---|---|---|---|---|---|---|
| CustomHierarchy.cs:688-692 | The loop removes persistent objects with `RemoveAt(i)` while moving forward, so the element after each removed one is never examined | Selection [A persistent, B persistent, C], with "change all" on and C current: B stays in the list | Every persistent object is dropped, as in `HierarchyIcon.GetSelectedObjectsAndCurrent` | not executed | CustomHierarchy.PersistentSurvivesRemoveAt | CustomHierarchy.SelectedObjectsAndCurrent |

=== FILE: change_icons.dfy ===
/** The icons that change the row's game object when clicked — lock, static, active, layer,
    tag and game-object icon — and the two rules they share: which objects a click applies
    to, and whether it also applies to their children. */
module ChangeIcons {
  import opened Wrappers
  import opened Seqs
  import opened Scene
  import opened Utility
  import Icons
  import opened Preferences

  // ---------------------------------------------------------------------------
  // Which objects

  /** `HierarchyIcon.GetSelectedObjectsAndCurrent`: with "change all selected" on and two or
      more objects selected, the scene objects of the selection followed by the current
      object, each once; otherwise just the current object, if there is one. */
  function SelectedObjectsAndCurrent(changeAllSelected: bool, selection: seq<Selected>, current: Option<nat>): (r: seq<nat>)
    ensures NoDup(r)
    ensures !changeAllSelected || |selection| < 2 ==> r == (if current.Some? then [current.value] else [])
    ensures changeAllSelected && |selection| >= 2 ==>
      forall x :: x in r <==> (exists s :: s in selection && !s.persistent && s.id == x) || current == Some(x)
  {
    if !changeAllSelected || |selection| < 2 then (if current.Some? then [current.value] else [])
    else
      var kept := NonPersistent(selection);
      var ids: seq<nat> := seq(|kept|, i requires 0 <= i < |kept| => kept[i].id);
      var all: seq<nat> := ids + (if current.Some? then [current.value] else []);
      assert forall x :: x in all <==> (exists s :: s in selection && !s.persistent && s.id == x) || current == Some(x) by {
        forall x ensures x in all <==> (exists s :: s in selection && !s.persistent && s.id == x) || current == Some(x) {
          if exists s :: s in selection && !s.persistent && s.id == x {
            var s :| s in selection && !s.persistent && s.id == x;
            var i :| 0 <= i < |kept| && kept[i] == s;
            assert ids[i] == x;
          }
          if x in ids {
            var i :| 0 <= i < |ids| && ids[i] == x;
            assert kept[i] in kept;
          }
        }
      }
      Distinct(all)
  }

  // ---------------------------------------------------------------------------
  // Whether children too

  /** `AskChangeModeIfNecessary`: a fixed preference is flipped by holding control or
      command; any other preference asks only when some object has children, and the
      dialog's answer is taken as it is. Returns the mode and whether the dialog showed. */
  function AskChangeModeIfNecessary(objs: seq<nat>, f: seq<Node>, reference: ChildrenChangeMode,
                                    controlPressed: bool, dialog: ChildrenChangeMode): (r: (ChildrenChangeMode, bool))
    ensures reference == ObjectOnly ==> r == (if controlPressed then ObjectAndChildren else ObjectOnly, false)
    ensures reference == ObjectAndChildren ==> r == (if controlPressed then ObjectOnly else ObjectAndChildren, false)
    ensures reference != ObjectOnly && reference != ObjectAndChildren ==>
      (r.1 <==> exists k :: 0 <= k < |objs| && HasChildren(f, objs[k])) &&
      r.0 == (if r.1 then dialog else ObjectOnly)
  {
    match reference
    case ObjectOnly => (if controlPressed then ObjectAndChildren else ObjectOnly, false)
    case ObjectAndChildren => (if controlPressed then ObjectOnly else ObjectAndChildren, false)
    case _ => if exists k :: 0 <= k < |objs| && HasChildren(f, objs[k]) then (dialog, true) else (ObjectOnly, false)
  }

  predicate HasChildren(f: seq<Node>, id: nat) {
    var c := ChildCount(f, id);
    c.Some? && c.value > 0
  }

  /** The control key turns each fixed mode into the other, and back. */
  lemma ControlFlipsFixedModes(objs: seq<nat>, f: seq<Node>, dialog: ChildrenChangeMode)
    ensures AskChangeModeIfNecessary(objs, f, ObjectOnly, true, dialog).0 == AskChangeModeIfNecessary(objs, f, ObjectAndChildren, false, dialog).0
    ensures AskChangeModeIfNecessary(objs, f, ObjectAndChildren, true, dialog).0 == AskChangeModeIfNecessary(objs, f, ObjectOnly, false, dialog).0
  {
  }

  // ---------------------------------------------------------------------------
  // Applying a change

  /** Applies `update` to exactly the objects, or also to everything below them, or to
      nothing for any other mode (a cancelled dialog). */
  function Propagate(f: seq<Node>, objs: seq<nat>, mode: ChildrenChangeMode, update: GameObject -> GameObject): (r: seq<Node>)
    ensures mode != ObjectOnly && mode != ObjectAndChildren ==> r == f
    ensures forall p :: ValidPath(r, p) <==> ValidPath(f, p)
    ensures mode == ObjectOnly ==> forall p :: ValidPath(f, p) ==>
      At(r, p) == if At(f, p).id in objs then update(At(f, p)) else At(f, p)
    ensures mode == ObjectAndChildren ==> forall p :: ValidPath(f, p) ==>
      At(r, p) == if SomeIdIn(IdsAlong(f, p), set x | x in objs) then update(At(f, p)) else At(f, p)
  {
    if mode != ObjectOnly && mode != ObjectAndChildren then f
    else
      var sel := set x | x in objs;
      var withChildren := mode == ObjectAndChildren;
      var r := MapForest(f, sel, update, withChildren, false);
      assert forall p :: ValidPath(r, p) <==> ValidPath(f, p) by {
        forall p ensures ValidPath(r, p) <==> ValidPath(f, p) {
          if ValidPath(f, p) {
            MapForestAt(f, p, sel, update, withChildren, false);
          }
          if ValidPath(r, p) {
            MapForestNoNewPaths(f, p, sel, update, withChildren, false);
          }
        }
      }
      assert forall p :: ValidPath(f, p) ==>
        At(r, p) == if (if withChildren then SomeIdIn(IdsAlong(f, p), sel) else At(f, p).id in sel) then update(At(f, p)) else At(f, p) by {
        forall p | ValidPath(f, p)
          ensures At(r, p) == if (if withChildren then SomeIdIn(IdsAlong(f, p), sel) else At(f, p).id in sel) then update(At(f, p)) else At(f, p)
        {
          MapForestAt(f, p, sel, update, withChildren, false);
          CoveredMeaning(f, p, sel, withChildren, false);
        }
      }
      r
  }

  /** Whether a click in `mode` with these objects reaches the object at `p`. */
  predicate Affected(f: seq<Node>, p: seq<nat>, objs: seq<nat>, mode: ChildrenChangeMode)
    requires ValidPath(f, p)
  {
    (mode == ObjectOnly && At(f, p).id in objs) ||
    (mode == ObjectAndChildren && SomeIdIn(IdsAlong(f, p), set x | x in objs))
  }

  /** What a click does to the object at any path: the update where the click reaches it,
      nothing elsewhere. */
  lemma PropagateAt(f: seq<Node>, objs: seq<nat>, mode: ChildrenChangeMode, update: GameObject -> GameObject, p: seq<nat>)
    requires ValidPath(f, p)
    ensures ValidPath(Propagate(f, objs, mode, update), p)
    ensures At(Propagate(f, objs, mode, update), p) == if Affected(f, p, objs, mode) then update(At(f, p)) else At(f, p)
  {
  }

  // ---------------------------------------------------------------------------
  // The icons

  /** The lock toggle: when clicked, every affected object is locked if the row's object
      was unlocked and unlocked if it was locked. */
  function LockIconClick(f: seq<Node>, current: GameObject, changed: bool, objs: seq<nat>,
                         askMode: ChildrenChangeMode, controlPressed: bool, dialog: ChildrenChangeMode,
                         allowPickingLocked: bool): (r: seq<Node>)
    ensures !changed ==> r == f
    ensures forall p :: ValidPath(r, p) <==> ValidPath(f, p)
    ensures changed ==> forall p :: ValidPath(f, p) ==>
      var mode := AskChangeModeIfNecessary(objs, f, askMode, controlPressed, dialog).0;
      if Affected(f, p, objs, mode) then IsLocked(At(r, p)) == !IsLocked(current)
      else At(r, p) == At(f, p)
  {
    if !changed then f
    else
      var locked := IsLocked(current);
      var mode := AskChangeModeIfNecessary(objs, f, askMode, controlPressed, dialog).0;
      Propagate(f, objs, mode, go => if !locked then LockObject(go, allowPickingLocked) else UnlockObject(go, allowPickingLocked))
  }

  /** The static toggle: when clicked, every affected object's static flag becomes the
      negation of the row object's. */
  function StaticIconClick(f: seq<Node>, current: GameObject, changed: bool, objs: seq<nat>,
                           askMode: ChildrenChangeMode, controlPressed: bool, dialog: ChildrenChangeMode): (r: seq<Node>)
    ensures !changed ==> r == f
    ensures forall p :: ValidPath(r, p) <==> ValidPath(f, p)
    ensures changed ==> forall p :: ValidPath(f, p) ==>
      var mode := AskChangeModeIfNecessary(objs, f, askMode, controlPressed, dialog).0;
      At(r, p) == if Affected(f, p, objs, mode) then At(f, p).(isStatic := !current.isStatic) else At(f, p)
  {
    if !changed then f
    else
      var isStatic := !current.isStatic;
      var mode := AskChangeModeIfNecessary(objs, f, askMode, controlPressed, dialog).0;
      Propagate(f, objs, mode, (go: GameObject) => go.(isStatic := isStatic))
  }

  /** The active toggle: when clicked, exactly the listed objects are set active to the
      negation of the row object's `activeSelf`; children are never asked about. */
  function ActiveIconClick(f: seq<Node>, current: GameObject, changed: bool, objs: seq<nat>): (r: seq<Node>)
    ensures !changed ==> r == f
    ensures forall p :: ValidPath(r, p) <==> ValidPath(f, p)
    ensures changed ==> forall p :: ValidPath(f, p) ==>
      At(r, p) == if At(f, p).id in objs then At(f, p).(activeSelf := !current.activeSelf) else At(f, p)
  {
    if !changed then f
    else
      var active := !current.activeSelf;
      Propagate(f, objs, ObjectOnly, (go: GameObject) => go.(activeSelf := active))
  }

  /** `ChangeLayerAndAskForChildren`. */
  function ChangeLayerAndAskForChildren(f: seq<Node>, objs: seq<nat>, newLayer: int,
                                        layerAskMode: ChildrenChangeMode, controlPressed: bool, dialog: ChildrenChangeMode): (r: seq<Node>)
    ensures forall p :: ValidPath(r, p) <==> ValidPath(f, p)
    ensures forall p :: ValidPath(f, p) ==>
      var mode := AskChangeModeIfNecessary(objs, f, layerAskMode, controlPressed, dialog).0;
      At(r, p) == if Affected(f, p, objs, mode) then At(f, p).(layer := newLayer) else At(f, p)
  {
    var mode := AskChangeModeIfNecessary(objs, f, layerAskMode, controlPressed, dialog).0;
    Propagate(f, objs, mode, (go: GameObject) => go.(layer := newLayer))
  }

  /** The layer icon: the chosen layer is applied only when the field reported a change. */
  function LayerIconClick(f: seq<Node>, changed: bool, objs: seq<nat>, layer: int,
                          layerAskMode: ChildrenChangeMode, controlPressed: bool, dialog: ChildrenChangeMode): (r: seq<Node>)
    ensures !changed ==> r == f
    ensures changed ==> r == ChangeLayerAndAskForChildren(f, objs, layer, layerAskMode, controlPressed, dialog)
  {
    if changed then ChangeLayerAndAskForChildren(f, objs, layer, layerAskMode, controlPressed, dialog) else f
  }

  /** `ChangeTagAndAskForChildren`. */
  function ChangeTagAndAskForChildren(f: seq<Node>, objs: seq<nat>, newTag: string,
                                      tagAskMode: ChildrenChangeMode, controlPressed: bool, dialog: ChildrenChangeMode): (r: seq<Node>)
    ensures forall p :: ValidPath(r, p) <==> ValidPath(f, p)
    ensures forall p :: ValidPath(f, p) ==>
      var mode := AskChangeModeIfNecessary(objs, f, tagAskMode, controlPressed, dialog).0;
      At(r, p) == if Affected(f, p, objs, mode) then At(f, p).(tag := newTag) else At(f, p)
  {
    var mode := AskChangeModeIfNecessary(objs, f, tagAskMode, controlPressed, dialog).0;
    Propagate(f, objs, mode, (go: GameObject) => go.(tag := newTag))
  }

  /** The tag icon: the chosen tag is applied only when the field reported a change and the
      tag differs from the one read for the row. */
  function TagIconClick(f: seq<Node>, changed: bool, rowTag: string, objs: seq<nat>, tag: string,
                        tagAskMode: ChildrenChangeMode, controlPressed: bool, dialog: ChildrenChangeMode): (r: seq<Node>)
    ensures !changed || tag == rowTag ==> r == f
    ensures changed && tag != rowTag ==> r == ChangeTagAndAskForChildren(f, objs, tag, tagAskMode, controlPressed, dialog)
  {
    if changed && tag != rowTag then ChangeTagAndAskForChildren(f, objs, tag, tagAskMode, controlPressed, dialog) else f
  }

  /** The handlers' own walks may reach an object several times (a selected object below
      another selected one); applying the change once per object is the same because
      locking and unlocking are idempotent, as setting a field is. */
  lemma LockingIsIdempotent(go: GameObject, allowPickingLocked: bool)
    ensures LockObject(LockObject(go, allowPickingLocked), allowPickingLocked) == LockObject(go, allowPickingLocked)
  {
    var l := LockObject(go, allowPickingLocked);
    var ll := LockObject(l, allowPickingLocked);
    NotEditableBitIdempotent(go.hideFlags);
    assert ll.hideFlags == l.hideFlags;
    assert ll.pickingDisabled == l.pickingDisabled;
  }

  lemma UnlockingIsIdempotent(go: GameObject, allowPickingLocked: bool)
    ensures UnlockObject(UnlockObject(go, allowPickingLocked), allowPickingLocked) == UnlockObject(go, allowPickingLocked)
  {
    var h := go.hideFlags & !NotEditable;
    NotEditableBitIdempotent(go.hideFlags);
    assert h & !NotEditable == h;
  }

  lemma NotEditableBitIdempotent(h: bv32)
    ensures (h | NotEditable) | NotEditable == h | NotEditable
    ensures (h & !NotEditable) & !NotEditable == h & !NotEditable
  {
  }

  // ---------------------------------------------------------------------------
  // The game-object icon

  /** What `Initialize` prepares: whether there is an image, and the tooltip. */
  datatype IconContent = IconContent(hasImage: bool, tooltip: string)

  /** `GameObjectHierarchyIcon.Initialize`: the image is the object's own icon when default
      icons are hidden and its mini thumbnail otherwise; the "Change Icon" tooltip shows
      only with tooltips on and not restricted to relevant ones. */
  function GameObjectIconContent(hideDefaultIcon: bool, hasObjectIcon: bool, hasThumbnail: bool,
                                 tooltips: bool, relevantTooltipsOnly: bool): (r: IconContent)
    ensures r.hasImage == if hideDefaultIcon then hasObjectIcon else hasThumbnail
    ensures r.tooltip == "Change Icon" <==> tooltips && !relevantTooltipsOnly
    ensures r.tooltip != "Change Icon" ==> r.tooltip == ""
  {
    IconContent(if hideDefaultIcon then hasObjectIcon else hasThumbnail,
                if tooltips && !relevantTooltipsOnly then "Change Icon" else "")
  }

  /** Its width is the default 16 with an image and 0 without. */
  lemma GameObjectIconWidth(c: IconContent, w: Icons.WidthInputs)
    requires w.gameObjectHasImage == c.hasImage
    ensures Icons.Width(Icons.GameObjectIcon, w) == (if c.hasImage then 16.0 else 0.0)
  {
  }

  /** The ids of an object's subtree, the object first. */
  function SubtreeIds(f: seq<Node>, id: nat): seq<nat> {
    match FindNode(f, id)
    case Some(n) => var objs := Preorder(n); seq(|objs|, i requires 0 <= i < |objs| => objs[i].id)
    case None => []
  }

  function Subtrees(f: seq<Node>, objs: seq<nat>): (r: seq<seq<nat>>)
    ensures |r| == |objs| && forall k :: 0 <= k < |objs| ==> r[k] == SubtreeIds(f, objs[k])
  {
    seq(|objs|, k requires 0 <= k < |objs| => SubtreeIds(f, objs[k]))
  }

  lemma InSubtrees(f: seq<Node>, objs: seq<nat>, x: nat)
    ensures x in Flatten(Subtrees(f, objs)) <==> exists k :: 0 <= k < |objs| && x in SubtreeIds(f, objs[k])
  {
    InFlatten(Subtrees(f, objs), x);
  }

  /** The objects the icon selector is opened for: the listed objects, with their subtrees
      when the mode says so, each once. */
  function GameObjectIconAffected(f: seq<Node>, changed: bool, objs: seq<nat>, mode: ChildrenChangeMode): (r: seq<nat>)
    ensures !changed ==> r == []
    ensures NoDup(r)
    ensures changed && mode != ObjectAndChildren ==> forall x :: x in r <==> x in objs
    ensures changed && mode == ObjectAndChildren ==>
      forall x :: x in r <==> exists k :: 0 <= k < |objs| && x in SubtreeIds(f, objs[k])
  {
    if !changed then []
    else if mode == ObjectAndChildren then
      assert forall x :: x in Flatten(Subtrees(f, objs)) <==> exists k :: 0 <= k < |objs| && x in SubtreeIds(f, objs[k]) by {
        forall x ensures x in Flatten(Subtrees(f, objs)) <==> exists k :: 0 <= k < |objs| && x in SubtreeIds(f, objs[k]) {
          InSubtrees(f, objs, x);
        }
      }
      Distinct(Flatten(Subtrees(f, objs)))
    else Distinct(objs)
  }

  /** A listed object always comes first in its own subtree, so with children the listed
      objects that are in the scene are affected too. */
  lemma ListedObjectsAffected(f: seq<Node>, objs: seq<nat>, k: nat)
    requires k < |objs| && FindNode(f, objs[k]).Some?
    ensures objs[k] in GameObjectIconAffected(f, true, objs, ObjectAndChildren)
  {
    var ids := SubtreeIds(f, objs[k]);
    assert ids[0] == objs[k];
  }
}

=== FILE: custom_hierarchy.dfy ===
/** The per-row logic of the hierarchy window that is not pixel drawing: the mini-label
    layout, right-button drag selection, dropping locked objects from the selection, where
    a long name is cut, the numeric child toggle, and the objects an edit applies to. */
module CustomHierarchy {
  import opened Wrappers
  import opened Seqs
  import opened Text
  import opened Scene
  import opened Geometry
  import opened MiniLabels
  import ChangeIcons

  // ---------------------------------------------------------------------------
  // Mini labels

  /** `CalcMiniLabelSize`: room for the widest of the first two labels. */
  function CalcMiniLabelSize(measures: seq<real>): (r: real)
    ensures |measures| == 0 ==> r == 0.0
    ensures forall i :: 0 <= i < |measures| && i < 2 ==> measures[i] <= r
    ensures |measures| > 0 ==> r == measures[0] || (|measures| > 1 && r == measures[1])
  {
    if |measures| == 0 then 0.0
    else if |measures| == 1 then measures[0]
    else if measures[0] >= measures[1] then measures[0] else measures[1]
  }

  /** Where the mini labels go: each drawn provider with the rect it gets, and the row rect
      afterwards (its left edge moved past the labels). */
  datatype MiniLabelPlan = MiniLabelPlan(draws: seq<(nat, Rect)>, rect: Rect)

  /** `Rect.x -= d`: moves the rect, keeping its size. */
  function ShiftX(r: Rect, d: real): Rect {
    r.(xMin := r.xMin - d, xMax := r.xMax - d)
  }

  /** `DrawMiniLabel`: nothing for a non-object row; with one provider it is drawn when it
      has a value; with two or more, both are stacked in the row's halves when both have a
      value or centring is off, and otherwise the one with a value is drawn across the
      row, the second preferred. A drawn label moves the left edge by its measure. */
  function DrawMiniLabel(isGameObject: bool, ps: seq<Provider>, measure: Provider -> real,
                         rect: Rect, rawRect: Rect, centralize: bool): (r: MiniLabelPlan)
    ensures !isGameObject ==> r == MiniLabelPlan([], rect)
    ensures |r.draws| <= 2
    ensures forall k :: 0 <= k < |r.draws| ==> r.draws[k].0 < |ps| && r.draws[k].0 < 2 && HasValue(ps[r.draws[k].0])
    ensures isGameObject && |ps| == 1 ==>
      (|r.draws| == 1 <==> HasValue(ps[0])) &&
      r.rect.xMin == rect.xMin - 3.0 - (if HasValue(ps[0]) then measure(ps[0]) else 0.0)
    // Both valued: stacked in the halves, the edge past the wider one
    ensures isGameObject && |ps| >= 2 && HasValue(ps[0]) && HasValue(ps[1]) ==>
      && |r.draws| == 2 && r.draws[0].0 == 0 && r.draws[1].0 == 1
      && r.draws[0].1 == ShiftX(rect, 3.0).(yMax := rawRect.yMax - rawRect.Height() / 2.0)
      && r.draws[1].1 == ShiftX(rect, 3.0).(yMin := rawRect.yMin + rawRect.Height() / 2.0)
      && r.rect.xMin == rect.xMin - 3.0 - (if measure(ps[0]) >= measure(ps[1]) then measure(ps[0]) else measure(ps[1]))
    // Centring off, one valued: that label stays in its own half; the empty half keeps
    // the edge where it was, so a negative measure moves nothing
    ensures isGameObject && |ps| >= 2 && !centralize && HasValue(ps[0]) && !HasValue(ps[1]) ==>
      && r.draws == [(0, ShiftX(rect, 3.0).(yMax := rawRect.yMax - rawRect.Height() / 2.0))]
      && r.rect.xMin == rect.xMin - 3.0 - (if measure(ps[0]) >= 0.0 then measure(ps[0]) else 0.0)
    ensures isGameObject && |ps| >= 2 && !centralize && HasValue(ps[1]) && !HasValue(ps[0]) ==>
      && r.draws == [(1, ShiftX(rect, 3.0).(yMin := rawRect.yMin + rawRect.Height() / 2.0))]
      && r.rect.xMin == rect.xMin - 3.0 - (if measure(ps[1]) >= 0.0 then measure(ps[1]) else 0.0)
    // Centring on, one valued: that label across the whole row
    ensures isGameObject && |ps| >= 2 && centralize && HasValue(ps[1]) && !HasValue(ps[0]) ==>
      r.draws == [(1, ShiftX(rect, 3.0))] && r.rect.xMin == rect.xMin - 3.0 - measure(ps[1])
    ensures isGameObject && |ps| >= 2 && centralize && HasValue(ps[0]) && !HasValue(ps[1]) ==>
      r.draws == [(0, ShiftX(rect, 3.0))] && r.rect.xMin == rect.xMin - 3.0 - measure(ps[0])
    // Neither valued
    ensures isGameObject && (forall i :: 0 <= i < |ps| && i < 2 ==> !HasValue(ps[i])) ==>
      r.draws == [] && r.rect == ShiftX(rect, 3.0)
  {
    if !isGameObject then MiniLabelPlan([], rect)
    else
      var rect := ShiftX(rect, 3.0);
      if |ps| == 0 then MiniLabelPlan([], rect)
      else if |ps| == 1 then
        if HasValue(ps[0]) then MiniLabelPlan([(0, rect)], rect.(xMin := rect.xMin - measure(ps[0])))
        else MiniLabelPlan([], rect)
      else
        var h0 := HasValue(ps[0]);
        var h1 := HasValue(ps[1]);
        if (h0 && h1) || !centralize then
          var top := rect.(yMax := rawRect.yMax - rawRect.Height() / 2.0);
          var bottom := rect.(yMin := rawRect.yMin + rawRect.Height() / 2.0);
          var top2 := if h0 then top.(xMin := top.xMin - measure(ps[0])) else top;
          var bottom2 := if h1 then bottom.(xMin := bottom.xMin - measure(ps[1])) else bottom;
          var draws := (if h0 then [(0, top)] else []) + (if h1 then [(1, bottom)] else []);
          MiniLabelPlan(draws, rect.(xMin := if top2.xMin <= bottom2.xMin then top2.xMin else bottom2.xMin))
        else if h1 then MiniLabelPlan([(1, rect)], rect.(xMin := rect.xMin - measure(ps[1])))
        else if h0 then MiniLabelPlan([(0, rect)], rect.(xMin := rect.xMin - measure(ps[0])))
        else MiniLabelPlan([], rect)
  }

  /** The room `CalcMiniLabelSize` reserves covers what `DrawMiniLabel` takes: on an object
      row the left edge moves by the 3-pixel gap plus at most the reserved size. */
  lemma MiniLabelsFitReservedSize(ps: seq<Provider>, measure: Provider -> real, rect: Rect, rawRect: Rect, centralize: bool)
    requires forall p :: measure(p) >= 0.0
    ensures var measures := seq(if |ps| < 2 then |ps| else 2, i requires 0 <= i < |ps| && i < 2 => measure(ps[i]));
      var r := DrawMiniLabel(true, ps, measure, rect, rawRect, centralize);
      rect.xMin - 3.0 - CalcMiniLabelSize(measures) <= r.rect.xMin <= rect.xMin - 3.0
  {
    var measures := seq(if |ps| < 2 then |ps| else 2, i requires 0 <= i < |ps| && i < 2 => measure(ps[i]));
    if |ps| >= 1 {
      assert measures[0] == measure(ps[0]);
    }
    if |ps| >= 2 {
      assert measures[1] == measure(ps[1]);
    }
  }

  // ---------------------------------------------------------------------------
  // Drag selection

  /** The drag-selection state: the objects collected so far (None when no drag is under
      way), where the drag started, its rect, and the editor's selection. */
  datatype DragState = DragState(
    dragSelection: Option<seq<nat>>,
    selectionStart: (real, real),
    selectionRect: Rect,
    selection: seq<nat>)

  /** What `DoSelection` reads from the event and the row. `rect` is the row's raw rect. */
  datatype SelectionInput = SelectionInput(
    supported: bool, enabled: bool, button: int, ev: EventKind,
    isFirstVisible: bool, isGameObject: bool, current: nat,
    mouse: (real, real), ctrl: bool, rect: Rect, finalRect: Rect, rawRect: Rect)

  datatype EventKind = Drag | Up | RepaintEv | LayoutEv | Other

  function MinR(a: real, b: real): real { if a <= b then a else b }
  function MaxR(a: real, b: real): real { if a >= b then a else b }

  /** The rect spanned by two corners, with min and max sorted out. */
  function Span(p: (real, real), q: (real, real)): (r: Rect)
    ensures r.xMin <= r.xMax && r.yMin <= r.yMax
    ensures (r.xMin == p.0 && r.xMax == q.0) || (r.xMin == q.0 && r.xMax == p.0)
    ensures (r.yMin == p.1 && r.yMax == q.1) || (r.yMin == q.1 && r.yMax == p.1)
  {
    Rect(MinR(p.0, q.0), MinR(p.1, q.1), MaxR(p.0, q.0), MaxR(p.1, q.1))
  }

  /** `Rect.y += d`. */
  function ShiftY(r: Rect, d: real): Rect {
    r.(yMin := r.yMin + d, yMax := r.yMax + d)
  }

  /** `DoSelection`: a drag on the first visible row starts the drag selection at the mouse
      or extends the one under way, a repaint with the mouse above or below the visible rows
      stretches the rect one row further that way, and a mouse-up ends the drag. */
  function DoSelection(s: DragState, e: SelectionInput): (r: DragState)
    ensures !e.supported || !e.enabled || e.button != 1 ==> r == s.(dragSelection := None)
    ensures e.supported && e.enabled && e.button == 1 && e.ev == Up ==> r == s.(dragSelection := None)
    ensures e.supported && e.enabled && e.button == 1 && e.ev == Other ==> r == s
    // Drag
    ensures e.supported && e.enabled && e.button == 1 && e.ev == Drag && !e.isFirstVisible ==> r == s
    ensures e.supported && e.enabled && e.button == 1 && e.ev == Drag && e.isFirstVisible ==>
      && r.dragSelection.Some?
      && r.selectionRect.xMin <= r.selectionRect.xMax && r.selectionRect.yMin <= r.selectionRect.yMax
      && r.selection == r.dragSelection.value
      && (s.dragSelection.None? ==> r.selectionStart == e.mouse)
      && (s.dragSelection.Some? ==> r.selectionStart == s.selectionStart)
      && r.selectionRect == Span(e.mouse, r.selectionStart)
      && (!e.ctrl ==> r.dragSelection.value == s.dragSelection.GetOr([]))
      && (e.ctrl ==> r.dragSelection.value == s.dragSelection.GetOr([]) + s.selection)
    // Repaint
    ensures (&& e.supported && e.enabled && e.button == 1 && e.ev == RepaintEv
             && (s.dragSelection.None? || !e.isFirstVisible || e.rawRect.yMin <= e.mouse.1 <= e.finalRect.yMin)) ==> r == s
    ensures (&& e.supported && e.enabled && e.button == 1 && e.ev == RepaintEv && s.dragSelection.Some? && e.isFirstVisible
             && !(e.rawRect.yMin <= e.mouse.1 <= e.finalRect.yMin)) ==>
      && r.dragSelection.Some?
      && r.selection == r.dragSelection.value
      && r.selectionStart == s.selectionStart
      && (!e.ctrl ==> r.dragSelection.value == s.dragSelection.value)
      && (e.ctrl ==> r.dragSelection.value == s.dragSelection.value + s.selection)
      && (e.mouse.1 > e.finalRect.yMin ==>
            r.selectionRect == Span((e.finalRect.xMax, e.finalRect.yMax + e.finalRect.Height()), s.selectionStart))
      && (e.mouse.1 <= e.finalRect.yMin ==>
            r.selectionRect == Span((e.rawRect.xMax, e.rawRect.yMax - e.rawRect.Height()), s.selectionStart))
  {
    if !e.supported || !e.enabled || e.button != 1 then s.(dragSelection := None)
    else
      var rect := e.rect.(xMin := 0.0);
      match e.ev
      case Drag =>
        if !e.isFirstVisible then s
        else
          var s1 := if s.dragSelection.None? then DragState(Some([]), e.mouse, Rect(0.0, 0.0, 0.0, 0.0), s.selection) else s;
          var drag := s1.dragSelection.value + (if e.ctrl then s1.selection else []);
          DragState(Some(drag), s1.selectionStart, Span(e.mouse, s1.selectionStart), drag)
      case Up => s.(dragSelection := None)
      case RepaintEv =>
        if s.dragSelection.None? || !e.isFirstVisible then s
        else if e.mouse.1 > e.finalRect.yMin || e.mouse.1 < e.rawRect.yMin then
          var scrollRect :=
            if e.mouse.1 > e.finalRect.yMin then ShiftY(e.finalRect, e.finalRect.Height())
            else ShiftY(e.rawRect, -e.rawRect.Height());
          var drag := s.dragSelection.value + (if e.ctrl then s.selection else []);
          DragState(Some(drag), s.selectionStart, Span((scrollRect.xMax, scrollRect.yMax), s.selectionStart), drag)
        else s
      case LayoutEv =>
        if s.dragSelection.Some? && e.isGameObject then
          var drag := s.dragSelection.value;
          var overlaps := Overlaps(s.selectionRect, rect);
          if !overlaps && e.current in drag then s.(dragSelection := Some(RemoveFirst(drag, e.current)))
          else if overlaps && e.current !in drag then s.(dragSelection := Some(drag + [e.current]))
          else s
        else s
      case Other => s
  }

  /** After a Layout step the current row is in the drag selection exactly when the
      selection rect overlaps the row, provided the row was listed at most once before. */
  lemma LayoutMakesMembershipOverlap(s: DragState, e: SelectionInput)
    requires e.supported && e.enabled && e.button == 1 && e.ev == LayoutEv && e.isGameObject
    requires s.dragSelection.Some? && Count(s.dragSelection.value, e.current) <= 1
    ensures DoSelection(s, e).dragSelection.Some?
    ensures e.current in DoSelection(s, e).dragSelection.value <==> Overlaps(s.selectionRect, e.rect.(xMin := 0.0))
  {
    var drag := s.dragSelection.value;
    CountPositive(drag, e.current);
    CountPositive(RemoveFirst(drag, e.current), e.current);
  }

  /** Without the control key a drag never lists an object twice: every step keeps the
      drag selection free of duplicates. */
  lemma DragSelectionStaysDistinct(s: DragState, e: SelectionInput)
    requires s.dragSelection.Some? ==> NoDup(s.dragSelection.value)
    requires !e.ctrl
    ensures DoSelection(s, e).dragSelection.Some? ==> NoDup(DoSelection(s, e).dragSelection.value)
  {
    if e.supported && e.enabled && e.button == 1 && e.ev == LayoutEv && s.dragSelection.Some? && e.isGameObject {
      var drag := s.dragSelection.value;
      if e.current in drag && !Overlaps(s.selectionRect, e.rect.(xMin := 0.0)) {
        RemoveFirstKeepsNoDup(drag, e.current);
      }
    }
  }

  lemma {:induction false} RemoveFirstKeepsNoDup(s: seq<nat>, x: nat)
    requires NoDup(s)
    ensures NoDup(RemoveFirst(s, x))
  {
    if |s| > 0 && s[0] != x {
      var rest := RemoveFirst(s[1..], x);
      RemoveFirstKeepsNoDup(s[1..], x);
      CountPositive(s[1..], s[0]);
      CountPositive(rest, s[0]);
      assert s[0] !in rest;
      var r := [s[0]] + rest;
      assert r == RemoveFirst(s, x);
      forall i, j | 0 <= i < j < |r| ensures r[i] != r[j] {
        if i == 0 {
          assert r[j] == rest[j - 1];
        } else {
          assert r[i] == rest[i - 1] && r[j] == rest[j - 1];
        }
      }
    }
  }

  /** With the control key held, a drag adds the current selection again on every drag
      step, so an object can be listed twice, and a Layout step that finds the selection
      rect away from its row then removes only one copy. */
  lemma CtrlDragCanKeepRow()
    ensures var s := DragState(Some([]), (0.0, 0.0), Rect(0.0, 0.0, 0.0, 0.0), [7]);
      var drag := SelectionInput(true, true, 1, Drag, true, true, 7, (0.0, 0.0), true,
                                 Rect(0.0, 0.0, 10.0, 10.0), Rect(0.0, 0.0, 10.0, 10.0), Rect(0.0, 0.0, 10.0, 10.0));
      var s1 := DoSelection(s, drag);
      var s2 := DoSelection(s1, drag);
      var far := drag.(ev := LayoutEv, rect := Rect(0.0, 50.0, 10.0, 60.0));
      && s2.dragSelection == Some([7, 7])
      && !Overlaps(s2.selectionRect, far.rect.(xMin := 0.0))
      && 7 in DoSelection(s2, far).dragSelection.value
  {
    var s := DragState(Some([]), (0.0, 0.0), Rect(0.0, 0.0, 0.0, 0.0), [7]);
    var drag := SelectionInput(true, true, 1, Drag, true, true, 7, (0.0, 0.0), true,
                               Rect(0.0, 0.0, 10.0, 10.0), Rect(0.0, 0.0, 10.0, 10.0), Rect(0.0, 0.0, 10.0, 10.0));
    var s1 := DoSelection(s, drag);
    assert [] + [7] == [7];
    assert s1.dragSelection == Some([7]);
    assert s1.selection == [7];
    var s2 := DoSelection(s1, drag);
    assert [7] + [7] == [7, 7];
    assert s2.dragSelection == Some([7, 7]);
    assert RemoveFirst([7, 7], 7) == [7];
  }

  // ---------------------------------------------------------------------------
  // IgnoreLockedSelection

  /** An entry of `Selection.objects`. */
  datatype SelectedObject = NullObject | Asset(id: nat) | GameObjectEntry(go: GameObject, persistent: bool)

  predicate LockedSceneObject(o: SelectedObject) {
    o.GameObjectEntry? && IsLocked(o.go) && !o.persistent
  }

  /** `IgnoreLockedSelection`: unless locked objects may be selected, on the first repaint
      of a pass every locked scene game object in the selection becomes null; the array
      keeps its length and is written back only when something changed. */
  method IgnoreLockedSelection(selection: seq<SelectedObject>, allowSelectingLocked: bool,
                               isFirstVisible: bool, isRepaint: bool)
    returns (r: seq<SelectedObject>, changed: bool)
    ensures |r| == |selection|
    ensures allowSelectingLocked || !isFirstVisible || !isRepaint ==> r == selection && !changed
    ensures !allowSelectingLocked && isFirstVisible && isRepaint ==>
      (forall i :: 0 <= i < |selection| ==> r[i] == if LockedSceneObject(selection[i]) then NullObject else selection[i]) &&
      (changed <==> exists i :: 0 <= i < |selection| && LockedSceneObject(selection[i]))
  {
    r := selection;
    changed := false;
    if allowSelectingLocked || !isFirstVisible || !isRepaint {
      return;
    }
    var i := 0;
    while i < |r|
      invariant 0 <= i <= |r| == |selection|
      invariant forall j :: 0 <= j < i ==> r[j] == if LockedSceneObject(selection[j]) then NullObject else selection[j]
      invariant forall j :: i <= j < |r| ==> r[j] == selection[j]
      invariant changed <==> exists j :: 0 <= j < i && LockedSceneObject(selection[j])
    {
      if LockedSceneObject(r[i]) {
        r := r[i := NullObject];
        changed := true;
      }
      i := i + 1;
    }
  }

  // ---------------------------------------------------------------------------
  // Trailing

  /** `DoTrailing`: where the name stops being drawn. Outside a repaint of an object row
      with trailing on, the row's right edge; otherwise the label's end, cut back to where
      the icons and mini labels begin when they would overlap it. */
  function DoTrailing(isRepaint: bool, trailing: bool, isGameObject: bool, rawRect: Rect,
                      rightIconsWidth: real, leftIconsWidth: real, miniLabelSize: real, rightMargin: int,
                      fullSizeRect: Rect, labelOnlyRect: Rect): (r: real)
    ensures !isRepaint || !trailing || !isGameObject ==> r == rawRect.xMax
    ensures isRepaint && trailing && isGameObject ==>
      var iconsMin := fullSizeRect.xMax - (rightIconsWidth + leftIconsWidth + miniLabelSize + rightMargin as real);
      r <= labelOnlyRect.xMax && r <= iconsMin && (r == labelOnlyRect.xMax || r == iconsMin)
  {
    if !isRepaint || !trailing || !isGameObject then rawRect.xMax
    else
      var iconsWidth := rightIconsWidth + leftIconsWidth + miniLabelSize + rightMargin as real;
      var iconsMin := fullSizeRect.xMax - iconsWidth;
      var labelMax := labelOnlyRect.xMax;
      if !(iconsMin <= labelMax) then labelMax else iconsMin
  }

  // ---------------------------------------------------------------------------
  // ChildToggle

  /** The numeric child toggle: its rect and its text, when it is drawn. */
  datatype Toggle = Toggle(rect: Rect, text: string)

  /** `ChildToggle`: drawn on repaint of an object row with children when the option is on;
      the count is written with at least two digits, left of the row, and the toggle is
      widened by 4 pixels for three or more digits. */
  function ChildToggle(numericChildExpand: bool, isRepaint: bool, isGameObject: bool,
                       childCount: int, rawRect: Rect): (r: Option<Toggle>)
    ensures r.Some? <==> numericChildExpand && isRepaint && isGameObject && childCount > 0
    ensures r.Some? ==>
      && AllDigits(r.value.text) && |r.value.text| >= 2 && DigitsValue(r.value.text) == childCount
      && r.value.rect.xMax == rawRect.xMin - 1.0
      && r.value.rect.Width() == (if childCount >= 100 then 18.0 else 14.0)
  {
    if !numericChildExpand || !isRepaint || !isGameObject || childCount <= 0 then None
    else
      var text := TwoDigits(childCount);
      TwoDigitsRoundTrip(childCount);
      var rect := rawRect.(xMax := rawRect.xMin - 1.0, xMin := rawRect.xMin - 15.0);
      var rect := if |text| > 2 then rect.(xMin := rect.xMin - 4.0) else rect;
      Some(Toggle(rect, text))
  }

  // ---------------------------------------------------------------------------
  // GetSelectedObjectsAndCurrent

  /** What the forward loop with `RemoveAt(i)` and no step back keeps: after removing an
      entry, the entry that slid into its place is passed over. */
  function KeptByRemoveAtLoop(s: seq<Selected>): (r: seq<Selected>)
    ensures |r| <= |s|
    ensures forall x :: x in r ==> x in s
    decreases |s|
  {
    if |s| == 0 then []
    else if !s[0].persistent then [s[0]] + KeptByRemoveAtLoop(s[1..])
    else if |s| == 1 then []
    else [s[1]] + KeptByRemoveAtLoop(s[2..])
  }

  /** One pass of the loop body at index `i` when the entry there is persistent: the list
      loses that entry and `i` moves past the one that slid into its place. */
  lemma RemoveAtStep(l: seq<Selected>, i: nat)
    requires i < |l| && l[i].persistent
    ensures var l2 := l[..i] + l[i + 1..];
      (i + 1 <= |l2| ==> l[..i] + KeptByRemoveAtLoop(l[i..]) == l2[..i + 1] + KeptByRemoveAtLoop(l2[i + 1..]))
      && (i + 1 > |l2| ==> l[..i] + KeptByRemoveAtLoop(l[i..]) == l2)
  {
    var l2 := l[..i] + l[i + 1..];
    if i + 1 < |l| {
      assert l[i..][2..] == l[i + 2..];
      assert l2[..i + 1] == l[..i] + [l[i + 1]];
      assert l2[i + 1..] == l[i + 2..];
    } else {
      assert l2 == l[..i];
    }
  }

  /** The loop body at index `i` when the entry there stays. */
  lemma KeepStep(l: seq<Selected>, i: nat)
    requires i < |l| && !l[i].persistent
    ensures l[..i] + KeptByRemoveAtLoop(l[i..]) == l[..i + 1] + KeptByRemoveAtLoop(l[i + 1..])
  {
    assert l[..i + 1] == l[..i] + [l[i]];
    assert l[i..][1..] == l[i + 1..];
  }

  /** The loop as the code runs it over a list. */
  method RemovePersistentAsWritten(selection: seq<Selected>) returns (l: seq<Selected>)
    ensures l == KeptByRemoveAtLoop(selection)
  {
    l := selection;
    var i := 0;
    assert l[..0] + KeptByRemoveAtLoop(l[0..]) == KeptByRemoveAtLoop(selection) by {
      assert l[0..] == l;
    }
    while i < |l|
      invariant 0 <= i <= |l| + 1
      invariant i <= |l| ==> KeptByRemoveAtLoop(selection) == l[..i] + KeptByRemoveAtLoop(l[i..])
      invariant i == |l| + 1 ==> KeptByRemoveAtLoop(selection) == l
      decreases |l| + 1 - i
    {
      if l[i].persistent {
        RemoveAtStep(l, i);
        l := l[..i] + l[i + 1..];
      } else {
        KeepStep(l, i);
      }
      i := i + 1;
    }
    if i == |l| {
      assert l[..i] == l;
      assert l[i..] == [];
    }
  }

  /** `CustomHierarchy.GetSelectedObjectsAndCurrent` as written: with "change all
      selected" off or at most one object selected, just the current object (null
      included); otherwise the selection after the loop above, the current object added
      when missing, and the first null removed. */
  function SelectedObjectsAndCurrentAsWritten(changeAllSelected: bool, selection: seq<Selected>,
                                              current: Option<Selected>): (r: seq<Option<nat>>)
    ensures !changeAllSelected || |selection| <= 1 ==> r == [if current.Some? then Some(current.value.id) else None]
  {
    if !changeAllSelected || |selection| <= 1 then [if current.Some? then Some(current.value.id) else None]
    else
      var kept := KeptByRemoveAtLoop(selection);
      var ids := seq(|kept|, i requires 0 <= i < |kept| => Some(kept[i].id));
      match current
      case None => ids
      case Some(c) => if Some(c.id) in ids then ids else ids + [Some(c.id)]
  }

  /** Two persistent objects in a row: the second one survives the loop. */
  lemma PersistentSurvivesRemoveAt()
    ensures var sel := [Selected(1, true), Selected(2, true), Selected(3, false)];
      SelectedObjectsAndCurrentAsWritten(true, sel, Some(Selected(3, false))) == [Some(2), Some(3)]
  {
    var sel := [Selected(1, true), Selected(2, true), Selected(3, false)];
    assert sel[2..][1..] == [];
    assert KeptByRemoveAtLoop(sel[2..]) == [Selected(3, false)];
    var kept := KeptByRemoveAtLoop(sel);
    assert kept == [Selected(2, true), Selected(3, false)];
    var ids := seq(|kept|, i requires 0 <= i < |kept| => Some(kept[i].id));
    assert ids == [Some(2), Some(3)];
    assert Some(3) in ids;
  }

  /** The same list with every persistent object removed, as the loop evidently intends. */
  function SelectedObjectsAndCurrent(changeAllSelected: bool, selection: seq<Selected>,
                                     current: Option<Selected>): (r: seq<Option<nat>>)
    ensures !changeAllSelected || |selection| <= 1 ==> r == [if current.Some? then Some(current.value.id) else None]
    ensures changeAllSelected && |selection| > 1 ==>
      && (forall x :: x in r ==> x.Some?)
      && (forall x :: x in selection && !x.persistent ==> Some(x.id) in r)
      && (current.Some? ==> Some(current.value.id) in r)
      && (forall x :: x in r ==> (exists y :: y in selection && !y.persistent && x == Some(y.id)) || (current.Some? && x == Some(current.value.id)))
  {
    if !changeAllSelected || |selection| <= 1 then [if current.Some? then Some(current.value.id) else None]
    else
      var kept := NonPersistent(selection);
      var ids := seq(|kept|, i requires 0 <= i < |kept| => Some(kept[i].id));
      assert forall x :: x in selection && !x.persistent ==> Some(x.id) in ids by {
        forall x | x in selection && !x.persistent ensures Some(x.id) in ids {
          var i :| 0 <= i < |kept| && kept[i] == x;
          assert ids[i] == Some(x.id);
        }
      }
      match current
      case None => ids
      case Some(c) => if Some(c.id) in ids then ids else ids + [Some(c.id)]
  }

  /** The corrected list names the same objects as the icon handlers' own
      `GetSelectedObjectsAndCurrent`, which filters persistent objects without the skip. */
  lemma CorrectedAgreesWithIconHandlers(selection: seq<Selected>, current: Selected)
    requires |selection| > 1
    ensures forall x :: Some(x) in SelectedObjectsAndCurrent(true, selection, Some(current))
                        <==> x in ChangeIcons.SelectedObjectsAndCurrent(true, selection, Some(current.id))
  {
  }

  /** The list as written is not that set: an object the icon handlers leave out is in it. */
  lemma AsWrittenDisagreesWithIconHandlers()
    ensures var sel := [Selected(1, true), Selected(2, true), Selected(3, false)];
      && Some(2) in SelectedObjectsAndCurrentAsWritten(true, sel, Some(Selected(3, false)))
      && 2 !in ChangeIcons.SelectedObjectsAndCurrent(true, sel, Some(3))
  {
    PersistentSurvivesRemoveAt();
    var sel := [Selected(1, true), Selected(2, true), Selected(3, false)];
    assert Selected(2, true) in sel;
  }
}

=== FILE: find_type.dfy ===
/** `StringExtensions.FindType`: resolving a type by name with a process-wide cache. The
    editor's own assembly is searched first, then the assemblies loaded in the domain (read
    once and kept), and every answer is remembered, a miss included. */
module FindType {
  import opened Wrappers

  /** An assembly as `FindType` sees it: the type names its case-insensitive `GetType`
      resolves, and the type each resolves to. */
  datatype Assembly = Assembly(types: map<string, nat>)

  /** The two static fields, both null until first used. */
  datatype Cache = Cache(types: Option<map<string, Option<nat>>>, assemblies: Option<seq<Option<Assembly>>>)

  const Fresh := Cache(None, None)

  /** `FindTypeInAssembly`: a null assembly resolves nothing. */
  function FindTypeInAssembly(name: string, asm: Option<Assembly>): (r: Option<nat>)
    ensures r.Some? <==> asm.Some? && name in asm.value.types
    ensures r.Some? ==> r.value == asm.value.types[name]
  {
    if asm.None? || name !in asm.value.types then None else Some(asm.value.types[name])
  }

  /** The first assembly, in order, that resolves `name`, and what it resolves it to. */
  function FirstMatch(name: string, asms: seq<Option<Assembly>>): (r: Option<nat>)
    ensures r.None? <==> forall i :: 0 <= i < |asms| ==> FindTypeInAssembly(name, asms[i]).None?
    ensures r.Some? ==> exists i :: 0 <= i < |asms| && FindTypeInAssembly(name, asms[i]) == r
                                    && forall j :: 0 <= j < i ==> FindTypeInAssembly(name, asms[j]).None?
    decreases |asms|
  {
    if |asms| == 0 then None
    else
      var here := FindTypeInAssembly(name, asms[0]);
      if here.Some? then here
      else
        var rest := FirstMatch(name, asms[1..]);
        assert rest.Some? ==> exists i :: 1 <= i < |asms| && FindTypeInAssembly(name, asms[i]) == rest
                                  && forall j :: 0 <= j < i ==> FindTypeInAssembly(name, asms[j]).None? by {
          if rest.Some? {
            var i :| 0 <= i < |asms[1..]| && FindTypeInAssembly(name, asms[1..][i]) == rest
                     && forall j :: 0 <= j < i ==> FindTypeInAssembly(name, asms[1..][j]).None?;
            assert FindTypeInAssembly(name, asms[i + 1]) == rest;
            assert forall j :: 0 <= j < i + 1 ==> FindTypeInAssembly(name, asms[j]).None? by {
              forall j | 0 <= j < i + 1
                ensures FindTypeInAssembly(name, asms[j]).None?
              {
                if j > 0 { assert asms[j] == asms[1..][j - 1]; }
              }
            }
          }
        }
        assert rest.None? ==> forall i :: 0 <= i < |asms| ==> FindTypeInAssembly(name, asms[i]).None? by {
          if rest.None? {
            forall i | 0 <= i < |asms|
              ensures FindTypeInAssembly(name, asms[i]).None?
            {
              if i > 0 { assert asms[i] == asms[1..][i - 1]; }
            }
          }
        }
        rest
  }

  /** The `foreach` over the cached assemblies, leaving at the first match. */
  method SearchAssemblies(name: string, asms: seq<Option<Assembly>>) returns (r: Option<nat>)
    ensures r == FirstMatch(name, asms)
  {
    r := None;
    var i := 0;
    while i < |asms|
      invariant 0 <= i <= |asms|
      invariant r.None?
      invariant FirstMatch(name, asms) == FirstMatch(name, asms[i..])
    {
      r := FindTypeInAssembly(name, asms[i]);
      if r.Some? {
        return;
      }
      assert asms[i..][1..] == asms[i + 1..];
      i := i + 1;
    }
  }

  /** What a search without the cache answers: the editor assembly's type, else the first
      of `asms` that resolves the name. */
  function Resolve(name: string, editor: Option<Assembly>, asms: seq<Option<Assembly>>): Option<nat> {
    var own := FindTypeInAssembly(name, editor);
    if own.Some? then own else FirstMatch(name, asms)
  }

  /** `FindType`: `domain` is what `AppDomain.CurrentDomain.GetAssemblies()` would return
      at this call; it is read only if the assemblies were never read before and the editor
      assembly does not know the name. */
  function FindType(s: Cache, name: string, editor: Option<Assembly>, domain: seq<Option<Assembly>>): (r: (Option<nat>, Cache))
    ensures s.types.Some? && name in s.types.value ==> r == (s.types.value[name], s)
    ensures !(s.types.Some? && name in s.types.value) ==>
      && r.1.types == Some(s.types.GetOr(map[])[name := r.0])
      && (FindTypeInAssembly(name, editor).Some? ==> r.0 == FindTypeInAssembly(name, editor) && r.1.assemblies == s.assemblies)
      && (FindTypeInAssembly(name, editor).None? ==>
            && r.1.assemblies == Some(s.assemblies.GetOr(domain))
            && r.0 == FirstMatch(name, r.1.assemblies.value))
  {
    var types := s.types.GetOr(map[]);
    if name in types then (types[name], s.(types := Some(types)))
    else
      var own := FindTypeInAssembly(name, editor);
      if own.Some? then (own, s.(types := Some(types[name := own])))
      else
        var asms := s.assemblies.GetOr(domain);
        var found := FirstMatch(name, asms);
        (found, Cache(Some(types[name := found]), Some(asms)))
  }

  /** A second lookup of the same name returns what the first did and changes nothing,
      whatever assemblies are loaded by then: a miss stays a miss. */
  lemma SecondLookupIsCached(s: Cache, name: string, editor: Option<Assembly>, domain: seq<Option<Assembly>>,
                             editor2: Option<Assembly>, domain2: seq<Option<Assembly>>)
    ensures FindType(FindType(s, name, editor, domain).1, name, editor2, domain2)
            == (FindType(s, name, editor, domain).0, FindType(s, name, editor, domain).1)
  {
  }

  /** Once read, the domain's assemblies are never read again. */
  lemma AssembliesReadOnce(s: Cache, name: string, editor: Option<Assembly>, domain: seq<Option<Assembly>>)
    requires s.assemblies.Some?
    ensures FindType(s, name, editor, domain).1.assemblies == s.assemblies
  {
  }

  /** Every remembered answer is the one an uncached search over the kept assemblies would
      give; a name the editor assembly does not know is only remembered once the
      assemblies have been read. */
  predicate Consistent(s: Cache, editor: Option<Assembly>) {
    s.types.Some? ==>
      forall n :: n in s.types.value ==>
        if FindTypeInAssembly(n, editor).Some? then s.types.value[n] == FindTypeInAssembly(n, editor)
        else s.assemblies.Some? && s.types.value[n] == FirstMatch(n, s.assemblies.value)
  }

  /** With the same editor assembly every call, `FindType` keeps the cache consistent. */
  lemma FindTypeKeepsConsistent(s: Cache, name: string, editor: Option<Assembly>, domain: seq<Option<Assembly>>)
    requires Consistent(s, editor)
    ensures Consistent(FindType(s, name, editor, domain).1, editor)
  {
    var r := FindType(s, name, editor, domain);
    if !(s.types.Some? && name in s.types.value) && FindTypeInAssembly(name, editor).None? && s.assemblies.None? {
      assert s.types.Some? ==> forall n :: n in s.types.value ==> FindTypeInAssembly(n, editor).Some?;
    }
  }

  /** The cache is invisible: on a consistent cache, `FindType` answers what an uncached
      search over the assemblies it keeps answers. */
  lemma CacheIsTransparent(s: Cache, name: string, editor: Option<Assembly>, domain: seq<Option<Assembly>>)
    requires Consistent(s, editor)
    ensures var r := FindType(s, name, editor, domain);
      FindTypeInAssembly(name, editor).None? ==>
        r.1.assemblies.Some? && r.0 == Resolve(name, editor, r.1.assemblies.value)
    ensures FindTypeInAssembly(name, editor).Some? ==> FindType(s, name, editor, domain).0 == FindTypeInAssembly(name, editor)
  {
  }
}

=== FILE: geometry.dfy ===
/** Unity's `Rect`, kept as its four edges. Setting `xMin` keeps `xMax`, as Unity's
    setter does. Single-precision rounding is not modelled. */
module Geometry {

  datatype Rect = Rect(xMin: real, yMin: real, xMax: real, yMax: real) {
    function Width(): real { xMax - xMin }
    function Height(): real { yMax - yMin }
  }

  /** `Rect.Overlaps(other)` without `allowInverse`: the open interiors intersect. */
  predicate Overlaps(a: Rect, b: Rect) {
    b.xMax > a.xMin && b.xMin < a.xMax && b.yMax > a.yMin && b.yMin < a.yMax
  }

  lemma OverlapsSymmetric(a: Rect, b: Rect)
    ensures Overlaps(a, b) <==> Overlaps(b, a)
  {
  }
}

=== FILE: hierarchy_info.dfy ===
/** What `DrawItemInformation` records about the row being drawn, before anything is
    drawn: the current object, the event kind, whether this is the first row of a pass,
    the tag and layer visibility, and the rects later steps read. */
module HierarchyInfo {
  import opened Wrappers
  import opened Scene
  import opened Geometry
  import opened Utility
  import opened MiniLabels

  /** `Event.current.type`, as far as the plug-in tells kinds apart. */
  datatype EventType = MouseDown | MouseUp | MouseMove | MouseDrag | Repaint | Layout | OtherEvent(code: int)

  /** The row's object as the editor hands it over: the game object, whether reading its
      tag throws, how the label style sees it, and its components. */
  datatype RowObject = RowObject(
    go: GameObject, tagReadable: bool, styled: StyledObject, components: seq<Component>)

  /** The static fields `DrawItemInformation` writes. */
  datatype RowInfo = RowInfo(
    current: Option<RowObject>,
    isGameObject: bool,
    isRepaintEvent: bool,
    isFirstVisible: bool,
    lastEventType: EventType,
    gameObjectName: string,
    gameObjectTag: string,
    labelSize: real,
    labelOnlyRect: Rect,
    hasTag: bool,
    hasLayer: bool,
    style: LabelStyle,
    components: seq<Component>,
    finalRect: Rect,
    rawRect: Rect,
    fullSizeRect: Rect)

  /** One call: the row's object (None when the id is not a game object), the event, the
      row rect, the label's measured width and the native icon width. */
  datatype Call = Call(obj: Option<RowObject>, ev: EventType, rect: Rect, labelWidth: real, iconWidth: real)

  /** `DrawItemInformation`. Fields that only a game object sets keep their previous values
      when the row has none. */
  function DrawItemInformation(s: RowInfo, c: Call, hideDefaultTag: bool, hideDefaultLayer: bool): (r: RowInfo)
    ensures r.isFirstVisible <==> c.ev != s.lastEventType
    ensures r.lastEventType == c.ev
    ensures r.isRepaintEvent <==> c.ev == Repaint
    ensures r.isGameObject <==> c.obj.Some?
    ensures r.finalRect == if c.ev != s.lastEventType then s.rawRect else s.finalRect
    ensures r.rawRect == c.rect
    ensures r.fullSizeRect == c.rect.(xMin := 0.0)
    ensures c.obj.Some? ==>
      && r.gameObjectTag == (if c.obj.value.tagReadable then c.obj.value.go.tag else Untagged)
      && (r.hasTag <==> c.obj.value.go.tag != Untagged || !hideDefaultTag)
      && (r.hasLayer <==> c.obj.value.go.layer != UnLayered || !hideDefaultLayer)
      && r.labelOnlyRect.xMin == c.rect.xMin
      && r.labelOnlyRect.xMax == c.rect.xMin + c.labelWidth + c.iconWidth + 5.0
    ensures c.obj.None? ==>
      && r.gameObjectName == s.gameObjectName && r.gameObjectTag == s.gameObjectTag
      && r.hasTag == s.hasTag && r.hasLayer == s.hasLayer && r.labelOnlyRect == s.labelOnlyRect
      && r.labelSize == s.labelSize && r.style == s.style && r.components == s.components
  {
    var firstVisible := c.ev != s.lastEventType;
    var s1 := s.(current := c.obj, isGameObject := c.obj.Some?, isRepaintEvent := c.ev == Repaint,
                 isFirstVisible := firstVisible, lastEventType := c.ev);
    var s2 :=
      match c.obj
      case None => s1
      case Some(o) =>
        var labelSize := c.labelWidth + c.iconWidth + 5.0;
        s1.(gameObjectName := o.go.name,
            gameObjectTag := if o.tagReadable then o.go.tag else Untagged,
            labelSize := labelSize,
            labelOnlyRect := c.rect.(xMax := c.rect.xMin + labelSize),
            hasTag := o.go.tag != Untagged || !hideDefaultTag,
            hasLayer := o.go.layer != UnLayered || !hideDefaultLayer,
            style := GetHierarchyLabelStyle(o.styled),
            components := o.components);
    var s3 := if firstVisible then s2.(finalRect := s.rawRect) else s2;
    s3.(rawRect := c.rect, fullSizeRect := c.rect.(xMin := 0.0))
  }

  /** A sequence of calls, in order. */
  function DrawRows(s: RowInfo, calls: seq<Call>, hideDefaultTag: bool, hideDefaultLayer: bool): RowInfo
    decreases |calls|
  {
    if |calls| == 0 then s
    else DrawRows(DrawItemInformation(s, calls[0], hideDefaultTag, hideDefaultLayer), calls[1..], hideDefaultTag, hideDefaultLayer)
  }

  /** Over one pass of rows drawn for the same event, `FinalRect` ends up as the rect of the
      last row drawn for the previous event kind, and `RawRect` as the pass's last row. */
  lemma {:induction false} FinalRectIsPreviousPassEnd(s: RowInfo, calls: seq<Call>, ev: EventType, hideDefaultTag: bool, hideDefaultLayer: bool)
    requires |calls| > 0
    requires forall i :: 0 <= i < |calls| ==> calls[i].ev == ev
    requires s.lastEventType != ev
    ensures DrawRows(s, calls, hideDefaultTag, hideDefaultLayer).finalRect == s.rawRect
    ensures DrawRows(s, calls, hideDefaultTag, hideDefaultLayer).rawRect == calls[|calls| - 1].rect
    ensures DrawRows(s, calls, hideDefaultTag, hideDefaultLayer).lastEventType == ev
  {
    var s1 := DrawItemInformation(s, calls[0], hideDefaultTag, hideDefaultLayer);
    SamePassKeepsFinalRect(s1, calls[1..], ev, hideDefaultTag, hideDefaultLayer);
  }

  /** Rows after the first of a pass are not first-visible and leave `FinalRect` alone. */
  lemma {:induction false} SamePassKeepsFinalRect(s: RowInfo, calls: seq<Call>, ev: EventType, hideDefaultTag: bool, hideDefaultLayer: bool)
    requires forall i :: 0 <= i < |calls| ==> calls[i].ev == ev
    requires s.lastEventType == ev
    ensures DrawRows(s, calls, hideDefaultTag, hideDefaultLayer).finalRect == s.finalRect
    ensures DrawRows(s, calls, hideDefaultTag, hideDefaultLayer).lastEventType == ev
    ensures |calls| > 0 ==> DrawRows(s, calls, hideDefaultTag, hideDefaultLayer).rawRect == calls[|calls| - 1].rect
    ensures |calls| > 0 ==> !DrawRows(s, calls, hideDefaultTag, hideDefaultLayer).isFirstVisible
    ensures |calls| == 0 ==> DrawRows(s, calls, hideDefaultTag, hideDefaultLayer) == s
    decreases |calls|
  {
    if |calls| > 0 {
      var s1 := DrawItemInformation(s, calls[0], hideDefaultTag, hideDefaultLayer);
      SamePassKeepsFinalRect(s1, calls[1..], ev, hideDefaultTag, hideDefaultLayer);
      if |calls| > 1 {
        assert calls[1..][|calls[1..]| - 1] == calls[|calls| - 1];
      }
    }
  }
}

=== FILE: icons.dfy ===
/** Hierarchy icons: the position flags, the concrete icon classes with their names,
    sides and widths, name-based identity, the name registry and the per-position lists. */
module Icons {
  import opened Wrappers

  // ---------------------------------------------------------------------------
  // IconPosition

  const AfterObjectName: bv8 := 1
  const BeforeObjectName: bv8 := 2
  const RightMost: bv8 := 4
  const SafeArea: bv8 := AfterObjectName | RightMost
  const All: bv8 := SafeArea | BeforeObjectName

  predicate HasPosition(side: bv8, position: bv8) {
    side & position != 0
  }

  /** The three base positions are distinct single bits; SafeArea lacks the before-name
      bit and All has every base position. */
  lemma PositionFlags()
    ensures AfterObjectName == 1 && BeforeObjectName == 2 && RightMost == 4
    ensures AfterObjectName & BeforeObjectName == 0 && AfterObjectName & RightMost == 0 && BeforeObjectName & RightMost == 0
    ensures HasPosition(SafeArea, AfterObjectName) && HasPosition(SafeArea, RightMost)
    ensures !HasPosition(SafeArea, BeforeObjectName)
    ensures HasPosition(All, AfterObjectName) && HasPosition(All, BeforeObjectName) && HasPosition(All, RightMost)
  {
  }

  // ---------------------------------------------------------------------------
  // The concrete icon classes

  datatype IconKind =
    | Empty | Warnings | Sound | Memory
    | Active | Lock | Static | Layer | Tag | GameObjectIcon

  /** `Name`: the class name unless the class overrides it. */
  function Name(k: IconKind): string {
    match k
    case Empty => "None"
    case Warnings => "Logs, Warnings and Errors"
    case Sound => "Audio Source Icon"
    case Memory => "Memory Used"
    case Active => "ActiveIcon"
    case Lock => "LockIcon"
    case Static => "StaticIcon"
    case Layer => "LayerIcon"
    case Tag => "TagIcon"
    case GameObjectIcon => "GameObject Icon"
  }

  /** `Side`: SafeArea unless the class overrides it with All. */
  function Side(k: IconKind): bv8 {
    match k
    case Warnings => SafeArea
    case Sound => SafeArea
    case Memory => SafeArea
    case _ => All
  }

  lemma {:induction false} NamesIdentifyKinds(a: IconKind, b: IconKind)
    ensures Name(a) == Name(b) <==> a == b
  {
    if Name(a) == Name(b) {
      assert |Name(a)| == |Name(b)|;
      assert Name(a)[0] == Name(b)[0];
    }
  }

  const DefaultWidth: real := 16.0

  /** Inputs that the widths of the stateful icons read: how many of the warnings icon's
      text buffers are non-empty, whether the game-object icon has an image, and the
      animated or measured widths of the sound and memory icons. */
  datatype WidthInputs = WidthInputs(
    nonEmptyLogBuffers: nat, gameObjectHasImage: bool, soundWidth: real, memoryLabelWidth: real)

  function Width(k: IconKind, w: WidthInputs): real {
    match k
    case Empty => 0.0
    case Warnings => DefaultWidth * w.nonEmptyLogBuffers as real
    case GameObjectIcon => if w.gameObjectHasImage then DefaultWidth else 0.0
    case Sound => w.soundWidth
    case Memory => w.memoryLabelWidth + 4.0
    case _ => DefaultWidth
  }

  /** The "None" icon takes no room and qualifies for every position list. */
  lemma EmptyIconFacts(w: WidthInputs)
    ensures Name(Empty) == "None"
    ensures Width(Empty, w) == 0.0
    ensures Side(Empty) == All
    ensures HasPosition(Side(Empty), AfterObjectName) && HasPosition(Side(Empty), BeforeObjectName)
            && HasPosition(Side(Empty), RightMost)
  {
  }

  // ---------------------------------------------------------------------------
  // References and name-based equality

  /** A `HierarchyIcon` reference: null, or an instance (a serial number standing for the
      object's identity) of a concrete class. */
  datatype IconRef = NullIcon | Instance(serial: nat, kind: IconKind)

  /** `operator ==`: same reference, else false if either side is null, else same Name. */
  predicate IconEq(a: IconRef, b: IconRef) {
    if a == b then true
    else if a.NullIcon? then false
    else if b.NullIcon? then false
    else Name(a.kind) == Name(b.kind)
  }

  /** `operator !=`. */
  predicate IconNe(a: IconRef, b: IconRef) {
    !IconEq(a, b)
  }

  /** Two icons are equal exactly when both are null or both are instances of one class. */
  lemma IconEqMeaning(a: IconRef, b: IconRef)
    ensures IconEq(a, b) <==> (a.NullIcon? && b.NullIcon?) || (a.Instance? && b.Instance? && a.kind == b.kind)
    ensures IconNe(a, b) <==> !IconEq(a, b)
  {
    if a.Instance? && b.Instance? {
      NamesIdentifyKinds(a.kind, b.kind);
    }
  }

  lemma IconEqIsEquivalence(a: IconRef, b: IconRef, c: IconRef)
    ensures IconEq(a, a)
    ensures IconEq(a, b) ==> IconEq(b, a)
    ensures IconEq(a, b) && IconEq(b, c) ==> IconEq(a, c)
  {
    IconEqMeaning(a, b);
    IconEqMeaning(b, c);
    IconEqMeaning(a, c);
  }

  /** An argument of `Equals(object)`: an icon reference or some other object. */
  datatype Obj = IconObj(icon: IconRef) | OtherObj

  function AsIcon(o: Obj): IconRef {
    match o
    case IconObj(i) => i
    case OtherObj => NullIcon
  }

  /** `Equals(object)` on a non-null icon: `obj as HierarchyIcon == this`. */
  predicate IconEquals(self: IconRef, o: Obj)
    requires self.Instance?
  {
    IconEq(AsIcon(o), self)
  }

  lemma EqualsAgreesWithEq(self: IconRef, o: Obj)
    requires self.Instance?
    ensures o.OtherObj? ==> !IconEquals(self, o)
    ensures o.IconObj? ==> (IconEquals(self, o) <==> IconEq(self, o.icon))
  {
    if o.IconObj? {
      IconEqMeaning(self, o.icon);
      IconEqMeaning(o.icon, self);
    }
  }

  /** A deterministic stand-in for `String.GetHashCode` (the runtime's own function is
      randomised per process); only its dependence on the string matters. */
  function StringHash(s: string): int {
    if |s| == 0 then 0 else (StringHash(s[..|s| - 1]) * 31 + s[|s| - 1] as int) % 0x1_0000_0000
  }

  /** `GetHashCode`: the hash of the Name. */
  function HashCode(i: IconRef): int
    requires i.Instance?
  {
    StringHash(Name(i.kind))
  }

  lemma EqualIconsHashEqually(a: IconRef, b: IconRef)
    requires a.Instance? && b.Instance?
    requires IconEq(a, b)
    ensures HashCode(a) == HashCode(b)
  {
    IconEqMeaning(a, b);
  }

  // ---------------------------------------------------------------------------
  // The registry

  /** Every concrete subclass of HierarchyIcon, in the order the assembly lists them. */
  const AllKinds: seq<IconKind> :=
    [Empty, Warnings, Sound, Memory, Active, Lock, Static, Layer, Tag, GameObjectIcon]

  /** The instances the static constructor creates, one per class, serials 0..9. */
  function RegisteredIcons(): (r: seq<IconRef>)
    ensures |r| == |AllKinds|
    ensures forall i :: 0 <= i < |r| ==> r[i] == Instance(i, AllKinds[i])
  {
    seq(|AllKinds|, i requires 0 <= i < |AllKinds| => Instance(i, AllKinds[i]))
  }

  /** The separate `HierarchyIcon.EmptyIcon` static instance. */
  const EmptyIcon: IconRef := Instance(|AllKinds|, Empty)

  predicate AllInstances(icons: seq<IconRef>) {
    forall i :: 0 <= i < |icons| ==> icons[i].Instance?
  }

  predicate KeysDistinct<V>(items: seq<V>, key: V -> string) {
    forall i, j :: 0 <= i < j < |items| ==> key(items[i]) != key(items[j])
  }

  /** `ToDictionary(key)`: None when two items share a key (the call throws). */
  function ToDictionary<V(==)>(items: seq<V>, key: V -> string): (r: Option<map<string, V>>)
    ensures r.Some? <==> KeysDistinct(items, key)
    ensures r.Some? ==> forall n :: n in r.value <==> exists i :: 0 <= i < |items| && key(items[i]) == n
    ensures r.Some? ==> forall n :: n in r.value ==> r.value[n] in items && key(r.value[n]) == n
    decreases |items|
  {
    if |items| == 0 then Some(map[])
    else
      var init := items[..|items| - 1];
      var last := items[|items| - 1];
      match ToDictionary(init, key)
      case None => None
      case Some(m) =>
        if key(last) in m then None
        else Some(m[key(last) := last])
  }

  /** The key the registry files an icon under: its Name (null has none). */
  function IconKey(i: IconRef): string {
    if i.Instance? then Name(i.kind) else ""
  }

  lemma RegistryBuilds()
    ensures ToDictionary(RegisteredIcons(), IconKey).Some?
  {
    var icons := RegisteredIcons();
    forall i, j | 0 <= i < j < |icons|
      ensures IconKey(icons[i]) != IconKey(icons[j])
    {
      assert icons[i].kind == AllKinds[i] && icons[j].kind == AllKinds[j];
      KindIndexUnique(AllKinds[i], i);
      KindIndexUnique(AllKinds[j], j);
      NamesIdentifyKinds(icons[i].kind, icons[j].kind);
    }
  }

  /** The static `_icons` dictionary, keyed by each icon's Name. */
  function Registry(): (m: map<string, IconRef>)
    ensures forall k :: Name(k) in m && m[Name(k)] == Instance(KindIndex(k), k)
    ensures forall n :: n in m ==> m[n].Instance? && Name(m[n].kind) == n
  {
    RegistryBuilds();
    var regs := RegisteredIcons();
    var m := ToDictionary(regs, IconKey).value;
    forall n | n in m ensures m[n].Instance? && Name(m[n].kind) == n {
      var j :| 0 <= j < |regs| && regs[j] == m[n];
    }
    forall k ensures Name(k) in m && m[Name(k)] == Instance(KindIndex(k), k) {
      assert IconKey(regs[KindIndex(k)]) == Name(k);
      var j :| 0 <= j < |regs| && regs[j] == m[Name(k)];
      NamesIdentifyKinds(AllKinds[j], k);
      KindIndexUnique(k, j);
    }
    m
  }

  function KindIndex(k: IconKind): (i: nat)
    ensures i < |AllKinds| && AllKinds[i] == k
  {
    match k
    case Empty => 0
    case Warnings => 1
    case Sound => 2
    case Memory => 3
    case Active => 4
    case Lock => 5
    case Static => 6
    case Layer => 7
    case Tag => 8
    case GameObjectIcon => 9
  }

  lemma KindIndexUnique(k: IconKind, j: nat)
    requires j < |AllKinds| && AllKinds[j] == k
    ensures j == KindIndex(k)
  {
  }

  /** The implicit conversion from a name: the registered icon, or the static EmptyIcon. */
  function FromName(name: string): (r: IconRef)
    ensures r.Instance?
    ensures name in Registry() ==> Name(r.kind) == name
    ensures name !in Registry() ==> r == EmptyIcon
  {
    var m := Registry();
    if name in m then m[name] else EmptyIcon
  }

  /** Every class's name converts back to an icon equal to any instance of that class,
      and a name no class has converts to an icon equal to EmptyIcon. */
  lemma FromNameRoundTrip(i: IconRef, name: string)
    requires i.Instance?
    ensures IconEq(FromName(Name(i.kind)), i)
    ensures (forall k :: Name(k) != name) ==> IconEq(FromName(name), EmptyIcon)
  {
    var r := FromName(Name(i.kind));
    assert Name(i.kind) in Registry();
    IconEqMeaning(r, i);
    NamesIdentifyKinds(r.kind, i.kind);
    if forall k :: Name(k) != name {
      assert name !in Registry();
    }
  }

  // ---------------------------------------------------------------------------
  // Position lists

  function WithPosition(icons: seq<IconRef>, position: bv8): (r: seq<IconRef>)
    requires AllInstances(icons)
    ensures AllInstances(r)
    ensures forall x :: x in r <==> x in icons && HasPosition(Side(x.kind), position)
  {
    if |icons| == 0 then []
    else
      var rest := WithPosition(icons[1..], position);
      if HasPosition(Side(icons[0].kind), position) then [icons[0]] + rest else rest
  }

  /** AllLeftOfNameIcons, AllLeftIcons and AllRightIcons. */
  function AllLeftOfNameIcons(): seq<IconRef> {
    WithPosition(RegisteredIcons(), BeforeObjectName)
  }

  function AllLeftIcons(): seq<IconRef> {
    WithPosition(RegisteredIcons(), AfterObjectName)
  }

  function AllRightIcons(): seq<IconRef> {
    WithPosition(RegisteredIcons(), RightMost)
  }

  /** The registered "None" icon is offered in every list; icons on the default side
      never appear before the name. */
  lemma PositionLists(k: IconKind)
    ensures Instance(0, Empty) in AllLeftOfNameIcons()
    ensures Instance(0, Empty) in AllLeftIcons() && Instance(0, Empty) in AllRightIcons()
    ensures Side(k) == SafeArea ==> forall x :: x in AllLeftOfNameIcons() ==> x.kind != k
    ensures Instance(KindIndex(k), k) in AllLeftIcons() && Instance(KindIndex(k), k) in AllRightIcons()
  {
    var regs := RegisteredIcons();
    assert regs[0] == Instance(0, Empty);
    assert regs[KindIndex(k)] == Instance(KindIndex(k), k);
  }

  // ---------------------------------------------------------------------------
  // List<HierarchyIcon> operations, which compare with Equals

  /** `List.Contains`. */
  predicate ContainsIcon(list: seq<IconRef>, x: IconRef) {
    exists i :: 0 <= i < |list| && IconEq(list[i], x)
  }

  /** Index of the first element equal to `x`, or -1 (`List.IndexOf` / `Array.IndexOf`). */
  function IndexOfIcon(list: seq<IconRef>, x: IconRef): (r: int)
    ensures -1 <= r < |list|
    ensures r == -1 <==> !ContainsIcon(list, x)
    ensures r >= 0 ==> IconEq(list[r], x) && forall j :: 0 <= j < r ==> !IconEq(list[j], x)
  {
    if |list| == 0 then -1
    else if IconEq(list[0], x) then 0
    else
      var r := IndexOfIcon(list[1..], x);
      if r == -1 then
        assert forall i :: 1 <= i < |list| ==> list[i] == list[1..][i - 1];
        -1
      else r + 1
  }

  /** `List.Remove`: drops the first element equal to `x`. */
  function RemoveIcon(list: seq<IconRef>, x: IconRef): (r: seq<IconRef>)
    ensures !ContainsIcon(list, x) ==> r == list
    ensures ContainsIcon(list, x) ==> r == list[..IndexOfIcon(list, x)] + list[IndexOfIcon(list, x) + 1..]
  {
    var i := IndexOfIcon(list, x);
    if i < 0 then list else list[..i] + list[i + 1..]
  }

  /** No two elements of `list` equal `x`. */
  predicate AtMostOneEqual(list: seq<IconRef>, x: IconRef) {
    forall i, j :: 0 <= i < j < |list| && IconEq(list[i], x) ==> !IconEq(list[j], x)
  }

  /** Removing `x` leaves every icon unequal to `x` as present as before, and removes `x`
      itself completely when the list held it at most once. */
  lemma RemoveIconContains(list: seq<IconRef>, x: IconRef, c: IconRef)
    ensures !IconEq(c, x) ==> (ContainsIcon(RemoveIcon(list, x), c) <==> ContainsIcon(list, c))
    ensures AtMostOneEqual(list, x) ==> !ContainsIcon(RemoveIcon(list, x), x)
  {
    var r := RemoveIcon(list, x);
    if ContainsIcon(list, x) {
      var k := IndexOfIcon(list, x);
      assert forall i :: 0 <= i < k ==> r[i] == list[i];
      assert forall i :: k <= i < |r| ==> r[i] == list[i + 1];
      if !IconEq(c, x) {
        if ContainsIcon(list, c) {
          var i :| 0 <= i < |list| && IconEq(list[i], c);
          if i == k {
            IconEqIsEquivalence(c, list[k], x);
            IconEqIsEquivalence(list[k], c, x);
          } else if i < k {
            assert IconEq(r[i], c);
          } else {
            assert IconEq(r[i - 1], c);
          }
        }
        if ContainsIcon(r, c) {
          var i :| 0 <= i < |r| && IconEq(r[i], c);
          if i < k {
            assert IconEq(list[i], c);
          } else {
            assert IconEq(list[i + 1], c);
          }
        }
      }
      if AtMostOneEqual(list, x) {
        forall i | 0 <= i < |r|
          ensures !IconEq(r[i], x)
        {
          if i >= k {
            assert r[i] == list[i + 1];
          }
        }
      }
    }
  }
}

=== FILE: log_entry.dfy ===
/** The console entries the warnings icon shows: how one native entry becomes a
    `LogEntry`, how a reload sorts the entries into compile entries and per-object groups,
    and when the editor's update loop decides to reload. */
module LogEntries {
  import opened Wrappers

  /** The bits of the editor's entry mode the plug-in tests. The enum itself belongs to the
      editor, so its numeric values are not modelled: a mode is the set of its flags. */
  datatype EntryFlag =
    | ScriptCompileWarning | AssetImportWarning
    | ScriptingLog | ScriptingWarning | ScriptingError | ScriptingException | ScriptingAssertion
    | OtherFlag(code: nat)

  type EntryMode = set<EntryFlag>

  /** `HasMode`: `(Mode & toCheck) != 0`. */
  predicate HasMode(mode: EntryMode, toCheck: EntryMode) {
    mode * toCheck != {}
  }

  lemma HasModeMeaning(mode: EntryMode, toCheck: EntryMode)
    ensures HasMode(mode, toCheck) <==> exists f :: f in mode && f in toCheck
  {
    if HasMode(mode, toCheck) {
      var f :| f in mode * toCheck;
      assert f in mode && f in toCheck;
    }
    if exists f :: f in mode && f in toCheck {
      var f :| f in mode && f in toCheck;
      assert f in mode * toCheck;
    }
  }

  /** What an instance id resolves to: nothing, a game object, a component of one (by the
      game object's id; None for a destroyed component), a script asset (with its class,
      if it has one), or any other object. */
  datatype ObjectRef =
    | NoObject
    | GameObjectObj(id: nat)
    | ComponentObj(owner: Option<nat>)
    | ScriptObj(scriptClass: Option<nat>)
    | OtherObject

  /** The editor's native entry, field by field; a missing field is None. */
  datatype NativeEntry = NativeEntry(
    condition: Option<string>, message: Option<string>,
    file: string, mode: EntryMode, instanceID: int)

  datatype LogEntry = LogEntry(
    file: string, classType: Option<nat>, objectReference: ObjectRef,
    text: string, rowIndex: nat, mode: EntryMode)

  /** The `LogEntry` constructor: the message comes from `condition`, else from `message`,
      else construction fails. The instance id 0 refers to no object; a script asset gives
      the class type. */
  function NewLogEntry(n: NativeEntry, row: nat, resolve: int -> ObjectRef): (r: Result<LogEntry, Exception>)
    ensures r.Failure? <==> n.condition.None? && n.message.None?
    ensures r.Failure? ==> r.error == MissingField
    ensures r.Success? ==>
      && r.value.text == (if n.condition.Some? then n.condition.value else n.message.value)
      && r.value.rowIndex == row && r.value.file == n.file && r.value.mode == n.mode
      && (n.instanceID == 0 ==> r.value.objectReference == NoObject && r.value.classType.None?)
      && (r.value.classType.Some? <==> r.value.objectReference.ScriptObj? && r.value.objectReference.scriptClass.Some?)
  {
    var text :- (if n.condition.Some? then Success(n.condition.value)
                 else if n.message.Some? then Success(n.message.value)
                 else Failure(MissingField));
    var obj := if n.instanceID != 0 then resolve(n.instanceID) else NoObject;
    var classType := if obj.ScriptObj? then obj.scriptClass else None;
    Success(LogEntry(n.file, classType, obj, text, row, n.mode))
  }

  /** The game object an entry belongs to: the referenced game object, or the game object
      of a referenced component. */
  function Owner(e: LogEntry): Option<nat> {
    match e.objectReference
    case GameObjectObj(id) => Some(id)
    case ComponentObj(owner) => owner
    case _ => None
  }

  /** Entries listed in increasing row order. */
  predicate RowOrdered(es: seq<LogEntry>) {
    forall i, j :: 0 <= i < j < |es| ==> es[i].rowIndex < es[j].rowIndex
  }

  /** The entries a reload reads: every native entry in row order, up to the first one
      whose constructor throws; `failed` says whether one did. */
  function ReadEntries(natives: seq<NativeEntry>, resolve: int -> ObjectRef, from: nat): (r: (seq<LogEntry>, bool))
    requires from <= |natives|
    ensures |r.0| <= |natives| - from
    ensures forall k :: from <= k < from + |r.0| ==> NewLogEntry(natives[k], k, resolve) == Success(r.0[k - from])
    ensures forall k :: 0 <= k < |r.0| ==> r.0[k].rowIndex == from + k
    ensures r.1 <==> from + |r.0| < |natives|
    ensures r.1 ==> NewLogEntry(natives[from + |r.0|], from + |r.0|, resolve).Failure?
    decreases |natives| - from
  {
    if from == |natives| then ([], false)
    else
      match NewLogEntry(natives[from], from, resolve)
      case Failure(_) => ([], true)
      case Success(e) =>
        var rest := ReadEntries(natives, resolve, from + 1);
        ([e] + rest.0, rest.1)
  }

  /** The compile entries among `es`: those with a class type, in order. */
  function CompileEntriesOf(es: seq<LogEntry>): (r: seq<LogEntry>)
    ensures forall e :: e in r <==> e in es && e.classType.Some?
  {
    if |es| == 0 then []
    else (if es[0].classType.Some? then [es[0]] else []) + CompileEntriesOf(es[1..])
  }

  /** The entries among `es` that belong to game object `go`, in order. */
  function EntriesOwnedBy(es: seq<LogEntry>, go: nat): (r: seq<LogEntry>)
    ensures forall e :: e in r <==> e in es && Owner(e) == Some(go)
  {
    if |es| == 0 then []
    else (if Owner(es[0]) == Some(go) then [es[0]] else []) + EntriesOwnedBy(es[1..], go)
  }

  /** Keeping a sublist keeps the row order. */
  lemma {:induction false} FiltersKeepRowOrder(es: seq<LogEntry>, go: nat)
    requires RowOrdered(es)
    ensures RowOrdered(CompileEntriesOf(es))
    ensures RowOrdered(EntriesOwnedBy(es, go))
  {
    if |es| > 0 {
      assert RowOrdered(es[1..]);
      FiltersKeepRowOrder(es[1..], go);
      forall e | e in es[1..] ensures es[0].rowIndex < e.rowIndex {
        var j :| 0 <= j < |es[1..]| && es[1..][j] == e;
        assert es[j + 1] == e;
      }
      ConsKeepsRowOrder(es[0], CompileEntriesOf(es[1..]));
      ConsKeepsRowOrder(es[0], EntriesOwnedBy(es[1..], go));
    }
  }

  lemma ConsKeepsRowOrder(e: LogEntry, es: seq<LogEntry>)
    requires RowOrdered(es)
    requires forall x :: x in es ==> e.rowIndex < x.rowIndex
    ensures RowOrdered([e] + es)
  {
    var r := [e] + es;
    forall i, j | 0 <= i < j < |r| ensures r[i].rowIndex < r[j].rowIndex {
      assert r[j] == es[j - 1];
      if i > 0 {
        assert r[i] == es[i - 1];
      } else {
        assert es[j - 1] in es;
      }
    }
  }

  lemma {:induction false} OwnedSnoc(es: seq<LogEntry>, e: LogEntry, go: nat)
    ensures EntriesOwnedBy(es + [e], go) == EntriesOwnedBy(es, go) + (if Owner(e) == Some(go) then [e] else [])
  {
    if |es| > 0 {
      assert (es + [e])[1..] == es[1..] + [e];
      OwnedSnoc(es[1..], e, go);
    } else {
      assert [e][1..] == [];
    }
  }

  /** `GameObjectEntries[go].Add(entry)`, creating the list on first use. */
  function AddToGroup(groups: map<nat, seq<LogEntry>>, e: LogEntry): map<nat, seq<LogEntry>> {
    match Owner(e)
    case Some(go) => groups[go := (if go in groups then groups[go] else []) + [e]]
    case None => groups
  }

  /** The per-object groups the loop builds, entry after entry. */
  function GroupsOf(es: seq<LogEntry>): map<nat, seq<LogEntry>>
    decreases |es|
  {
    if |es| == 0 then map[] else AddToGroup(GroupsOf(es[..|es| - 1]), es[|es| - 1])
  }

  /** The groups are keyed by exactly the game objects some entry belongs to, and each holds
      that object's entries in the order they were read. */
  lemma {:induction false} GroupsOfMeaning(es: seq<LogEntry>, go: nat)
    ensures go in GroupsOf(es) <==> exists e :: e in es && Owner(e) == Some(go)
    ensures go in GroupsOf(es) ==> GroupsOf(es)[go] == EntriesOwnedBy(es, go)
    ensures go !in GroupsOf(es) ==> EntriesOwnedBy(es, go) == []
    decreases |es|
  {
    if |es| > 0 {
      var init := es[..|es| - 1];
      var last := es[|es| - 1];
      assert es == init + [last];
      GroupsOfMeaning(init, go);
      OwnedSnoc(init, last, go);
      if exists e :: e in es && Owner(e) == Some(go) {
        var e :| e in es && Owner(e) == Some(go);
        if e != last {
          assert e in init;
        }
      }
    }
  }

  /** `e` is what the constructor makes of its row, and no row up to it throws. */
  predicate ReadsAs(natives: seq<NativeEntry>, resolve: int -> ObjectRef, e: LogEntry) {
    && e.rowIndex < |natives|
    && (forall i :: 0 <= i <= e.rowIndex ==> NewLogEntry(natives[i], i, resolve).Success?)
    && NewLogEntry(natives[e.rowIndex], e.rowIndex, resolve) == Success(e)
  }

  /** A reload gets past every row up to one that does not throw. */
  lemma ReadReachesRow(natives: seq<NativeEntry>, resolve: int -> ObjectRef, n: nat)
    requires n < |natives|
    requires forall i :: 0 <= i <= n ==> NewLogEntry(natives[i], i, resolve).Success?
    ensures n < |ReadEntries(natives, resolve, 0).0|
  {
  }

  lemma ReadEntriesMembership(natives: seq<NativeEntry>, resolve: int -> ObjectRef, e: LogEntry)
    ensures e in ReadEntries(natives, resolve, 0).0 <==> ReadsAs(natives, resolve, e)
  {
    var read := ReadEntries(natives, resolve, 0).0;
    if ReadsAs(natives, resolve, e) {
      ReadReachesRow(natives, resolve, e.rowIndex);
      assert read[e.rowIndex] == e;
    }
    if e in read {
      var k :| 0 <= k < |read| && read[k] == e;
      assert forall i :: 0 <= i <= k ==> NewLogEntry(natives[i], i, resolve) == Success(read[i]);
    }
  }

  lemma ReadFailsAtFirstFailure(natives: seq<NativeEntry>, resolve: int -> ObjectRef)
    ensures ReadEntries(natives, resolve, 0).1 <==> exists i :: 0 <= i < |natives| && NewLogEntry(natives[i], i, resolve).Failure?
  {
    var read := ReadEntries(natives, resolve, 0);
    if exists i :: 0 <= i < |natives| && NewLogEntry(natives[i], i, resolve).Failure? {
      var i :| 0 <= i < |natives| && NewLogEntry(natives[i], i, resolve).Failure?;
      assert i >= |read.0|;
    }
  }

  /** What a reload leaves behind. */
  datatype Reloaded = Reloaded(compileEntries: seq<LogEntry>, gameObjectEntries: map<nat, seq<LogEntry>>, failed: bool)

  /** `ReloadReferences`: both collections are emptied, then every entry read is added to
      the compile entries when it has a class type and to the group of the game object it
      belongs to. A throwing constructor ends the reload with what was added so far. */
  function ReloadReferences(natives: seq<NativeEntry>, resolve: int -> ObjectRef): (r: Reloaded)
    ensures r.failed <==> exists i :: 0 <= i < |natives| && NewLogEntry(natives[i], i, resolve).Failure?
    ensures RowOrdered(r.compileEntries)
    ensures forall e :: e in r.compileEntries <==> e.classType.Some? && ReadsAs(natives, resolve, e)
  {
    var read := ReadEntries(natives, resolve, 0);
    assert RowOrdered(read.0);
    FiltersKeepRowOrder(read.0, 0);
    ReadFailsAtFirstFailure(natives, resolve);
    assert forall e :: e in read.0 <==> ReadsAs(natives, resolve, e) by {
      forall e ensures e in read.0 <==> ReadsAs(natives, resolve, e) {
        ReadEntriesMembership(natives, resolve, e);
      }
    }
    Reloaded(CompileEntriesOf(read.0), GroupsOf(read.0), read.1)
  }

  /** The groups a reload builds hold, per game object, exactly the entries read for it. */
  lemma ReloadGroups(natives: seq<NativeEntry>, resolve: int -> ObjectRef, go: nat)
    ensures var r := ReloadReferences(natives, resolve);
      var read := ReadEntries(natives, resolve, 0).0;
      && (go in r.gameObjectEntries <==> exists e :: e in read && Owner(e) == Some(go))
      && (go in r.gameObjectEntries ==> r.gameObjectEntries[go] == EntriesOwnedBy(read, go) && RowOrdered(r.gameObjectEntries[go]))
  {
    var read := ReadEntries(natives, resolve, 0).0;
    GroupsOfMeaning(read, go);
    assert RowOrdered(read);
    FiltersKeepRowOrder(read, go);
  }

  // ---------------------------------------------------------------------------
  // The update loop

  const UpdateSecondsCooldown: real := 0.75

  /** The static state behind the update loop. */
  datatype Dirtiness = Dirtiness(
    entriesDirty: bool, lastCompileFailedState: bool, lastUpdatedTime: real, lastCount: int)

  /** `MarkEntriesDirty`: sets the flag when the warnings icon is enabled; never clears it. */
  function MarkEntriesDirty(s: Dirtiness, warningsEnabled: bool): (r: Dirtiness)
    ensures r.entriesDirty <==> s.entriesDirty || warningsEnabled
    ensures r.lastCompileFailedState == s.lastCompileFailedState && r.lastUpdatedTime == s.lastUpdatedTime
    ensures r.lastCount == s.lastCount
  {
    if !s.entriesDirty && warningsEnabled then s.(entriesDirty := true) else s
  }

  /** The state left by a reload, whether or not it failed: clean, updated now. */
  function AfterReload(s: Dirtiness, now: real): Dirtiness {
    s.(entriesDirty := false, lastUpdatedTime := now)
  }

  /** One tick of the update loop: the new state and whether a reload ran. */
  function UpdateTick(s: Dirtiness, now: real, compileFailed: bool, logCount: int, warningsEnabled: bool): (r: (Dirtiness, bool))
    ensures r.1 ==> now - s.lastUpdatedTime > UpdateSecondsCooldown
    ensures r.1 ==> !r.0.entriesDirty && r.0.lastUpdatedTime == now
    ensures !r.1 ==> r.0.lastUpdatedTime == s.lastUpdatedTime
    ensures s.entriesDirty && now - s.lastUpdatedTime > UpdateSecondsCooldown ==> r.1
    ensures !s.entriesDirty && !warningsEnabled ==> !r.1 && !r.0.entriesDirty
  {
    var s1 :=
      if !s.entriesDirty && compileFailed != s.lastCompileFailedState
      then MarkEntriesDirty(s.(lastCompileFailedState := compileFailed), warningsEnabled)
      else s;
    if now - s1.lastUpdatedTime > UpdateSecondsCooldown then
      var s2 :=
        if !s1.entriesDirty then
          (if s1.lastCount > logCount then MarkEntriesDirty(s1, warningsEnabled) else s1).(lastCount := logCount)
        else s1;
      if s2.entriesDirty then (AfterReload(s2, now), true) else (s2, false)
    else (s1, false)
  }

  /** Reloads happen exactly when the cooldown has passed and, after this tick's checks,
      the entries are dirty: they were already, or the warnings icon is enabled and the
      compile state flipped or the log count dropped. */
  lemma UpdateTickReloadsWhen(s: Dirtiness, now: real, compileFailed: bool, logCount: int, warningsEnabled: bool)
    ensures UpdateTick(s, now, compileFailed, logCount, warningsEnabled).1 <==>
      now - s.lastUpdatedTime > UpdateSecondsCooldown &&
      (s.entriesDirty || (warningsEnabled && (compileFailed != s.lastCompileFailedState || s.lastCount > logCount)))
  {
  }

  /** Ticks inside the cooldown never reload, and a clean state stays clean until the
      compile state changes or the icon is enabled; the log count is then left as it was. */
  lemma CooldownBlocksReload(s: Dirtiness, now: real, compileFailed: bool, logCount: int, warningsEnabled: bool)
    requires now - s.lastUpdatedTime <= UpdateSecondsCooldown
    ensures !UpdateTick(s, now, compileFailed, logCount, warningsEnabled).1
    ensures UpdateTick(s, now, compileFailed, logCount, warningsEnabled).0.lastCount == s.lastCount
  {
  }
}

=== FILE: minilabels.dfy ===
/** Mini labels: the small tag / layer / sorting-layer label drawn next to an object's
    name. A provider fills its text from the current row, may fade it, and draws it
    right-aligned, moving the caller's rect left by the text's measured width. */
module MiniLabels {
  import opened Wrappers
  import opened Text
  import opened Geometry

  datatype MiniLabelKind = TagLabel | LayerLabel | SortingLayerLabel

  /** `MiniLabelsTypes`: index 0 stands for "None". */
  const MiniLabelsTypes: seq<Option<MiniLabelKind>> :=
    [None, Some(TagLabel), Some(LayerLabel), Some(SortingLayerLabel)]

  /** `Array.IndexOf(MiniLabelsTypes, typeof(k))`. */
  function MiniLabelIndex(k: MiniLabelKind): (i: nat)
    ensures 0 < i < |MiniLabelsTypes| && MiniLabelsTypes[i] == Some(k)
    ensures forall j :: 0 <= j < |MiniLabelsTypes| && MiniLabelsTypes[j] == Some(k) ==> j == i
  {
    match k
    case TagLabel => 1
    case LayerLabel => 2
    case SortingLayerLabel => 3
  }

  /** `ObjectNames.NicifyVariableName` of the type name without "MiniLabel", as the
      preferences popup shows it; "None" for the empty slot. */
  function MiniLabelName(t: Option<MiniLabelKind>): string {
    match t
    case None => "None"
    case Some(TagLabel) => "Tag"
    case Some(LayerLabel) => "Layer"
    case Some(SortingLayerLabel) => "Sorting Layer"
  }

  const Untagged: string := "Untagged"
  const UnLayered: int := 0
  const DefaultSortingLayer: string := "Default"

  /** A renderer-like component's sorting settings. */
  datatype Sorting = Sorting(sortingLayerName: string, sortingOrder: int)

  /** The components of the current object, as far as the sorting-layer label looks. */
  datatype Component =
    | SortingGroup(s: Sorting)
    | SpriteRenderer(s: Sorting)
    | ParticleSystemRenderer(s: Sorting)
    | OtherComponent

  /** What a provider reads about the current row. `layerName` is
      `LayerMask.LayerToName` of the object's layer. */
  datatype Row = Row(
    hasTag: bool, gameObjectTag: string,
    hasLayer: bool, layer: int, layerName: string,
    components: seq<Component>, tooltips: bool)

  /** A provider and its content. The sorting-layer fields are that class's private
      state; they start as null and 0 and survive refills. */
  datatype Provider = Provider(
    kind: MiniLabelKind, text: string, tooltip: string,
    sortLayerName: Option<string>, sortOrder: int)

  /** A provider as `Activator.CreateInstance` makes it: empty content. */
  function NewProvider(kind: MiniLabelKind): Provider {
    Provider(kind, "", "", None, 0)
  }

  function FirstSortingGroup(cs: seq<Component>): (r: Option<Sorting>)
    ensures r.Some? <==> exists i :: 0 <= i < |cs| && cs[i].SortingGroup?
    ensures r.Some? ==> exists i :: 0 <= i < |cs| && cs[i] == SortingGroup(r.value) && forall j :: 0 <= j < i ==> !cs[j].SortingGroup?
  {
    if |cs| == 0 then None
    else if cs[0].SortingGroup? then Some(cs[0].s)
    else
      var r := FirstSortingGroup(cs[1..]);
      assert forall i :: 1 <= i < |cs| ==> cs[i] == cs[1..][i - 1];
      r
  }

  function FirstSpriteRenderer(cs: seq<Component>): (r: Option<Sorting>)
    ensures r.Some? <==> exists i :: 0 <= i < |cs| && cs[i].SpriteRenderer?
    ensures r.Some? ==> exists i :: 0 <= i < |cs| && cs[i] == SpriteRenderer(r.value) && forall j :: 0 <= j < i ==> !cs[j].SpriteRenderer?
  {
    if |cs| == 0 then None
    else if cs[0].SpriteRenderer? then Some(cs[0].s)
    else
      var r := FirstSpriteRenderer(cs[1..]);
      assert forall i :: 1 <= i < |cs| ==> cs[i] == cs[1..][i - 1];
      r
  }

  function FirstParticleRenderer(cs: seq<Component>): (r: Option<Sorting>)
    ensures r.Some? <==> exists i :: 0 <= i < |cs| && cs[i].ParticleSystemRenderer?
    ensures r.Some? ==> exists i :: 0 <= i < |cs| && cs[i] == ParticleSystemRenderer(r.value) && forall j :: 0 <= j < i ==> !cs[j].ParticleSystemRenderer?
  {
    if |cs| == 0 then None
    else if cs[0].ParticleSystemRenderer? then Some(cs[0].s)
    else
      var r := FirstParticleRenderer(cs[1..]);
      assert forall i :: 1 <= i < |cs| ==> cs[i] == cs[1..][i - 1];
      r
  }

  /** The component the sorting-layer label reads, and the type name its tooltip shows:
      a SortingGroup wins over a SpriteRenderer, which wins over a ParticleSystemRenderer
      (reported as "ParticleSystem"). */
  function SortingSource(cs: seq<Component>): Option<(Sorting, string)> {
    match FirstSortingGroup(cs)
    case Some(s) => Some((s, "SortingGroup"))
    case None =>
      match FirstSpriteRenderer(cs)
      case Some(s) => Some((s, "SpriteRenderer"))
      case None =>
        match FirstParticleRenderer(cs)
        case Some(s) => Some((s, "ParticleSystem"))
        case None => None
  }

  /** "layer:order". */
  function SortingText(layerName: string, order: int): string {
    layerName + ":" + IntToString(order)
  }

  /** `FillContent` (through `Init`). */
  function FillContent(p: Provider, row: Row): (r: Provider)
    ensures r.kind == p.kind
    ensures p.kind != SortingLayerLabel ==> r.tooltip == p.tooltip && r.sortLayerName == p.sortLayerName && r.sortOrder == p.sortOrder
    ensures p.kind == TagLabel ==> r.text == if row.hasTag then row.gameObjectTag else ""
    ensures p.kind == LayerLabel ==> r.text == if row.hasLayer then row.layerName else ""
    ensures p.kind == SortingLayerLabel ==>
      match SortingSource(row.components)
      case Some(src) =>
        && r.sortLayerName == Some(src.0.sortingLayerName) && r.sortOrder == src.0.sortingOrder
        && r.text == SortingText(src.0.sortingLayerName, src.0.sortingOrder)
        && r.tooltip == (if row.tooltips then "Sorting layer from " + src.1 else "")
      case None =>
        r.sortLayerName == p.sortLayerName && r.sortOrder == p.sortOrder && r.text == "" && r.tooltip == ""
  {
    match p.kind
    case TagLabel => p.(text := if row.hasTag then row.gameObjectTag else "")
    case LayerLabel => p.(text := if row.hasLayer then row.layerName else "")
    case SortingLayerLabel =>
      match SortingSource(row.components)
      case Some((s, typeName)) =>
        p.(sortLayerName := Some(s.sortingLayerName), sortOrder := s.sortingOrder,
           text := SortingText(s.sortingLayerName, s.sortingOrder),
           tooltip := if row.tooltips then "Sorting layer from " + typeName else "")
      case None => p.(text := "", tooltip := "")
  }

  predicate HasValue(p: Provider) {
    |p.text| > 0
  }

  /** `Faded`: the default tag, the default layer, or the "Default" sorting layer at order 0
      as last read (a null layer name is not "Default"). */
  predicate Faded(p: Provider, row: Row) {
    match p.kind
    case TagLabel => row.gameObjectTag == Untagged
    case LayerLabel => row.layer == UnLayered
    case SortingLayerLabel => p.sortLayerName == Some(DefaultSortingLayer) && p.sortOrder == 0
  }

  /** The sorting-layer source is the first SortingGroup if there is one, else the first
      SpriteRenderer, else the first ParticleSystemRenderer. */
  lemma SortingSourcePriority(cs: seq<Component>)
    ensures (exists i :: 0 <= i < |cs| && cs[i].SortingGroup?) ==>
      SortingSource(cs).Some? && SortingSource(cs).value.1 == "SortingGroup"
    ensures (forall i :: 0 <= i < |cs| ==> !cs[i].SortingGroup?) && (exists i :: 0 <= i < |cs| && cs[i].SpriteRenderer?) ==>
      SortingSource(cs).Some? && SortingSource(cs).value.1 == "SpriteRenderer"
    ensures (forall i :: 0 <= i < |cs| ==> !cs[i].SortingGroup? && !cs[i].SpriteRenderer?) ==>
      (SortingSource(cs).Some? <==> exists i :: 0 <= i < |cs| && cs[i].ParticleSystemRenderer?)
    ensures SortingSource(cs).Some? ==>
      exists i :: 0 <= i < |cs| && cs[i] != OtherComponent && cs[i].s == SortingSource(cs).value.0
  {
  }

  /** The text has a value exactly when there is something to show; the sorting-layer
      text always has one when a source exists. */
  lemma HasValueAfterFill(p: Provider, row: Row)
    ensures p.kind == TagLabel ==> (HasValue(FillContent(p, row)) <==> row.hasTag && row.gameObjectTag != "")
    ensures p.kind == LayerLabel ==> (HasValue(FillContent(p, row)) <==> row.hasLayer && row.layerName != "")
    ensures p.kind == SortingLayerLabel ==> (HasValue(FillContent(p, row)) <==> SortingSource(row.components).Some?)
  {
  }

  /** A sorting-layer text names its layer and order uniquely, for layer names without ':'. */
  lemma {:induction false} SortingTextInjective(n1: string, o1: int, n2: string, o2: int)
    requires forall i :: 0 <= i < |n1| ==> n1[i] != ':'
    requires forall i :: 0 <= i < |n2| ==> n2[i] != ':'
    requires SortingText(n1, o1) == SortingText(n2, o2)
    ensures n1 == n2 && o1 == o2
  {
    var t := SortingText(n1, o1);
    ColonPosition(n1, o1);
    ColonPosition(n2, o2);
    assert |n1| == |n2|;
    assert n1 == t[..|n1|];
    assert n2 == t[..|n2|];
    assert IntToString(o1) == t[|n1| + 1..];
    assert IntToString(o2) == t[|n2| + 1..];
    IntToStringInjective(o1, o2);
  }

  /** The first ':' of a sorting-layer text ends the layer name. */
  lemma ColonPosition(n: string, o: int)
    requires forall i :: 0 <= i < |n| ==> n[i] != ':'
    ensures |n| < |SortingText(n, o)| && SortingText(n, o)[|n|] == ':'
    ensures forall i :: 0 <= i < |n| ==> SortingText(n, o)[i] != ':'
  {
  }

  /** With no sorting source the label keeps fading by what it read last: the fields are
      not reset. */
  lemma FadedIsStale(p: Provider, row: Row)
    requires p.kind == SortingLayerLabel && SortingSource(row.components).None?
    ensures Faded(FillContent(p, row), row) == Faded(p, row)
  {
  }

  /** Which opacity the label is drawn with. */
  datatype Alpha = DisabledAlpha | EnabledAlpha

  /** An edit the tag or layer field reported, to be applied to the selected objects. */
  datatype Edit = NoEdit | TagEdit(tag: string) | LayerEdit(layer: int)

  datatype DrawResult = DrawResult(rect: Rect, drawn: bool, alpha: Alpha, changed: bool, edit: Edit)

  /** `Draw(ref rect)`: nothing without a value; otherwise the rect's left edge moves left
      by `measure` and the label is drawn with the faded or normal alpha. The tag and layer
      labels draw an editable field (`fieldTag` / `fieldLayer` is what it returns,
      `guiChanged` whether the user changed it) and report an edit when it changed; the
      sorting-layer label is a plain button whose click does nothing. */
  function Draw(p: Provider, row: Row, rect: Rect, measure: real,
                guiChanged: bool, fieldTag: string, fieldLayer: int): (r: DrawResult)
    ensures !HasValue(p) ==> r.rect == rect && !r.drawn && r.edit == NoEdit
    ensures HasValue(p) ==> r.drawn && r.rect == rect.(xMin := rect.xMin - measure) && r.rect.xMax == rect.xMax
    ensures HasValue(p) ==> (r.alpha == DisabledAlpha <==> Faded(p, row))
    ensures r.edit != NoEdit ==> r.drawn && guiChanged && p.kind != SortingLayerLabel
    ensures r.drawn && guiChanged && p.kind == TagLabel ==> r.edit == TagEdit(fieldTag)
    ensures r.drawn && guiChanged && p.kind == LayerLabel ==> r.edit == LayerEdit(fieldLayer)
  {
    if !HasValue(p) then DrawResult(rect, false, EnabledAlpha, false, NoEdit)
    else
      var alpha := if Faded(p, row) then DisabledAlpha else EnabledAlpha;
      var moved := rect.(xMin := rect.xMin - measure);
      var edit :=
        if !guiChanged then NoEdit
        else match p.kind
          case TagLabel => TagEdit(fieldTag)
          case LayerLabel => LayerEdit(fieldLayer)
          case SortingLayerLabel => NoEdit;
      DrawResult(moved, true, alpha, guiChanged, edit)
  }
}

=== FILE: preferences.dfy ===
/** The plug-in's preferences: the settings other parts read, the icon buttons the user
    enabled (left-side button, icons next to the name, icons at the right edge), the
    mini-label slots, and how each preference gets its store key. */
module Preferences {
  import opened Wrappers
  import opened Seqs
  import opened Icons
  import opened Serialization
  import opened PrefItems
  import opened MiniLabels

  /** `ChildrenChangeMode`. The enum's declaration is not part of this model; a value cast
      from a dialog button index that names no member is `Unlisted`. */
  datatype ChildrenChangeMode = ObjectOnly | ObjectAndChildren | Ask | Unlisted(code: int)

  /** The plain settings other parts of the plug-in read. */
  datatype Settings = Settings(
    tooltips: bool, relevantTooltipsOnly: bool, enhancedSelection: bool,
    changeAllSelected: bool, hideDefaultTag: bool, hideDefaultLayer: bool,
    hideDefaultIcon: bool, allowSelectingLockedObjects: bool, allowPickingLockedObjects: bool,
    centralizeMiniLabelWhenPossible: bool, trailing: bool, numericChildExpand: bool,
    iconsSize: int,
    lockAskMode: ChildrenChangeMode, layerAskMode: ChildrenChangeMode, tagAskMode: ChildrenChangeMode,
    staticAskMode: ChildrenChangeMode, iconAskMode: ChildrenChangeMode)

  /** The default values the preference declarations carry. */
  const DefaultSettings: Settings := Settings(
    true, true, true,
    true, true, true,
    false, true, false,
    true, true, false,
    15,
    ObjectAndChildren, Ask, ObjectOnly,
    Ask, ObjectOnly)

  // ---------------------------------------------------------------------------
  // Icon buttons

  /** The three icon preferences, each with the store it is saved to. */
  datatype IconPrefs = IconPrefs(
    leftSideButton: State<IconData>,
    leftIcons: State<seq<IconRef>>,
    rightIcons: State<seq<IconRef>>)

  /** How the icon preferences are written to text. */
  datatype IconCodecs = IconCodecs(data: Codec<IconData>, list: Codec<seq<IconRef>>)

  function LeftSideButton(p: IconPrefs): IconRef {
    p.leftSideButton.item.value.icon
  }

  /** The `LeftSideButton` setter: changes the icon inside the stored IconData and saves. */
  function SetLeftSideButton(p: IconPrefs, icon: IconRef, writeOk: bool, codecs: IconCodecs): IconPrefs {
    var data := p.leftSideButton.item.value.(icon := icon);
    p.(leftSideButton := ForceSave(MutateInPlace(p.leftSideButton, data), writeOk, codecs.data))
  }

  /** `IsButtonEnabled`. */
  predicate IsButtonEnabled(p: IconPrefs, button: IconRef) {
    if button.NullIcon? then false
    else if IconEq(LeftSideButton(p), button) then true
    else ContainsIcon(p.rightIcons.item.value, button) || ContainsIcon(p.leftIcons.item.value, button)
  }

  /** `ForceDisableButton`: the left-side button falls back to EmptyIcon if it is `button`;
      the first equal icon goes from each list; both lists are saved. */
  function ForceDisableButton(p: IconPrefs, button: IconRef, writeOk: bool, codecs: IconCodecs): (r: IconPrefs)
    ensures IconEq(LeftSideButton(p), button) ==> LeftSideButton(r) == EmptyIcon
    ensures !IconEq(LeftSideButton(p), button) ==> r.leftSideButton == p.leftSideButton
    ensures r.rightIcons.item.value == RemoveIcon(p.rightIcons.item.value, button)
    ensures r.leftIcons.item.value == RemoveIcon(p.leftIcons.item.value, button)
    ensures writeOk ==> r.rightIcons.store == p.rightIcons.store[p.rightIcons.item.key := codecs.list.Encode(r.rightIcons.item.value)]
    ensures writeOk ==> r.leftIcons.store == p.leftIcons.store[p.leftIcons.item.key := codecs.list.Encode(r.leftIcons.item.value)]
  {
    var p1 := if IconEq(LeftSideButton(p), button) then SetLeftSideButton(p, EmptyIcon, writeOk, codecs) else p;
    var right := MutateInPlace(p1.rightIcons, RemoveIcon(p1.rightIcons.item.value, button));
    var left := MutateInPlace(p1.leftIcons, RemoveIcon(p1.leftIcons.item.value, button));
    p1.(rightIcons := ForceSave(right, writeOk, codecs.list), leftIcons := ForceSave(left, writeOk, codecs.list))
  }

  /** A button is enabled exactly when it is the left-side button or in either list; null
      never is. */
  lemma IsButtonEnabledMeaning(p: IconPrefs, button: IconRef)
    ensures button.NullIcon? ==> !IsButtonEnabled(p, button)
    ensures button.Instance? ==>
      (IsButtonEnabled(p, button) <==>
        (LeftSideButton(p).Instance? && LeftSideButton(p).kind == button.kind) ||
        (exists i :: 0 <= i < |p.rightIcons.item.value| && p.rightIcons.item.value[i].Instance? && p.rightIcons.item.value[i].kind == button.kind) ||
        (exists i :: 0 <= i < |p.leftIcons.item.value| && p.leftIcons.item.value[i].Instance? && p.leftIcons.item.value[i].kind == button.kind))
  {
    IconEqMeaning(LeftSideButton(p), button);
    forall i | 0 <= i < |p.rightIcons.item.value| {
      IconEqMeaning(p.rightIcons.item.value[i], button);
    }
    forall i | 0 <= i < |p.leftIcons.item.value| {
      IconEqMeaning(p.leftIcons.item.value[i], button);
    }
  }

  /** After force-disabling a non-empty button that each list held at most once, it is no
      longer enabled, and every other button except EmptyIcon keeps its state. */
  lemma ForceDisableButtonDisables(p: IconPrefs, button: IconRef, other: IconRef, writeOk: bool, codecs: IconCodecs)
    requires AtMostOneEqual(p.rightIcons.item.value, button)
    requires AtMostOneEqual(p.leftIcons.item.value, button)
    requires !IconEq(button, EmptyIcon)
    ensures !IsButtonEnabled(ForceDisableButton(p, button, writeOk, codecs), button)
    ensures !IconEq(other, button) && !IconEq(other, EmptyIcon) ==>
      IsButtonEnabled(ForceDisableButton(p, button, writeOk, codecs), other) == IsButtonEnabled(p, other)
  {
    var r := ForceDisableButton(p, button, writeOk, codecs);
    RemoveIconContains(p.rightIcons.item.value, button, other);
    RemoveIconContains(p.leftIcons.item.value, button, other);
    if IconEq(LeftSideButton(p), button) {
      IconEqIsEquivalence(EmptyIcon, button, button);
      IconEqIsEquivalence(other, EmptyIcon, EmptyIcon);
      IconEqIsEquivalence(other, LeftSideButton(p), button);
      IconEqIsEquivalence(LeftSideButton(p), other, button);
      IconEqIsEquivalence(button, LeftSideButton(p), EmptyIcon);
      IconEqIsEquivalence(LeftSideButton(p), button, EmptyIcon);
      IconEqIsEquivalence(EmptyIcon, other, other);
    }
  }

  // ---------------------------------------------------------------------------
  // Defaults

  /** The defaults the static constructor installs, built from fresh icon instances with
      the given serial numbers. */
  function DefaultLeftSideButton(serial: nat): IconData {
    IconData(None, Instance(serial, Empty))
  }

  function DefaultLeftIcons(s1: nat, s2: nat): seq<IconRef> {
    [Instance(s1, Warnings), Instance(s2, Sound)]
  }

  function DefaultRightIcons(s1: nat, s2: nat, s3: nat): seq<IconRef> {
    [Instance(s1, Active), Instance(s2, Lock), Instance(s3, Static)]
  }

  /** The default mini-label slots: the layer label on top, the tag label below. */
  function DefaultMiniLabels(): seq<int> {
    [MiniLabelIndex(LayerLabel) as int, MiniLabelIndex(TagLabel) as int]
  }

  /** With the default icon preferences exactly the warnings, sound, active, lock and
      static buttons are enabled, besides the "None" button. */
  lemma DefaultButtons(p: IconPrefs, button: IconRef, serials: seq<nat>)
    requires |serials| == 6
    requires p.leftSideButton.item.value == DefaultLeftSideButton(serials[0])
    requires p.leftIcons.item.value == DefaultLeftIcons(serials[1], serials[2])
    requires p.rightIcons.item.value == DefaultRightIcons(serials[3], serials[4], serials[5])
    ensures IsButtonEnabled(p, button) <==>
      button.Instance? && button.kind in {Empty, Warnings, Sound, Active, Lock, Static}
  {
    IsButtonEnabledMeaning(p, button);
    if button.Instance? && button.kind in {Warnings, Sound} {
      assert p.leftIcons.item.value[if button.kind == Warnings then 0 else 1].kind == button.kind;
    }
    if button.Instance? && button.kind in {Active, Lock, Static} {
      var i := if button.kind == Active then 0 else if button.kind == Lock then 1 else 2;
      assert p.rightIcons.item.value[i].kind == button.kind;
    }
  }

  // ---------------------------------------------------------------------------
  // Mini labels

  /** The configured indices that name a provider type, in order: index 0 stands for "None",
      and `ElementAtOrDefault` gives null outside the table. */
  function ValidIndices(indices: seq<int>): (v: seq<int>)
    ensures |v| <= |indices|
    ensures forall j :: 0 <= j < |v| ==> 0 < v[j] < |MiniLabelsTypes|
    ensures forall i :: i in v <==> i in indices && 0 < i < |MiniLabelsTypes|
  {
    if |indices| == 0 then []
    else
      var rest := ValidIndices(indices[1..]);
      assert forall i :: i in indices <==> i == indices[0] || i in indices[1..];
      if 0 < indices[0] < |MiniLabelsTypes| then [indices[0]] + rest else rest
  }

  /** `RecreateMiniLabelProviders`: each configured index names a provider type, index 0
      and out-of-range indices name none and are dropped; order is kept. */
  function MiniLabelProviders(indices: seq<int>): (r: seq<MiniLabelKind>)
    ensures |r| == |ValidIndices(indices)|
    ensures forall j :: 0 <= j < |r| ==> MiniLabelsTypes[ValidIndices(indices)[j]] == Some(r[j])
    ensures |r| <= |indices|
    ensures forall k :: k in r <==> MiniLabelIndex(k) as int in indices
    ensures (forall i :: 0 <= i < |indices| ==> 0 < indices[i] < |MiniLabelsTypes|) ==>
      |r| == |indices| && forall i :: 0 <= i < |indices| ==> MiniLabelIndex(r[i]) as int == indices[i]
  {
    if |indices| == 0 then []
    else
      var rest := MiniLabelProviders(indices[1..]);
      var i := indices[0];
      assert forall k :: MiniLabelIndex(k) as int in indices <==> MiniLabelIndex(k) as int == i || MiniLabelIndex(k) as int in indices[1..];
      if 0 <= i < |MiniLabelsTypes| && MiniLabelsTypes[i].Some? then [MiniLabelsTypes[i].value] + rest else rest
  }

  /** The providers for the default slots are the layer label, then the tag label. */
  lemma DefaultMiniLabelProviders()
    ensures DefaultMiniLabels() == [2, 1]
    ensures MiniLabelProviders(DefaultMiniLabels()) == [LayerLabel, TagLabel]
  {
    assert MiniLabelProviders([1]) == [TagLabel];
  }

  /** `MiniLabelTagEnabled` / `MiniLabelLayerEnabled`. */
  predicate MiniLabelEnabled(providers: seq<MiniLabelKind>, k: MiniLabelKind) {
    k in providers
  }

  // ---------------------------------------------------------------------------
  // Keys

  /** A member of the preferences class as `InitializePreferences` sees it: whether it is a
      field or property of a PrefItem type, and its `AutoPrefItem` attribute, if any, with
      the attribute's key (None for null). */
  datatype Member = Member(name: string, isPrefItem: bool, autoPrefItem: Option<Option<string>>)

  /** The key a member's item is created with, or None when the member is skipped. */
  function MemberKey(m: Member): (r: Option<string>)
    ensures r.Some? <==> m.isPrefItem && m.autoPrefItem.Some?
  {
    if !m.isPrefItem then None
    else match m.autoPrefItem
      case None => None
      case Some(None) => Some(m.name)
      case Some(Some(k)) => Some(if k == "" then m.name else k)
  }

  /** The store keys of the items `InitializePreferences` creates, in member order. */
  function StorageKeys(members: seq<Member>): (r: seq<string>)
    ensures |r| <= |members|
    ensures forall k :: k in r <==> exists i :: 0 <= i < |members| && MemberKey(members[i]).Some? && k == StorageKey(MemberKey(members[i]).value)
  {
    if |members| == 0 then []
    else
      var rest := StorageKeys(members[1..]);
      assert forall i :: 1 <= i < |members| ==> members[i] == members[1..][i - 1];
      match MemberKey(members[0])
      case None => rest
      case Some(key) => [StorageKey(key)] + rest
  }

  /** The member carries no `AutoPrefItem` key of its own (null or empty). */
  predicate NoExplicitKey(m: Member) {
    m.autoPrefItem.Some? ==> m.autoPrefItem.value.None? || m.autoPrefItem.value == Some("")
  }

  /** Members with distinct names and no explicit attribute key are saved under distinct
      store keys, each "Hierarchy" followed by the member's name. */
  lemma {:induction false} StorageKeysDistinct(members: seq<Member>)
    requires forall i, j :: 0 <= i < j < |members| ==> members[i].name != members[j].name
    requires forall i :: 0 <= i < |members| ==> NoExplicitKey(members[i])
    ensures NoDup(StorageKeys(members))
    ensures forall k :: k in StorageKeys(members) ==> exists i :: 0 <= i < |members| && k == StorageKey(members[i].name)
  {
    if |members| > 0 {
      var rest := StorageKeys(members[1..]);
      StorageKeysDistinct(members[1..]);
      forall k | k in rest ensures exists i :: 0 <= i < |members| && k == StorageKey(members[i].name) {
        var i :| 0 <= i < |members[1..]| && k == StorageKey(members[1..][i].name);
        assert members[i + 1] == members[1..][i];
      }
      match MemberKey(members[0])
      case None =>
      case Some(key) =>
        assert key == members[0].name;
        forall k | k in rest ensures k != StorageKey(key) {
          var i :| 0 <= i < |members[1..]| && k == StorageKey(members[1..][i].name);
          StorageKeyInjective(members[1..][i].name, key);
        }
        var r := [StorageKey(key)] + rest;
        forall i, j | 0 <= i < j < |r| ensures r[i] != r[j] {
          if i > 0 {
            assert r[i] == rest[i - 1] && r[j] == rest[j - 1];
          } else {
            assert r[j] in rest;
          }
        }
    }
  }
}

=== FILE: preferences_gui.dfy ===
/** The decisions of the preferences window: which icons the add menus offer and what
    choosing one does, the left-side button popup, the mini-label slots, and the rule
    that an editor writes its item only while the item is drawn. */
module PreferencesGUI {
  import opened Wrappers
  import opened Icons
  import opened Serialization
  import opened PrefItems
  import opened MiniLabels
  import opened Preferences

  // ---------------------------------------------------------------------------
  // Add menus

  /** `GetGenericMenuForIcons`: the candidates, in order, that the list does not already
      contain and that are not EmptyIcon. */
  function MenuItems(list: seq<IconRef>, candidates: seq<IconRef>): (r: seq<IconRef>)
    ensures |r| <= |candidates|
    ensures forall x :: x in r <==> x in candidates && !ContainsIcon(list, x) && IconNe(x, EmptyIcon)
  {
    if |candidates| == 0 then []
    else
      var rest := MenuItems(list, candidates[1..]);
      var c := candidates[0];
      if !ContainsIcon(list, c) && IconNe(c, EmptyIcon) then [c] + rest else rest
  }

  function LeftIconsMenu(p: IconPrefs): seq<IconRef> {
    MenuItems(p.leftIcons.item.value, AllLeftIcons())
  }

  function RightIconsMenu(p: IconPrefs): seq<IconRef> {
    MenuItems(p.rightIcons.item.value, AllRightIcons())
  }

  /** Choosing a menu item: the icon is appended to the list and the list is saved. */
  function ChooseMenuItem(s: State<seq<IconRef>>, icon: IconRef, writeOk: bool, codec: Codec<seq<IconRef>>): State<seq<IconRef>> {
    ForceSave(MutateInPlace(s, s.item.value + [icon]), writeOk, codec)
  }

  /** Choosing an offered icon adds it at the end and saves the list; afterwards the menu
      offers neither it nor any icon equal to it, and everything else it offered stays. */
  lemma ChooseMenuItemEffect(s: State<seq<IconRef>>, candidates: seq<IconRef>, icon: IconRef, other: IconRef,
                             writeOk: bool, codec: Codec<seq<IconRef>>)
    requires icon in MenuItems(s.item.value, candidates)
    ensures ChooseMenuItem(s, icon, writeOk, codec).item.value == s.item.value + [icon]
    ensures writeOk ==> ChooseMenuItem(s, icon, writeOk, codec).store == s.store[s.item.key := codec.Encode(s.item.value + [icon])]
    ensures IconEq(other, icon) ==> other !in MenuItems(ChooseMenuItem(s, icon, writeOk, codec).item.value, candidates)
    ensures !IconEq(other, icon) ==>
      (other in MenuItems(ChooseMenuItem(s, icon, writeOk, codec).item.value, candidates) <==> other in MenuItems(s.item.value, candidates))
  {
    var l := s.item.value;
    var l2 := l + [icon];
    assert l2[|l|] == icon;
    IconEqIsEquivalence(other, icon, icon);
    if !IconEq(other, icon) {
      if ContainsIcon(l2, other) {
        var i :| 0 <= i < |l2| && IconEq(l2[i], other);
        if i == |l| {
          IconEqIsEquivalence(icon, other, other);
        } else {
          assert IconEq(l[i], other);
        }
      }
      if ContainsIcon(l, other) {
        var i :| 0 <= i < |l| && IconEq(l[i], other);
        assert IconEq(l2[i], other);
      }
    } else {
      IconEqIsEquivalence(icon, other, other);
      assert IconEq(l2[|l|], other);
    }
  }

  /** `displayAdd`: the add button shows exactly when the menu has an item, that is when
      some candidate other than EmptyIcon is missing from the list. */
  predicate DisplayAdd(list: seq<IconRef>, candidates: seq<IconRef>) {
    |MenuItems(list, candidates)| > 0
  }

  lemma DisplayAddMeaning(list: seq<IconRef>, candidates: seq<IconRef>)
    ensures DisplayAdd(list, candidates) <==>
      exists i :: 0 <= i < |candidates| && !ContainsIcon(list, candidates[i]) && IconNe(candidates[i], EmptyIcon)
  {
    var m := MenuItems(list, candidates);
    if |m| > 0 {
      assert m[0] in m;
    }
    if exists i :: 0 <= i < |candidates| && !ContainsIcon(list, candidates[i]) && IconNe(candidates[i], EmptyIcon) {
      var i :| 0 <= i < |candidates| && !ContainsIcon(list, candidates[i]) && IconNe(candidates[i], EmptyIcon);
      assert candidates[i] in m;
    }
  }

  // ---------------------------------------------------------------------------
  // The left-side button popup

  /** `DoGUI(PrefItem<IconData>)`: while drawn, the popup over the before-name icons
      returns `chosen`; an out-of-range index or an icon with the current Name changes
      nothing, any other icon is stored and saved. A null current icon fails at its Name. */
  function LeftSideButtonPopup(s: State<IconData>, drawing: bool, chosen: int, writeOk: bool,
                               codec: Codec<IconData>): (r: Result<State<IconData>, Exception>)
    ensures !drawing ==> r == Success(s)
    ensures drawing && !(0 <= chosen < |AllLeftOfNameIcons()|) ==> r == Success(s)
    ensures r.Failure? ==> s.item.value.icon.NullIcon?
  {
    var icons := AllLeftOfNameIcons();
    if !drawing then Success(s)
    else if chosen < 0 || chosen >= |icons| then Success(s)
    else if s.item.value.icon.NullIcon? then Failure(NullReference)
    else if Name(s.item.value.icon.kind) == Name(icons[chosen].kind) then Success(s)
    else Success(ForceSave(MutateInPlace(s, s.item.value.(icon := icons[chosen])), writeOk, codec))
  }

  /** A valid choice leaves the stored icon equal to the chosen one, and saves only when it
      was different; choosing the same entry again changes nothing. */
  lemma LeftSideButtonPopupEffect(s: State<IconData>, chosen: int, writeOk: bool, codec: Codec<IconData>)
    requires s.item.value.icon.Instance?
    requires 0 <= chosen < |AllLeftOfNameIcons()|
    ensures LeftSideButtonPopup(s, true, chosen, writeOk, codec).Success?
    ensures IconEq(LeftSideButtonPopup(s, true, chosen, writeOk, codec).value.item.value.icon, AllLeftOfNameIcons()[chosen])
    ensures IconEq(s.item.value.icon, AllLeftOfNameIcons()[chosen]) ==> LeftSideButtonPopup(s, true, chosen, writeOk, codec).value == s
    ensures !IconEq(s.item.value.icon, AllLeftOfNameIcons()[chosen]) && writeOk ==>
      LeftSideButtonPopup(s, true, chosen, writeOk, codec).value.store ==
        s.store[s.item.key := codec.Encode(s.item.value.(icon := AllLeftOfNameIcons()[chosen]))]
    ensures var s2 := LeftSideButtonPopup(s, true, chosen, writeOk, codec).value;
      LeftSideButtonPopup(s2, true, chosen, writeOk, codec).value == s2
  {
    var icons := AllLeftOfNameIcons();
    assert icons[chosen] in icons;
    IconEqMeaning(s.item.value.icon, icons[chosen]);
    NamesIdentifyKinds(s.item.value.icon.kind, icons[chosen].kind);
    IconEqMeaning(icons[chosen], icons[chosen]);
  }

  // ---------------------------------------------------------------------------
  // Mini-label slots

  /** The mini-label preference and the providers built from it. */
  datatype MiniLabelState = MiniLabelState(slots: State<seq<int>>, providers: seq<MiniLabelKind>)

  /** What the popups leave behind: the state, and the exception that escaped, if any. */
  datatype PopupsOutcome = PopupsOutcome(state: MiniLabelState, thrown: Option<Exception>)

  /** The two mini-label popups: `top` and `bottom` are the chosen indices, written in place
      into slots 0 and 1 of the stored array, one after the other, so an array of one slot
      has slot 0 overwritten before slot 1 throws. The GUI reports a change when a choice
      differs from the slot; only then is the array saved and the providers rebuilt. */
  function MiniLabelPopups(m: MiniLabelState, top: int, bottom: int, writeOk: bool,
                           codec: Codec<seq<int>>): (r: PopupsOutcome)
    ensures |m.slots.item.value| < 2 <==> r.thrown.Some?
    ensures r.thrown.Some? ==>
      && r.thrown.value == IndexOutOfRange
      && r.state.providers == m.providers
      && r.state.slots.store == m.slots.store
      && r.state.slots.item.key == m.slots.item.key
      && r.state.slots.item.value == (if |m.slots.item.value| == 0 then [] else [top])
    ensures r.thrown.None? && top == m.slots.item.value[0] && bottom == m.slots.item.value[1] ==> r.state == m
    ensures r.thrown.None? && (top != m.slots.item.value[0] || bottom != m.slots.item.value[1]) ==>
      && r.state.slots.item.value == m.slots.item.value[0 := top][1 := bottom]
      && (writeOk ==> r.state.slots.store == m.slots.store[m.slots.item.key := codec.Encode(r.state.slots.item.value)])
  {
    var v := m.slots.item.value;
    if |v| == 0 then PopupsOutcome(m, Some(IndexOutOfRange))
    else if |v| == 1 then PopupsOutcome(m.(slots := MutateInPlace(m.slots, [top])), Some(IndexOutOfRange))
    else
      var edited := v[0 := top][1 := bottom];
      if top == v[0] && bottom == v[1] then
        assert edited == v;
        PopupsOutcome(m, None)
      else
        PopupsOutcome(MiniLabelState(ForceSave(MutateInPlace(m.slots, edited), writeOk, codec), MiniLabelProviders(edited)), None)
  }

  /** The providers always match the stored slots: if they did before popups that did not
      throw, they do after. */
  lemma MiniLabelPopupsKeepProviders(m: MiniLabelState, top: int, bottom: int, writeOk: bool, codec: Codec<seq<int>>)
    ensures var r := MiniLabelPopups(m, top, bottom, writeOk, codec);
      m.providers == MiniLabelProviders(m.slots.item.value) && r.thrown.None? ==>
        r.state.providers == MiniLabelProviders(r.state.slots.item.value)
  {
  }

  // ---------------------------------------------------------------------------
  // Plain editors

  /** The slider, toggle, colour and enum editors: while the item is drawn, the edited value
      goes through the `Value` setter; otherwise nothing happens. */
  function DoGUIValue<T(==)>(s: State<T>, drawing: bool, edited: T, writeOk: bool, codec: Codec<T>): (r: State<T>)
    ensures !drawing ==> r == s
    ensures drawing ==> r.item.value == edited && r.item.key == s.item.key && r.item.defaultValue == s.item.defaultValue
    ensures drawing && edited == s.item.value ==> r == s
    ensures drawing && edited != s.item.value && writeOk ==> r.store == s.store[s.item.key := codec.Encode(edited)]
  {
    if drawing then SetItemValue(s, edited, writeOk, codec) else s
  }
}

=== FILE: prefitem.dfy ===
/** `PrefItem<T>`: a typed preference value backed by a key→string store (EditorPrefs),
    with a default used while the key is absent. JSON is an abstract codec: `Encode`
    never fails and `Decode` returns None where parsing would throw. A reset installs the
    default itself rather than its JSON clone. */
module PrefItems {
  import opened Wrappers

  type Store = map<string, string>

  datatype Codec<!T> = Codec(Encode: T -> string, Decode: string -> Option<T>)

  const KeyPrefix: string := "Hierarchy"

  datatype PrefItem<T> = PrefItem(key: string, defaultValue: T, value: T)

  /** The item together with the store it lives in. */
  datatype State<T> = State(item: PrefItem<T>, store: Store)

  function StorageKey(key: string): string {
    KeyPrefix + key
  }

  lemma StorageKeyInjective(a: string, b: string)
    ensures StorageKey(a) == StorageKey(b) <==> a == b
    ensures StorageKey(a)[..|KeyPrefix|] == KeyPrefix
  {
    if StorageKey(a) == StorageKey(b) {
      assert a == StorageKey(a)[|KeyPrefix|..];
      assert b == StorageKey(b)[|KeyPrefix|..];
    }
  }

  predicate UsingDefaultValue<T>(s: State<T>) {
    s.item.key !in s.store
  }

  /** `ResetValue`: while the key is absent nothing happens; otherwise the default is
      restored and the key deleted. */
  function ResetValue<T>(s: State<T>): (r: State<T>)
    ensures UsingDefaultValue(r)
    ensures r.item.key == s.item.key && r.item.defaultValue == s.item.defaultValue
    ensures UsingDefaultValue(s) ==> r == s
    ensures !UsingDefaultValue(s) ==> r.item.value == s.item.defaultValue
    ensures forall k :: k != s.item.key ==> (k in r.store <==> k in s.store) && (k in r.store ==> r.store[k] == s.store[k])
  {
    if UsingDefaultValue(s) then s
    else State(s.item.(value := s.item.defaultValue), s.store - {s.item.key})
  }

  /** `LoadValue`: reads and decodes the stored text; a decode failure resets the item. */
  function LoadValue<T>(s: State<T>, codec: Codec<T>): (r: State<T>)
    ensures r.item.key == s.item.key && r.item.defaultValue == s.item.defaultValue
    ensures UsingDefaultValue(s) ==> r == s
    ensures !UsingDefaultValue(s) && codec.Decode(s.store[s.item.key]).Some? ==>
      r == s.(item := s.item.(value := codec.Decode(s.store[s.item.key]).value))
    ensures !UsingDefaultValue(s) && codec.Decode(s.store[s.item.key]).None? ==>
      r.item.value == s.item.defaultValue && UsingDefaultValue(r)
  {
    if UsingDefaultValue(s) then s
    else
      match codec.Decode(s.store[s.item.key])
      case Some(v) => s.(item := s.item.(value := v))
      case None => ResetValue(s)
  }

  /** The constructor: the key gets the "Hierarchy" prefix; the value is the default while
      the key is absent, and is loaded from the store otherwise. `initial` is the value the
      backing field holds before the load (the type's default). */
  function Create<T>(key: string, defaultValue: T, initial: T, store: Store, codec: Codec<T>): (r: State<T>)
    ensures r.item.key == StorageKey(key) && r.item.defaultValue == defaultValue
    ensures StorageKey(key) !in store ==> r.item.value == defaultValue && r.store == store
    ensures StorageKey(key) in store ==> r == LoadValue(State(PrefItem(StorageKey(key), defaultValue, initial), store), codec)
  {
    var s := State(PrefItem(StorageKey(key), defaultValue, initial), store);
    if UsingDefaultValue(s) then s.(item := s.item.(value := defaultValue))
    else LoadValue(s, codec)
  }

  /** `SetValue(newValue, forceSave)`: a value equal to the current one is not written
      unless forced; otherwise the encoded value is written (unless the store refuses,
      modelled by `writeOk`). Either way the item holds the new value afterwards. */
  function SetValue<T(==)>(s: State<T>, newValue: T, forceSave: bool, writeOk: bool, codec: Codec<T>): (r: State<T>)
    ensures r.item == s.item.(value := newValue)
    ensures s.item.value == newValue && !forceSave ==> r.store == s.store
    ensures (s.item.value != newValue || forceSave) && writeOk ==> r.store == s.store[s.item.key := codec.Encode(newValue)]
    ensures !writeOk ==> r.store == s.store
  {
    if s.item.value == newValue && !forceSave then s
    else
      var store := if writeOk then s.store[s.item.key := codec.Encode(newValue)] else s.store;
      State(s.item.(value := newValue), store)
  }

  /** The `Value` setter. */
  function SetItemValue<T(==)>(s: State<T>, newValue: T, writeOk: bool, codec: Codec<T>): State<T> {
    SetValue(s, newValue, false, writeOk, codec)
  }

  /** `ForceSave`: writes the current value even when unchanged. */
  function ForceSave<T(==)>(s: State<T>, writeOk: bool, codec: Codec<T>): (r: State<T>)
    ensures r.item == s.item
    ensures writeOk ==> r.store == s.store[s.item.key := codec.Encode(s.item.value)]
  {
    SetValue(s, s.item.value, true, writeOk, codec)
  }

  /** Changing a reference-typed value in place: the item sees the change, the store does not. */
  function MutateInPlace<T>(s: State<T>, newValue: T): State<T> {
    s.(item := s.item.(value := newValue))
  }

  /** `SetDefaultValue`: always records the new default; replaces the value only while the
      key is absent. */
  function SetDefaultValue<T>(s: State<T>, newDefault: T): (r: State<T>)
    ensures r.store == s.store && r.item.key == s.item.key
    ensures r.item.defaultValue == newDefault
    ensures r.item.value == if UsingDefaultValue(s) then newDefault else s.item.value
  {
    var value := if UsingDefaultValue(s) then newDefault else s.item.value;
    State(PrefItem(s.item.key, newDefault, value), s.store)
  }

  /** A value that was written (forced or changed) is what a new item under the same key
      starts with, given that the codec reads back what it wrote. */
  lemma PersistThenReload<T>(s: State<T>, key: string, newValue: T, forceSave: bool, initial: T, codec: Codec<T>)
    requires codec.Decode(codec.Encode(newValue)) == Some(newValue)
    requires s.item.key == StorageKey(key)
    requires s.item.value != newValue || forceSave
    ensures Create(key, s.item.defaultValue, initial, SetValue(s, newValue, forceSave, true, codec).store, codec).item.value == newValue
  {
    var st := SetValue(s, newValue, forceSave, true, codec).store;
    assert st[StorageKey(key)] == codec.Encode(newValue);
    assert codec.Decode(st[StorageKey(key)]) == Some(newValue);
  }

  /** After a reset, a new item under the same key starts with the default again. */
  lemma ResetThenReload<T>(s: State<T>, key: string, initial: T, codec: Codec<T>)
    requires s.item.key == StorageKey(key)
    ensures Create(key, s.item.defaultValue, initial, ResetValue(s).store, codec).item.value == s.item.defaultValue
  {
  }

  /** An item whose stored text cannot be decoded starts with the default, and its key is
      deleted. */
  lemma LoadFailureResets<T>(key: string, defaultValue: T, initial: T, store: Store, codec: Codec<T>)
    requires StorageKey(key) in store && codec.Decode(store[StorageKey(key)]).None?
    ensures Create(key, defaultValue, initial, store, codec).item.value == defaultValue
    ensures StorageKey(key) !in Create(key, defaultValue, initial, store, codec).store
  {
  }
}

=== FILE: scene.dfy ===
/** The scene the hierarchy window shows: game objects arranged in a tree of transforms.
    A Unity object reference becomes the object's `id`; a scene becomes a forest of
    root nodes whose children are kept in sibling order. */
module Scene {
  import opened Wrappers
  import opened Seqs

  /** HideFlags.NotEditable, the bit the lock toggle sets and clears. */
  const NotEditable: bv32 := 8

  datatype GameObject = GameObject(
    id: nat,
    name: string,
    tag: string,
    layer: int,
    isStatic: bool,
    activeSelf: bool,
    hideFlags: bv32,
    pickingDisabled: bool)

  predicate IsLocked(go: GameObject) {
    go.hideFlags & NotEditable != 0
  }

  datatype Node = Node(go: GameObject, children: seq<Node>)

  /** A path names a node by its sibling index at every level, starting at the roots. */
  predicate ValidPath(f: seq<Node>, p: seq<nat>)
    decreases p
  {
    && |p| > 0
    && p[0] < |f|
    && (|p| == 1 || ValidPath(f[p[0]].children, p[1..]))
  }

  /** The game object a valid path leads to. */
  function At(f: seq<Node>, p: seq<nat>): GameObject
    requires ValidPath(f, p)
    decreases p
  {
    if |p| == 1 then f[p[0]].go else At(f[p[0]].children, p[1..])
  }

  /** The ids met walking from the root down to the node `p` names, that node included. */
  function IdsAlong(f: seq<Node>, p: seq<nat>): (ids: seq<nat>)
    requires ValidPath(f, p)
    ensures |ids| == |p|
    ensures ids[|p| - 1] == At(f, p).id
    decreases p
  {
    if |p| == 1 then [f[p[0]].go.id] else [f[p[0]].go.id] + IdsAlong(f[p[0]].children, p[1..])
  }

  /** Applies `update` to the selected objects, and also to everything below them when
      `withChildren` holds, the way the icon handlers walk `GetComponentsInChildren`.
      `inherited` says that an ancestor was already selected. */
  function MapForest(f: seq<Node>, sel: set<nat>, update: GameObject -> GameObject,
                     withChildren: bool, inherited: bool): (r: seq<Node>)
    ensures |r| == |f|
    decreases f
  {
    seq(|f|, i requires 0 <= i < |f| =>
      var hit := inherited || f[i].go.id in sel;
      Node(if hit then update(f[i].go) else f[i].go,
           MapForest(f[i].children, sel, update, withChildren, withChildren && hit)))
  }

  /** Whether the walk of `MapForest` reaches the node `p` names. */
  predicate Covered(f: seq<Node>, p: seq<nat>, sel: set<nat>, withChildren: bool, inherited: bool)
    requires ValidPath(f, p)
    decreases p
  {
    var hit := inherited || f[p[0]].go.id in sel;
    if |p| == 1 then hit else Covered(f[p[0]].children, p[1..], sel, withChildren, withChildren && hit)
  }

  predicate SomeIdIn(ids: seq<nat>, sel: set<nat>) {
    exists k :: 0 <= k < |ids| && ids[k] in sel
  }

  /** The walk reaches exactly the selected nodes, or, with children, exactly the nodes
      that are selected or have a selected ancestor. */
  lemma {:induction false} CoveredMeaning(f: seq<Node>, p: seq<nat>, sel: set<nat>, withChildren: bool, inherited: bool)
    requires ValidPath(f, p)
    ensures Covered(f, p, sel, withChildren, inherited) <==>
      (inherited && (withChildren || |p| == 1)) ||
      (if withChildren then SomeIdIn(IdsAlong(f, p), sel) else At(f, p).id in sel)
    decreases p
  {
    var ids := IdsAlong(f, p);
    if |p| > 1 {
      var hit := inherited || f[p[0]].go.id in sel;
      var rest := IdsAlong(f[p[0]].children, p[1..]);
      CoveredMeaning(f[p[0]].children, p[1..], sel, withChildren, withChildren && hit);
      assert ids == [f[p[0]].go.id] + rest;
      assert ids[0] == f[p[0]].go.id;
      assert SomeIdIn(ids, sel) <==> ids[0] in sel || SomeIdIn(rest, sel) by {
        if SomeIdIn(rest, sel) {
          var k :| 0 <= k < |rest| && rest[k] in sel;
          assert ids[k + 1] in sel;
        }
        if SomeIdIn(ids, sel) && ids[0] !in sel {
          var k :| 0 <= k < |ids| && ids[k] in sel;
          assert rest[k - 1] in sel;
        }
      }
    } else {
      if ids[0] in sel {
        assert SomeIdIn(ids, sel);
      }
    }
  }

  /** The update keeps the shape of the scene and changes exactly the covered objects. */
  lemma {:induction false} MapForestAt(f: seq<Node>, p: seq<nat>, sel: set<nat>, update: GameObject -> GameObject,
                                       withChildren: bool, inherited: bool)
    requires ValidPath(f, p)
    ensures ValidPath(MapForest(f, sel, update, withChildren, inherited), p)
    ensures At(MapForest(f, sel, update, withChildren, inherited), p) ==
      if Covered(f, p, sel, withChildren, inherited) then update(At(f, p)) else At(f, p)
    decreases p
  {
    var r := MapForest(f, sel, update, withChildren, inherited);
    var hit := inherited || f[p[0]].go.id in sel;
    assert r[p[0]].children == MapForest(f[p[0]].children, sel, update, withChildren, withChildren && hit);
    if |p| > 1 {
      MapForestAt(f[p[0]].children, p[1..], sel, update, withChildren, withChildren && hit);
    }
  }

  /** No node appears that was not there before. */
  lemma {:induction false} MapForestNoNewPaths(f: seq<Node>, p: seq<nat>, sel: set<nat>, update: GameObject -> GameObject,
                                               withChildren: bool, inherited: bool)
    requires ValidPath(MapForest(f, sel, update, withChildren, inherited), p)
    ensures ValidPath(f, p)
    decreases p
  {
    var r := MapForest(f, sel, update, withChildren, inherited);
    if |p| > 1 {
      var hit := inherited || f[p[0]].go.id in sel;
      assert r[p[0]].children == MapForest(f[p[0]].children, sel, update, withChildren, withChildren && hit);
      MapForestNoNewPaths(f[p[0]].children, p[1..], sel, update, withChildren, withChildren && hit);
    }
  }

  /** `GetComponentsInChildren<Transform>(true)`: the node and all its descendants,
      inactive ones included, depth first in sibling order. */
  function Preorder(n: Node): (r: seq<GameObject>)
    ensures |r| > 0 && r[0] == n.go
    decreases n
  {
    [n.go] + Flatten(seq(|n.children|, i requires 0 <= i < |n.children| => Preorder(n.children[i])))
  }

  /** The first node in depth-first order whose object has the given id. */
  function FindNode(f: seq<Node>, id: nat): (r: Option<Node>)
    ensures r.Some? ==> r.value.go.id == id
    decreases f
  {
    if |f| == 0 then None
    else if f[0].go.id == id then Some(f[0])
    else
      match FindNode(f[0].children, id)
      case Some(n) => Some(n)
      case None => FindNode(f[1..], id)
  }

  /** `transform.childCount` of the object with the given id; None when it is not in the scene. */
  function ChildCount(f: seq<Node>, id: nat): Option<nat> {
    match FindNode(f, id)
    case Some(n) => Some(|n.children|)
    case None => None
  }

  // ---------------------------------------------------------------------------
  // The editor's selection

  /** An entry of `Selection.gameObjects`: never null; `persistent` for an asset. */
  datatype Selected = Selected(id: nat, persistent: bool)

  /** Every non-persistent selected object, in order. */
  function NonPersistent(s: seq<Selected>): (r: seq<Selected>)
    ensures forall x :: x in r <==> x in s && !x.persistent
    ensures |r| <= |s|
  {
    if |s| == 0 then []
    else if s[0].persistent then NonPersistent(s[1..])
    else [s[0]] + NonPersistent(s[1..])
  }
}

=== FILE: seqs.dfy ===
/** Sequence operations with the meaning of the .NET collection calls the plug-in uses:
    `List.Remove`, `List.Contains`, `Enumerable.Distinct`, `SelectMany`. */
module Seqs {

  predicate NoDup<T(==)>(s: seq<T>) {
    forall i, j :: 0 <= i < j < |s| ==> s[i] != s[j]
  }

  /** Number of occurrences of `x` in `s`. */
  function Count<T(==)>(s: seq<T>, x: T): nat {
    if |s| == 0 then 0 else (if s[0] == x then 1 else 0) + Count(s[1..], x)
  }

  lemma {:induction false} CountPositive<T>(s: seq<T>, x: T)
    ensures Count(s, x) > 0 <==> x in s
  {
    if |s| > 0 {
      CountPositive(s[1..], x);
      assert x in s <==> s[0] == x || x in s[1..];
    }
  }

  /** `List.Remove(x)`: drops the first occurrence of `x`, if any. */
  function RemoveFirst<T(==,!new)>(s: seq<T>, x: T): (r: seq<T>)
    ensures x in s ==> |r| == |s| - 1
    ensures x !in s ==> r == s
    ensures Count(r, x) == if x in s then Count(s, x) - 1 else Count(s, x)
    ensures forall y :: y != x ==> Count(r, y) == Count(s, y)
  {
    if |s| == 0 then s
    else if s[0] == x then s[1..]
    else
      var rest := RemoveFirst(s[1..], x);
      assert ([s[0]] + rest)[1..] == rest;
      [s[0]] + rest
  }

  lemma {:induction false} NoDupCountAtMostOne<T>(s: seq<T>, x: T)
    requires NoDup(s)
    ensures Count(s, x) <= 1
  {
    if |s| > 0 {
      NoDupCountAtMostOne(s[1..], x);
      if s[0] == x {
        CountPositive(s[1..], x);
      }
    }
  }

  /** Enumerable.Distinct: keeps the first occurrence of every element not yet `seen`. */
  function DistinctFrom<T(==,!new)>(s: seq<T>, seen: set<T>): (r: seq<T>)
    ensures NoDup(r)
    ensures forall x :: x in r <==> x in s && x !in seen
    ensures |r| <= |s|
  {
    if |s| == 0 then []
    else if s[0] in seen then DistinctFrom(s[1..], seen)
    else
      var rest := DistinctFrom(s[1..], seen + {s[0]});
      [s[0]] + rest
  }

  function Distinct<T(==,!new)>(s: seq<T>): seq<T> {
    DistinctFrom(s, {})
  }

  /** Distinct keeps the relative order of first occurrences: its head is the input's head. */
  lemma DistinctKeepsHead<T(!new)>(s: seq<T>)
    requires |s| > 0
    ensures |Distinct(s)| > 0 && Distinct(s)[0] == s[0]
  {
  }

  /** Concatenation of a sequence of sequences (SelectMany). */
  function Flatten<T>(ss: seq<seq<T>>): seq<T> {
    if |ss| == 0 then [] else ss[0] + Flatten(ss[1..])
  }

  lemma {:induction false} InFlatten<T>(ss: seq<seq<T>>, x: T)
    ensures x in Flatten(ss) <==> exists i :: 0 <= i < |ss| && x in ss[i]
  {
    if |ss| > 0 {
      InFlatten(ss[1..], x);
      if x in Flatten(ss[1..]) {
        var i :| 0 <= i < |ss[1..]| && x in ss[1..][i];
        assert x in ss[i + 1];
      }
      if exists i :: 0 <= i < |ss| && x in ss[i] {
        var i :| 0 <= i < |ss| && x in ss[i];
        if i > 0 {
          assert x in ss[1..][i - 1];
        }
      }
    }
  }
}

=== FILE: serialization.dfy ===
/** Name-based serialisation of icons: an `IconData` stores one icon's Name, and an
    `IconList` stores its icons as an array of `IconData`. Unity writes a string field that
    is still null as the empty string. */
module Serialization {
  import opened Wrappers
  import opened Icons

  /** `IconData`: the serialised `_name` (None while never assigned) and the live icon. */
  datatype IconData = IconData(storedName: Option<string>, icon: IconRef)

  /** `OnBeforeSerialize`: copies the icon's Name into `_name`, unless the icon is null. */
  function DataBeforeSerialize(d: IconData): IconData {
    if d.icon.NullIcon? then d else d.(storedName := Some(Name(d.icon.kind)))
  }

  /** The text Unity writes for `_name`. */
  function WrittenName(d: IconData): string {
    d.storedName.GetOr("")
  }

  /** `OnAfterDeserialize`: resolves `_name` through the name conversion. */
  function DataAfterDeserialize(d: IconData): IconData {
    d.(icon := FromName(WrittenName(d)))
  }

  /** Serialising stores the Name of a non-null icon and leaves `_name` alone for a null
      one; deserialising resolves the stored name, so an unknown name gives EmptyIcon,
      and a registered icon comes back equal to itself. */
  lemma DataRoundTrip(d: IconData)
    ensures DataBeforeSerialize(d).icon == d.icon
    ensures d.icon.Instance? ==> DataBeforeSerialize(d).storedName == Some(Name(d.icon.kind))
    ensures d.icon.NullIcon? ==> DataBeforeSerialize(d).storedName == d.storedName
    ensures (forall k :: Name(k) != WrittenName(d)) ==> DataAfterDeserialize(d).icon == EmptyIcon
    ensures d.icon.Instance? ==> IconEq(DataAfterDeserialize(DataBeforeSerialize(d)).icon, d.icon)
  {
    if forall k :: Name(k) != WrittenName(d) {
      assert WrittenName(d) !in Registry();
    }
    if d.icon.Instance? {
      FromNameRoundTrip(d.icon, "");
    }
  }

  /** `IconList`: the live icons and the serialised `_iconsData` array (None when null). */
  datatype IconList = IconList(items: seq<IconRef>, iconsData: Option<seq<IconData>>)

  /** `OnBeforeSerialize`: a fresh `IconData` wrapping each element, in order. */
  function ListBeforeSerialize(l: IconList): IconList {
    l.(iconsData := Some(seq(|l.items|, i requires 0 <= i < |l.items| => IconData(None, l.items[i]))))
  }

  /** `OnAfterDeserialize`: with data, the list is cleared and refilled from it in order. */
  function ListAfterDeserialize(l: IconList): IconList {
    match l.iconsData
    case None => l
    case Some(data) => l.(items := seq(|data|, i requires 0 <= i < |data| => data[i].icon))
  }

  lemma ListCallbacks(l: IconList)
    ensures ListBeforeSerialize(l).items == l.items
    ensures |ListBeforeSerialize(l).iconsData.value| == |l.items|
    ensures forall i :: 0 <= i < |l.items| ==> ListBeforeSerialize(l).iconsData.value[i].icon == l.items[i]
    ensures l.iconsData.None? ==> ListAfterDeserialize(l) == l
    ensures l.iconsData.Some? ==>
      ListAfterDeserialize(l).iconsData == l.iconsData &&
      |ListAfterDeserialize(l).items| == |l.iconsData.value| &&
      forall i :: 0 <= i < |l.iconsData.value| ==> ListAfterDeserialize(l).items[i] == l.iconsData.value[i].icon
  {
  }

  /** The names written for a list: its array, each element serialised in turn. */
  function Save(l: IconList): seq<string> {
    var data := ListBeforeSerialize(l).iconsData.value;
    seq(|data|, i requires 0 <= i < |data| => WrittenName(DataBeforeSerialize(data[i])))
  }

  /** Reading written names into a list: every element deserialised, then the list. */
  function Load(target: IconList, names: seq<string>): IconList {
    var data := seq(|names|, i requires 0 <= i < |names| => DataAfterDeserialize(IconData(Some(names[i]), NullIcon)));
    ListAfterDeserialize(target.(iconsData := Some(data)))
  }

  /** A round trip keeps length and order; each non-null icon comes back as the registered
      icon equal to it, and a null entry comes back as EmptyIcon. */
  lemma {:induction false} ListRoundTrip(target: IconList, l: IconList)
    ensures |Load(target, Save(l)).items| == |l.items|
    ensures forall i :: 0 <= i < |l.items| && l.items[i].Instance? ==>
      IconEq(Load(target, Save(l)).items[i], l.items[i]) &&
      Load(target, Save(l)).items[i] == Registry()[Name(l.items[i].kind)]
    ensures forall i :: 0 <= i < |l.items| && l.items[i].NullIcon? ==> Load(target, Save(l)).items[i] == EmptyIcon
  {
    var r := Load(target, Save(l)).items;
    forall i | 0 <= i < |l.items|
      ensures l.items[i].Instance? ==> IconEq(r[i], l.items[i]) && r[i] == Registry()[Name(l.items[i].kind)]
      ensures l.items[i].NullIcon? ==> r[i] == EmptyIcon
    {
      RoundTripAt(target, l, i);
    }
  }

  /** One element of the round trip. */
  lemma RoundTripAt(target: IconList, l: IconList, i: nat)
    requires i < |l.items|
    ensures |Load(target, Save(l)).items| == |l.items|
    ensures l.items[i].Instance? ==>
      IconEq(Load(target, Save(l)).items[i], l.items[i]) &&
      Load(target, Save(l)).items[i] == Registry()[Name(l.items[i].kind)]
    ensures l.items[i].NullIcon? ==> Load(target, Save(l)).items[i] == EmptyIcon
  {
    var names := Save(l);
    SavedNameAt(l, i);
    LoadedIconAt(target, names, i);
    if l.items[i].Instance? {
      FromNameRoundTrip(l.items[i], "");
      assert Name(l.items[i].kind) in Registry();
    } else {
      EmptyNameIsUnknown();
    }
  }

  /** Element `i` of a saved list is its icon's Name, or "" for null. */
  lemma SavedNameAt(l: IconList, i: nat)
    requires i < |l.items|
    ensures |Save(l)| == |l.items|
    ensures Save(l)[i] == if l.items[i].Instance? then Name(l.items[i].kind) else ""
  {
  }

  /** Element `i` of a loaded list is the icon its name converts to. */
  lemma LoadedIconAt(target: IconList, names: seq<string>, i: nat)
    requires i < |names|
    ensures |Load(target, names).items| == |names|
    ensures Load(target, names).items[i] == FromName(names[i])
  {
  }

  /** No icon class is named "", so the empty name converts to EmptyIcon. */
  lemma EmptyNameIsUnknown()
    ensures FromName("") == EmptyIcon
  {
    assert forall k :: Name(k) != "";
    assert "" !in Registry();
  }

  /** The written form of a loaded list is the input with every unknown name replaced by
      "None": loading then saving is the identity on names some icon has. */
  lemma {:induction false} SaveAfterLoad(target: IconList, names: seq<string>)
    ensures |Save(Load(target, names))| == |names|
    ensures forall i :: 0 <= i < |names| ==>
      Save(Load(target, names))[i] == if names[i] in Registry() then names[i] else "None"
  {
    var items := Load(target, names).items;
    forall i | 0 <= i < |names|
      ensures Save(Load(target, names))[i] == if names[i] in Registry() then names[i] else "None"
    {
      assert items[i] == FromName(names[i]);
    }
  }
}

=== FILE: text.dfy ===
/** String helpers the plug-in gets from the .NET base library: joining, decimal
    formatting of integers and the fixed-width "00" format. */
module Text {

  predicate IsDigit(c: char) {
    '0' <= c <= '9'
  }

  predicate AllDigits(s: string) {
    forall i :: 0 <= i < |s| ==> IsDigit(s[i])
  }

  function DigitChar(d: nat): (c: char)
    requires d < 10
    ensures IsDigit(c)
  {
    (48 + d) as char
  }

  function DigitValue(c: char): (d: nat)
    requires IsDigit(c)
    ensures d < 10
  {
    (c as int - 48) as nat
  }

  /** The number a string of decimal digits denotes, most significant digit first. */
  function DigitsValue(s: string): nat
    requires AllDigits(s)
  {
    if |s| == 0 then 0 else DigitsValue(s[..|s| - 1]) * 10 + DigitValue(s[|s| - 1])
  }

  /** `Int32.ToString()` of a non-negative value: the shortest decimal spelling. */
  function NatToString(n: nat): (s: string)
    ensures 1 <= |s|
    ensures AllDigits(s)
    ensures |s| > 1 ==> s[0] != '0'
    decreases n
  {
    if n < 10 then [DigitChar(n)] else NatToString(n / 10) + [DigitChar(n % 10)]
  }

  lemma {:induction false} NatToStringValue(n: nat)
    ensures DigitsValue(NatToString(n)) == n
    decreases n
  {
    var s := NatToString(n);
    if n >= 10 {
      NatToStringValue(n / 10);
      assert s[..|s| - 1] == NatToString(n / 10);
    }
  }

  /** `Int32.ToString()`: a minus sign in front of the magnitude for negative values. */
  function IntToString(i: int): (s: string)
    ensures 1 <= |s|
    ensures (s[0] == '-') <==> i < 0
  {
    if i < 0 then "-" + NatToString(-i) else NatToString(i)
  }

  lemma IntToStringInjective(a: int, b: int)
    requires IntToString(a) == IntToString(b)
    ensures a == b
  {
    if a < 0 {
      assert IntToString(a)[1..] == NatToString(-a);
      assert IntToString(b)[1..] == NatToString(-b);
      NatToStringValue(-a);
      NatToStringValue(-b);
    } else {
      NatToStringValue(a);
      NatToStringValue(b);
    }
  }

  /** Left-pads with '0' up to `width` characters, as the "00" custom format does. */
  function PadZeros(s: string, width: nat): (r: string)
    ensures |r| == if |s| >= width then |s| else width
    ensures r[|r| - |s|..] == s
    ensures forall i :: 0 <= i < |r| - |s| ==> r[i] == '0'
  {
    if |s| >= width then s else seq(width - |s|, _ => '0') + s
  }

  lemma {:induction false} LeadingZeroValue(s: string)
    requires AllDigits(s)
    ensures AllDigits("0" + s)
    ensures DigitsValue("0" + s) == DigitsValue(s)
    decreases |s|
  {
    var t := "0" + s;
    if |s| > 0 {
      assert t[..|t| - 1] == "0" + s[..|s| - 1];
      LeadingZeroValue(s[..|s| - 1]);
    }
  }

  lemma {:induction false} ZeroPrefixValue(k: nat, s: string)
    requires AllDigits(s)
    ensures AllDigits(seq(k, _ => '0') + s)
    ensures DigitsValue(seq(k, _ => '0') + s) == DigitsValue(s)
    decreases k
  {
    if k > 0 {
      var rest := seq(k - 1, _ => '0') + s;
      ZeroPrefixValue(k - 1, s);
      assert seq(k, _ => '0') + s == "0" + rest;
      LeadingZeroValue(rest);
    } else {
      assert seq(k, _ => '0') + s == s;
    }
  }

  /** `Int32.ToString("00")` of a non-negative value. */
  function TwoDigits(n: nat): string {
    PadZeros(NatToString(n), 2)
  }

  /** The "00" format always has at least two characters and still reads back as `n`. */
  lemma TwoDigitsRoundTrip(n: nat)
    ensures 2 <= |TwoDigits(n)|
    ensures AllDigits(TwoDigits(n))
    ensures DigitsValue(TwoDigits(n)) == n
    ensures |TwoDigits(n)| > 2 <==> n >= 100
  {
    var s := NatToString(n);
    NatToStringValue(n);
    if |s| < 2 {
      ZeroPrefixValue(2 - |s|, s);
      assert TwoDigits(n) == seq(2 - |s|, _ => '0') + s;
    }
    NatToStringLength(n);
  }

  lemma {:induction false} NatToStringLength(n: nat)
    ensures |NatToString(n)| > 2 <==> n >= 100
    ensures |NatToString(n)| >= 2 <==> n >= 10
    decreases n
  {
    if n >= 10 {
      NatToStringLength(n / 10);
    }
  }

  /** `String.Join(sep, parts)`. */
  function Join(parts: seq<string>, sep: string): string
  {
    if |parts| == 0 then ""
    else if |parts| == 1 then parts[0]
    else parts[0] + sep + Join(parts[1..], sep)
  }

  /** What a StringBuilder holds after appending every part followed by `sep`. */
  function AppendEach(parts: seq<string>, sep: string): string
  {
    if |parts| == 0 then "" else AppendEach(parts[..|parts| - 1], sep) + parts[|parts| - 1] + sep
  }

  lemma AppendEachSnoc(parts: seq<string>, last: string, sep: string)
    ensures AppendEach(parts + [last], sep) == AppendEach(parts, sep) + last + sep
  {
    assert (parts + [last])[..|parts|] == parts;
  }

  lemma {:induction false} AppendEachIsJoinPlusSep(parts: seq<string>, sep: string)
    requires |parts| > 0
    ensures AppendEach(parts, sep) == Join(parts, sep) + sep
    decreases |parts|
  {
    if |parts| > 1 {
      var init := parts[..|parts| - 1];
      AppendEachIsJoinPlusSep(init, sep);
      JoinSnoc(init, parts[|parts| - 1], sep);
      assert init + [parts[|parts| - 1]] == parts;
    }
  }

  lemma {:induction false} JoinSnoc(parts: seq<string>, last: string, sep: string)
    requires |parts| > 0
    ensures Join(parts + [last], sep) == Join(parts, sep) + sep + last
    decreases |parts|
  {
    if |parts| > 1 {
      assert (parts + [last])[1..] == parts[1..] + [last];
      JoinSnoc(parts[1..], last, sep);
    } else {
      assert (parts + [last])[1..] == [last];
    }
  }

  /** Joined text is empty only when there is nothing non-empty to join. */
  lemma {:induction false} JoinEmpty(parts: seq<string>, sep: string)
    requires |sep| > 0
    requires forall i :: 0 <= i < |parts| ==> |parts[i]| > 0
    ensures Join(parts, sep) == "" <==> |parts| == 0
    decreases |parts|
  {
    if |parts| > 1 {
      JoinEmpty(parts[1..], sep);
    }
  }
}

=== FILE: utility.dfy ===
/** Static helpers of the plug-in: flag names for tooltips, the last-child test of the
    tree lines, the label style of a row, and locking by hide flags. */
module Utility {
  import opened Wrappers
  import opened Text
  import opened Scene

  // ---------------------------------------------------------------------------
  // EnumFlagsToString

  /** One enum member as `Enum.GetValues` yields it, with its display name (the name
      after `ObjectNames.NicifyVariableName`). The values come in ascending unsigned
      order, and an aliased value comes once per alias, each time with the one name
      `ToString` gives that value. */
  datatype EnumMember = EnumMember(name: string, value: bv32)

  /** A boxed enum value: the members of its type, whether the type's underlying
      integer is Int32 (otherwise the unboxing casts throw), and the value's bits. */
  datatype EnumValue = EnumValue(underlyingIsInt32: bool, members: seq<EnumMember>, bits: bv32)

  const Everything: string := "Everything"
  const FlagSeparator: string := ", "

  /** The bits of an Int32 equal to -1. */
  const AllBits: bv32 := 0xFFFF_FFFF

  predicate IsSingleBit(v: bv32) {
    v != 0 && v & (v - 1) == 0
  }

  /** A member is listed when it is one non-zero bit that the value has set. */
  predicate Listed(m: EnumMember, bits: bv32) {
    IsSingleBit(m.value) && bits & m.value != 0
  }

  /** Names of the listed members, in the order the members are enumerated. */
  function ListedNames(ms: seq<EnumMember>, bits: bv32): seq<string>
  {
    if |ms| == 0 then []
    else ListedNames(ms[..|ms| - 1], bits) + (if Listed(ms[|ms| - 1], bits) then [ms[|ms| - 1].name] else [])
  }

  /** Reference meaning of the flags text: "Everything" for -1, otherwise the listed
      names joined by ", "; the empty string when the casts would throw. */
  function FlagsText(e: EnumValue): string {
    if !e.underlyingIsInt32 then ""
    else if e.bits == AllBits then Everything
    else Join(ListedNames(e.members, e.bits), FlagSeparator)
  }

  /** The StringBuilder loop of `EnumFlagsToString`: append every listed name followed
      by the separator, then cut the last separator off. */
  method EnumFlagsToString(e: EnumValue) returns (r: string)
    ensures r == FlagsText(e)
    ensures e.underlyingIsInt32 && e.bits == AllBits ==> r == Everything
    ensures !e.underlyingIsInt32 ==> r == ""
  {
    if !e.underlyingIsInt32 {
      return "";
    }
    if e.bits == AllBits {
      return Everything;
    }
    var builder := "";
    var i := 0;
    while i < |e.members|
      invariant 0 <= i <= |e.members|
      invariant builder == AppendEach(ListedNames(e.members[..i], e.bits), FlagSeparator)
    {
      var m := e.members[i];
      ListedNamesPrefix(e.members, i, e.bits);
      if Listed(m, e.bits) {
        AppendEachSnoc(ListedNames(e.members[..i], e.bits), m.name, FlagSeparator);
        builder := builder + m.name + FlagSeparator;
      }
      i := i + 1;
    }
    assert e.members[..i] == e.members;
    if |builder| > 0 {
      AppendEachIsJoinPlusSep(ListedNames(e.members, e.bits), FlagSeparator);
      builder := builder[..|builder| - |FlagSeparator|];
    }
    r := builder;
  }

  lemma ListedNamesPrefix(ms: seq<EnumMember>, i: nat, bits: bv32)
    requires i < |ms|
    ensures Listed(ms[i], bits) ==> ListedNames(ms[..i + 1], bits) == ListedNames(ms[..i], bits) + [ms[i].name]
    ensures !Listed(ms[i], bits) ==> ListedNames(ms[..i + 1], bits) == ListedNames(ms[..i], bits)
  {
    assert ms[..i + 1][..i] == ms[..i];
  }

  /** Every listed member is a single set bit of the value, and every such member is listed. */
  lemma {:induction false} ListedNamesMembers(ms: seq<EnumMember>, bits: bv32, n: string)
    ensures n in ListedNames(ms, bits) <==> exists i :: 0 <= i < |ms| && Listed(ms[i], bits) && ms[i].name == n
  {
    if |ms| > 0 {
      var init := ms[..|ms| - 1];
      ListedNamesMembers(init, bits, n);
      if exists i :: 0 <= i < |init| && Listed(init[i], bits) && init[i].name == n {
        var i :| 0 <= i < |init| && Listed(init[i], bits) && init[i].name == n;
        assert ms[i] == init[i];
      }
      if exists i :: 0 <= i < |ms| && Listed(ms[i], bits) && ms[i].name == n {
        var i :| 0 <= i < |ms| && Listed(ms[i], bits) && ms[i].name == n;
        if i < |ms| - 1 {
          assert init[i] == ms[i];
        }
      }
    }
  }

  /** With non-empty member names, the text is empty exactly when no member is listed
      (or the casts throw), for any value other than -1. */
  lemma FlagsTextEmpty(e: EnumValue)
    requires e.bits != AllBits
    requires forall i :: 0 <= i < |e.members| ==> |e.members[i].name| > 0
    ensures FlagsText(e) == "" <==>
      !e.underlyingIsInt32 || forall i :: 0 <= i < |e.members| ==> !Listed(e.members[i], e.bits)
  {
    var names := ListedNames(e.members, e.bits);
    NamesNonEmpty(e.members, e.bits);
    JoinEmpty(names, FlagSeparator);
    if |names| > 0 {
      ListedNamesMembers(e.members, e.bits, names[0]);
    }
    if exists i :: 0 <= i < |e.members| && Listed(e.members[i], e.bits) {
      var i :| 0 <= i < |e.members| && Listed(e.members[i], e.bits);
      ListedNamesMembers(e.members, e.bits, e.members[i].name);
    }
  }

  lemma {:induction false} NamesNonEmpty(ms: seq<EnumMember>, bits: bv32)
    requires forall i :: 0 <= i < |ms| ==> |ms[i].name| > 0
    ensures forall j :: 0 <= j < |ListedNames(ms, bits)| ==> |ListedNames(ms, bits)[j]| > 0
  {
    if |ms| > 0 {
      NamesNonEmpty(ms[..|ms| - 1], bits);
    }
  }

  // ---------------------------------------------------------------------------
  // TransformIsLastChild

  /** A transform reference: null, or a transform with its sibling index and the child
      count of its parent (None for a root, whose parent is null). */
  datatype TransformRef = NullTransform | TransformAt(siblingIndex: nat, parentChildCount: Option<nat>)

  function TransformIsLastChild(t: TransformRef): (r: Result<bool, Exception>)
    ensures t.NullTransform? ==> r == Success(true)
    ensures t.TransformAt? && t.parentChildCount.None? ==> r == Failure(NullReference)
  {
    match t
    case NullTransform => Success(true)
    case TransformAt(index, parentCount) =>
      match parentCount
      case None => Failure(NullReference)
      case Some(count) => Success(index == count - 1)
  }

  /** The transform of the node a path names, as the tree drawing reads it. */
  function TransformOf(f: seq<Node>, p: seq<nat>): TransformRef
    requires ValidPath(f, p)
    decreases p
  {
    if |p| == 1 then TransformAt(p[0], None)
    else if |p| == 2 then TransformAt(p[1], Some(|f[p[0]].children|))
    else TransformOf(f[p[0]].children, p[1..])
  }

  /** A child transform is the last child exactly when it has no next sibling. */
  lemma {:induction false} LastChildHasNoNextSibling(f: seq<Node>, p: seq<nat>)
    requires ValidPath(f, p) && |p| >= 2
    ensures TransformIsLastChild(TransformOf(f, p)).Success?
    ensures TransformIsLastChild(TransformOf(f, p)).value <==>
      !ValidPath(f, p[..|p| - 1] + [p[|p| - 1] + 1])
    decreases p
  {
    var q := p[..|p| - 1] + [p[|p| - 1] + 1];
    if |p| == 2 {
      assert q == [p[0], p[1] + 1];
      assert q[1..] == [p[1] + 1];
    } else {
      assert q[1..] == p[1..][..|p| - 2] + [p[|p| - 1] + 1];
      LastChildHasNoNextSibling(f[p[0]].children, p[1..]);
    }
  }

  // ---------------------------------------------------------------------------
  // GetHierarchyLabelStyle

  datatype PrefabStatus = NotAPrefab | Connected | Disconnected | MissingAsset

  datatype LabelStyle =
    | DefaultLabel
    | LabelNormal | LabelDisabled
    | LabelPrefab | LabelPrefabDisabled
    | LabelPrefabBroken | LabelPrefabBrokenDisabled

  /** The row's game object as the style choice sees it; `NoObject` is a null object. */
  datatype StyledObject = NoObject | StyledObject(activeInHierarchy: bool, status: PrefabStatus)

  predicate IsDisabledStyle(s: LabelStyle) {
    s.LabelDisabled? || s.LabelPrefabDisabled? || s.LabelPrefabBrokenDisabled?
  }

  predicate IsPrefabStyle(s: LabelStyle) {
    s.LabelPrefab? || s.LabelPrefabDisabled?
  }

  predicate IsBrokenStyle(s: LabelStyle) {
    s.LabelPrefabBroken? || s.LabelPrefabBrokenDisabled?
  }

  function GetHierarchyLabelStyle(o: StyledObject): (s: LabelStyle)
    ensures s == DefaultLabel <==> o.NoObject?
    ensures o.StyledObject? ==> (IsDisabledStyle(s) <==> !o.activeInHierarchy)
    ensures o.StyledObject? ==> (IsBrokenStyle(s) <==> o.status == MissingAsset)
    ensures o.StyledObject? ==> (IsPrefabStyle(s) <==> o.status == Connected)
  {
    match o
    case NoObject => DefaultLabel
    case StyledObject(active, status) =>
      match status
      case MissingAsset => if active then LabelPrefabBroken else LabelPrefabBrokenDisabled
      case Connected => if active then LabelPrefab else LabelPrefabDisabled
      case _ => if active then LabelNormal else LabelDisabled
  }

  // ---------------------------------------------------------------------------
  // LockObject / UnlockObject

  /** Sets NotEditable; scene picking is disabled only when picking locked objects is not allowed. */
  function LockObject(go: GameObject, allowPickingLocked: bool): (r: GameObject)
    ensures IsLocked(r)
    ensures r.hideFlags & !NotEditable == go.hideFlags & !NotEditable
    ensures r.pickingDisabled == (go.pickingDisabled || !allowPickingLocked)
    ensures r.(hideFlags := go.hideFlags, pickingDisabled := go.pickingDisabled) == go
  {
    var locked := go.(hideFlags := go.hideFlags | NotEditable);
    if allowPickingLocked then locked else locked.(pickingDisabled := true)
  }

  /** Clears NotEditable; scene picking is enabled only when picking locked objects is not allowed. */
  function UnlockObject(go: GameObject, allowPickingLocked: bool): (r: GameObject)
    ensures !IsLocked(r)
    ensures r.hideFlags & !NotEditable == go.hideFlags & !NotEditable
    ensures r.pickingDisabled == (go.pickingDisabled && allowPickingLocked)
    ensures r.(hideFlags := go.hideFlags, pickingDisabled := go.pickingDisabled) == go
  {
    var unlocked := go.(hideFlags := go.hideFlags & !NotEditable);
    if allowPickingLocked then unlocked else unlocked.(pickingDisabled := false)
  }

  /** Unlocking a locked object leaves its flags without NotEditable and nothing else changed. */
  lemma UnlockAfterLock(go: GameObject, allow: bool)
    ensures UnlockObject(LockObject(go, allow), allow).hideFlags == go.hideFlags & !NotEditable
    ensures !IsLocked(go) ==> UnlockObject(LockObject(go, allow), allow).hideFlags == go.hideFlags
    ensures allow ==> UnlockObject(LockObject(go, allow), allow) == go.(hideFlags := go.hideFlags & !NotEditable)
  {
  }

  // ---------------------------------------------------------------------------
  // SafeGetWidth

  /** The icon's width widened by half the icon size over 15 pixels; when reading the
      width throws (`width` is None) the width is 0 and the icon is disabled. */
  function SafeGetWidth(width: Option<real>, iconsSize: int): (r: (real, bool))
    ensures width.None? <==> r.1
    ensures width.None? ==> r.0 == 0.0
    ensures width.Some? && iconsSize == 15 ==> r.0 == width.value
    ensures width.Some? ==> r.0 - width.value == (iconsSize - 15) as real / 2.0
  {
    match width
    case Some(w) => (w + (iconsSize - 15) as real / 2.0, false)
    case None => (0.0, true)
  }

  /** Every extra pixel of icon size widens an icon whose width can be read by half a
      pixel, and a failing width stays 0 whatever the size. */
  lemma SafeGetWidthGrowsWithSize(width: Option<real>, small: int, large: int)
    requires small <= large
    ensures width.Some? ==> SafeGetWidth(width, large).0 - SafeGetWidth(width, small).0 == (large - small) as real / 2.0
    ensures width.None? ==> SafeGetWidth(width, large) == SafeGetWidth(width, small)
  {
  }
}

=== FILE: warnings_icon.dfy ===
/** The warnings icon of a row: the log, warning and error texts it collects for the row's
    game object, the entry each of its buttons opens, its width, and the buttons it draws. */
module WarningsIcon {
  import opened Wrappers
  import Icons
  import opened LogEntries

  const MaxStringLen: nat := 750
  const IconsWidth: real := 16.0

  /** The text added for each missing component, before `AppendLine` adds its own newline. */
  const MissingMonoBehaviour: string := "Missing MonoBehaviour\n"

  /** `StringBuilder.AppendLine`: the text followed by a line break. */
  function AppendLine(b: string, t: string): (r: string)
    ensures |r| == |b| + |t| + 1 && r[..|b|] == b && r[|b|..|b| + |t|] == t
  {
    b + t + "\n"
  }

  /** The three texts and the three click targets. */
  datatype Buffers = Buffers(
    logs: string, warnings: string, errors: string,
    log: Option<LogEntry>, warning: Option<LogEntry>, error: Option<LogEntry>)

  const Cleared: Buffers := Buffers("", "", "", None, None, None)

  const CompileWarningModes: EntryMode := {ScriptCompileWarning, AssetImportWarning}
  const ErrorModes: EntryMode := {ScriptingError, ScriptingException, ScriptingAssertion}

  /** A component of the row: missing (a destroyed script) or present, with its type. */
  datatype ComponentSlot = Missing | Present(typeId: nat)

  /** A compile entry concerns the row when some present component's type is the entry's
      class or is assignable from it. */
  predicate ConcernsRow(e: LogEntry, comps: seq<ComponentSlot>, assignableFrom: (nat, nat) -> bool) {
    e.classType.Some? &&
    exists c :: c in comps && c.Present? && (c.typeId == e.classType.value || assignableFrom(c.typeId, e.classType.value))
  }

  predicate HasFile(e: LogEntry) { e.file != "" }

  /** One compile entry: a warning when its mode has a compile or import warning bit, an
      error otherwise; its text goes to that buffer while the buffer is under the cap, and
      it becomes that kind's click target when it is the first with a file. */
  function AddCompileEntry(b: Buffers, e: LogEntry): (r: Buffers)
    ensures r.logs == b.logs && r.log == b.log
    ensures HasMode(e.mode, CompileWarningModes) ==>
      r.errors == b.errors && r.error == b.error &&
      r.warnings == (if |b.warnings| < MaxStringLen then AppendLine(b.warnings, e.text) else b.warnings) &&
      r.warning == (if b.warning.None? && HasFile(e) then Some(e) else b.warning)
    ensures !HasMode(e.mode, CompileWarningModes) ==>
      r.warnings == b.warnings && r.warning == b.warning &&
      r.errors == (if |b.errors| < MaxStringLen then AppendLine(b.errors, e.text) else b.errors) &&
      r.error == (if b.error.None? && HasFile(e) then Some(e) else b.error)
  {
    var isWarning := HasMode(e.mode, CompileWarningModes);
    var b1 :=
      if |b.warnings| < MaxStringLen && isWarning then b.(warnings := AppendLine(b.warnings, e.text))
      else if |b.errors| < MaxStringLen && !isWarning then b.(errors := AppendLine(b.errors, e.text))
      else b;
    var b2 := if isWarning && b1.warning.None? && HasFile(e) then b1.(warning := Some(e)) else b1;
    if !isWarning && b2.error.None? && HasFile(e) then b2.(error := Some(e)) else b2
  }

  /** The flags a context entry's mode is matched against. */
  predicate IsLog(e: LogEntry) { HasMode(e.mode, {ScriptingLog}) }
  predicate IsWarning(e: LogEntry) { HasMode(e.mode, {ScriptingWarning}) }
  predicate IsError(e: LogEntry) { HasMode(e.mode, ErrorModes) }

  /** One entry logged against the row's game object: its text goes to the first of the
      log, warning and error buffers whose flag it has and that is under the cap; each kind
      it has makes it that kind's click target when it is the first with a file. */
  function AddContextEntry(b: Buffers, e: LogEntry): (r: Buffers)
    // at most one buffer grows, and only one whose flag the entry has and that was under the cap
    ensures r.logs != b.logs ==> IsLog(e) && |b.logs| < MaxStringLen && r.logs == AppendLine(b.logs, e.text)
    ensures r.warnings != b.warnings ==> IsWarning(e) && |b.warnings| < MaxStringLen && r.warnings == AppendLine(b.warnings, e.text)
    ensures r.errors != b.errors ==> IsError(e) && |b.errors| < MaxStringLen && r.errors == AppendLine(b.errors, e.text)
    ensures (r.logs == b.logs || r.warnings == b.warnings) && (r.logs == b.logs || r.errors == b.errors)
      && (r.warnings == b.warnings || r.errors == b.errors)
    // the earlier buffers take precedence
    ensures r.warnings != b.warnings ==> !(IsLog(e) && |b.logs| < MaxStringLen)
    ensures r.errors != b.errors ==> !(IsLog(e) && |b.logs| < MaxStringLen) && !(IsWarning(e) && |b.warnings| < MaxStringLen)
    // and an entry with a flag whose buffer has room is not dropped
    ensures ((IsLog(e) && |b.logs| < MaxStringLen) || (IsWarning(e) && |b.warnings| < MaxStringLen)
      || (IsError(e) && |b.errors| < MaxStringLen)) ==> r.logs != b.logs || r.warnings != b.warnings || r.errors != b.errors
    ensures r.log == (if IsLog(e) && b.log.None? && HasFile(e) then Some(e) else b.log)
    ensures r.warning == (if IsWarning(e) && b.warning.None? && HasFile(e) then Some(e) else b.warning)
    ensures r.error == (if IsError(e) && b.error.None? && HasFile(e) then Some(e) else b.error)
  {
    var b1 :=
      if IsLog(e) && |b.logs| < MaxStringLen then b.(logs := AppendLine(b.logs, e.text))
      else if IsWarning(e) && |b.warnings| < MaxStringLen then b.(warnings := AppendLine(b.warnings, e.text))
      else if IsError(e) && |b.errors| < MaxStringLen then b.(errors := AppendLine(b.errors, e.text))
      else b;
    var b2 := if IsLog(e) && b1.log.None? && HasFile(e) then b1.(log := Some(e)) else b1;
    var b3 := if IsWarning(e) && b2.warning.None? && HasFile(e) then b2.(warning := Some(e)) else b2;
    if IsError(e) && b3.error.None? && HasFile(e) then b3.(error := Some(e)) else b3
  }

  function AddCompileEntries(b: Buffers, es: seq<LogEntry>, comps: seq<ComponentSlot>, assignableFrom: (nat, nat) -> bool): Buffers
    decreases |es|
  {
    if |es| == 0 then b
    else
      var b1 := if ConcernsRow(es[0], comps, assignableFrom) then AddCompileEntry(b, es[0]) else b;
      AddCompileEntries(b1, es[1..], comps, assignableFrom)
  }

  function AddContextEntries(b: Buffers, es: seq<LogEntry>): Buffers
    decreases |es|
  {
    if |es| == 0 then b else AddContextEntries(AddContextEntry(b, es[0]), es[1..])
  }

  function Repeat(s: string, n: nat): (r: string)
    ensures |r| == n * |s|
  {
    if n == 0 then "" else s + Repeat(s, n - 1)
  }

  function CountMissing(comps: seq<ComponentSlot>): (n: nat)
    ensures n <= |comps|
    ensures n == 0 <==> Missing !in comps
  {
    if |comps| == 0 then 0 else (if comps[0].Missing? then 1 else 0) + CountMissing(comps[1..])
  }

  /** `Initialize`: for a game object row, everything is cleared; then one warning line per
      missing component, the compile entries that concern the row, and the entries logged
      against the row's game object. Other rows keep what the last game object row left. */
  function Initialize(b: Buffers, isGameObject: bool, comps: seq<ComponentSlot>, compileEntries: seq<LogEntry>,
                      gameObjectEntries: map<nat, seq<LogEntry>>, current: nat,
                      assignableFrom: (nat, nat) -> bool): (r: Buffers)
    ensures !isGameObject ==> r == b
  {
    if !isGameObject then b
    else
      var b1 := Cleared.(warnings := Repeat(AppendLine("", MissingMonoBehaviour), CountMissing(comps)));
      var b2 := AddCompileEntries(b1, compileEntries, comps, assignableFrom);
      if current in gameObjectEntries then AddContextEntries(b2, gameObjectEntries[current]) else b2
  }

  /** On a game object row nothing from the previous row survives `Initialize`. */
  lemma InitializeForgetsPreviousRow(b1: Buffers, b2: Buffers, comps: seq<ComponentSlot>, compileEntries: seq<LogEntry>,
                                     gameObjectEntries: map<nat, seq<LogEntry>>, current: nat,
                                     assignableFrom: (nat, nat) -> bool)
    ensures Initialize(b1, true, comps, compileEntries, gameObjectEntries, current, assignableFrom)
         == Initialize(b2, true, comps, compileEntries, gameObjectEntries, current, assignableFrom)
  {
  }

  // ---------------------------------------------------------------------------
  // The length cap

  /** A buffer only grows while it is under the cap, so no buffer ends more than one line
      past it, whatever the number of entries. */
  predicate WithinCap(b: Buffers, longest: nat) {
    |b.logs| <= MaxStringLen + longest && |b.warnings| <= MaxStringLen + longest && |b.errors| <= MaxStringLen + longest
  }

  predicate TextsAtMost(es: seq<LogEntry>, longest: nat) {
    forall k :: 0 <= k < |es| ==> |es[k].text| + 1 <= longest
  }

  lemma {:induction false} ContextEntriesKeepCap(b: Buffers, es: seq<LogEntry>, longest: nat)
    requires WithinCap(b, longest) && TextsAtMost(es, longest)
    ensures WithinCap(AddContextEntries(b, es), longest)
    decreases |es|
  {
    if |es| > 0 {
      ContextEntriesKeepCap(AddContextEntry(b, es[0]), es[1..], longest);
    }
  }

  lemma {:induction false} CompileEntriesKeepCap(b: Buffers, es: seq<LogEntry>, comps: seq<ComponentSlot>,
                                                 assignableFrom: (nat, nat) -> bool, longest: nat)
    requires WithinCap(b, longest) && TextsAtMost(es, longest)
    ensures WithinCap(AddCompileEntries(b, es, comps, assignableFrom), longest)
    decreases |es|
  {
    if |es| > 0 {
      var b1 := if ConcernsRow(es[0], comps, assignableFrom) then AddCompileEntry(b, es[0]) else b;
      CompileEntriesKeepCap(b1, es[1..], comps, assignableFrom, longest);
    }
  }

  /** With no missing component, every buffer `Initialize` fills stays within one line of
      the cap; missing components add their lines without a cap. */
  lemma InitializeKeepsCap(b: Buffers, comps: seq<ComponentSlot>, compileEntries: seq<LogEntry>,
                           gameObjectEntries: map<nat, seq<LogEntry>>, current: nat,
                           assignableFrom: (nat, nat) -> bool, longest: nat)
    requires Missing !in comps
    requires TextsAtMost(compileEntries, longest)
    requires current in gameObjectEntries ==> TextsAtMost(gameObjectEntries[current], longest)
    ensures WithinCap(Initialize(b, true, comps, compileEntries, gameObjectEntries, current, assignableFrom), longest)
  {
    var b1 := Cleared.(warnings := Repeat(AppendLine("", MissingMonoBehaviour), CountMissing(comps)));
    assert b1 == Cleared;
    CompileEntriesKeepCap(b1, compileEntries, comps, assignableFrom, longest);
    var b2 := AddCompileEntries(b1, compileEntries, comps, assignableFrom);
    if current in gameObjectEntries {
      ContextEntriesKeepCap(b2, gameObjectEntries[current], longest);
    }
  }

  /** Each missing component adds exactly one warning line. */
  lemma MissingComponentLines(b: Buffers, comps: seq<ComponentSlot>)
    ensures var r := Initialize(b, true, comps, [], map[], 0, (x, y) => false);
      r.warnings == Repeat(MissingMonoBehaviour + "\n", CountMissing(comps)) && r.logs == "" && r.errors == ""
  {
  }

  // ---------------------------------------------------------------------------
  // Click targets

  /** The first entry of `es` satisfying `p`. */
  function FirstWhere(es: seq<LogEntry>, p: LogEntry -> bool): (r: Option<LogEntry>)
    ensures r.Some? ==> r.value in es && p(r.value)
    ensures r.None? ==> forall k :: 0 <= k < |es| ==> !p(es[k])
  {
    if |es| == 0 then None else if p(es[0]) then Some(es[0]) else FirstWhere(es[1..], p)
  }

  /** Each context click target is the first entry of its kind with a file, no matter how
      full the buffers are; a target already chosen is kept. */
  lemma {:induction false} ContextTargets(b: Buffers, es: seq<LogEntry>)
    ensures AddContextEntries(b, es).log ==
      if b.log.Some? then b.log else FirstWhere(es, e => IsLog(e) && HasFile(e))
    ensures AddContextEntries(b, es).warning ==
      if b.warning.Some? then b.warning else FirstWhere(es, e => IsWarning(e) && HasFile(e))
    ensures AddContextEntries(b, es).error ==
      if b.error.Some? then b.error else FirstWhere(es, e => IsError(e) && HasFile(e))
    decreases |es|
  {
    if |es| > 0 {
      ContextTargets(AddContextEntry(b, es[0]), es[1..]);
    }
  }

  /** Compile entries choose their click targets the same way: the first concerning entry
      of the kind with a file. */
  lemma {:induction false} CompileTargets(b: Buffers, es: seq<LogEntry>, comps: seq<ComponentSlot>, assignableFrom: (nat, nat) -> bool)
    ensures AddCompileEntries(b, es, comps, assignableFrom).log == b.log
    ensures AddCompileEntries(b, es, comps, assignableFrom).warning ==
      if b.warning.Some? then b.warning
      else FirstWhere(es, e => ConcernsRow(e, comps, assignableFrom) && HasMode(e.mode, CompileWarningModes) && HasFile(e))
    ensures AddCompileEntries(b, es, comps, assignableFrom).error ==
      if b.error.Some? then b.error
      else FirstWhere(es, e => ConcernsRow(e, comps, assignableFrom) && !HasMode(e.mode, CompileWarningModes) && HasFile(e))
    decreases |es|
  {
    if |es| > 0 {
      var b1 := if ConcernsRow(es[0], comps, assignableFrom) then AddCompileEntry(b, es[0]) else b;
      CompileTargets(b1, es[1..], comps, assignableFrom);
    }
  }

  // ---------------------------------------------------------------------------
  // Width and drawing

  /** `Width`, as the getter adds it up. */
  function WarningsWidth(b: Buffers): real {
    (if |b.logs| > 0 then IconsWidth else 0.0)
    + (if |b.warnings| > 0 then IconsWidth else 0.0)
    + (if |b.errors| > 0 then IconsWidth else 0.0)
  }

  function NonEmptyBuffers(b: Buffers): (n: nat)
    ensures n <= 3
  {
    (if |b.logs| > 0 then 1 else 0) + (if |b.warnings| > 0 then 1 else 0) + (if |b.errors| > 0 then 1 else 0)
  }

  /** The width the icon registry reports for the warnings icon is the getter's sum: 16
      for every non-empty buffer. */
  lemma WidthCountsNonEmptyBuffers(b: Buffers, w: Icons.WidthInputs)
    requires w.nonEmptyLogBuffers == NonEmptyBuffers(b)
    ensures Icons.Width(Icons.Warnings, w) == WarningsWidth(b)
    ensures WarningsWidth(b) == 0.0 <==> b.logs == "" && b.warnings == "" && b.errors == ""
  {
  }

  datatype Category = LogCategory | WarningCategory | ErrorCategory

  /** A drawn button: its kind, its left edge, and the row it opens when clicked. */
  datatype Button = Button(category: Category, xMin: real, opens: Option<nat>)

  function Target(b: Buffers, c: Category): Option<LogEntry> {
    match c
    case LogCategory => b.log
    case WarningCategory => b.warning
    case ErrorCategory => b.error
  }

  function Text(b: Buffers, c: Category): string {
    match c
    case LogCategory => b.logs
    case WarningCategory => b.warnings
    case ErrorCategory => b.errors
  }

  /** `DoSingleGUI`: nothing for an empty buffer; otherwise a button at `x`, and `x`
      advances by the icon width. */
  function DoSingleGUI(buttons: seq<Button>, x: real, b: Buffers, c: Category): (r: (seq<Button>, real))
    ensures |Text(b, c)| == 0 ==> r == (buttons, x)
    ensures |Text(b, c)| > 0 ==> r.0 == buttons + [Button(c, x, Opens(b, c))] && r.1 == x + IconsWidth
  {
    if |Text(b, c)| == 0 then (buttons, x)
    else (buttons + [Button(c, x, Opens(b, c))], x + IconsWidth)
  }

  /** The row a category's button opens: its click target's. */
  function Opens(b: Buffers, c: Category): Option<nat> {
    var t := Target(b, c);
    if t.Some? then Some(t.value.rowIndex) else None
  }

  /** `HandleGUIDraw`: on a game object row, during a repaint or when scripts may be opened
      from logs, the log, warning and error buttons in that order, one per non-empty
      buffer, side by side from the rect's left edge. */
  function HandleGUIDraw(b: Buffers, xMin: real, isRepaint: bool, openScriptsOfLogs: bool, isGameObject: bool): (r: seq<Button>)
    ensures (!isRepaint && !openScriptsOfLogs) || !isGameObject ==> r == []
    ensures (isRepaint || openScriptsOfLogs) && isGameObject ==>
      && |r| == NonEmptyBuffers(b)
      && (forall k :: 0 <= k < |r| ==> r[k].xMin == xMin + k as real * IconsWidth)
      && (forall k :: 0 <= k < |r| ==> |Text(b, r[k].category)| > 0)
      && (forall j, k :: 0 <= j < k < |r| ==> CategoryRank(r[j].category) < CategoryRank(r[k].category))
      && (forall k :: 0 <= k < |r| ==> r[k].opens == Opens(b, r[k].category))
  {
    if (!isRepaint && !openScriptsOfLogs) || !isGameObject then []
    else
      var s1 := DoSingleGUI([], xMin, b, LogCategory);
      var s2 := DoSingleGUI(s1.0, s1.1, b, WarningCategory);
      var s3 := DoSingleGUI(s2.0, s2.1, b, ErrorCategory);
      assert Laid(s3.0, b, xMin, s3.1, 3) && |s3.0| == NonEmptyBuffers(b) by {
        DrawStep([], xMin, b, LogCategory, xMin);
        DrawStep(s1.0, s1.1, b, WarningCategory, xMin);
        DrawStep(s2.0, s2.1, b, ErrorCategory, xMin);
      }
      s3.0
  }

  /** The buttons drawn so far sit side by side from `xMin`, with `x` just past the last,
      each for a non-empty buffer of a category ranked below `rank`, in rank order. */
  predicate Laid(r: seq<Button>, b: Buffers, xMin: real, x: real, rank: nat) {
    && x == xMin + |r| as real * IconsWidth
    && (forall k :: 0 <= k < |r| ==> r[k].xMin == xMin + k as real * IconsWidth)
    && (forall k :: 0 <= k < |r| ==> |Text(b, r[k].category)| > 0 && r[k].opens == Opens(b, r[k].category))
    && (forall k :: 0 <= k < |r| ==> CategoryRank(r[k].category) < rank)
    && (forall j, k :: 0 <= j < k < |r| ==> CategoryRank(r[j].category) < CategoryRank(r[k].category))
  }

  /** One `DoSingleGUI` call keeps the buttons laid out, adding one for a non-empty buffer. */
  lemma DrawStep(buttons: seq<Button>, x: real, b: Buffers, c: Category, xMin: real)
    requires Laid(buttons, b, xMin, x, CategoryRank(c))
    ensures Laid(DoSingleGUI(buttons, x, b, c).0, b, xMin, DoSingleGUI(buttons, x, b, c).1, CategoryRank(c) + 1)
    ensures |DoSingleGUI(buttons, x, b, c).0| == |buttons| + (if |Text(b, c)| > 0 then 1 else 0)
  {
  }

  function CategoryRank(c: Category): nat {
    match c
    case LogCategory => 0
    case WarningCategory => 1
    case ErrorCategory => 2
  }
}

=== FILE: wrappers.dfy ===
/** Failure-compatible wrappers shared by every module of the model. */
module Wrappers {

  /** A value that may be missing: the model's stand-in for a null reference. */
  datatype Option<+T> = None | Some(value: T) {

    predicate IsFailure() {
      None?
    }

    function PropagateFailure<U>(): Option<U>
      requires None?
    {
      None
    }

    function Extract(): T
      requires Some?
    {
      value
    }

    function GetOr(default: T): T {
      match this
      case Some(v) => v
      case None => default
    }
  }

  /** Either a value or the exception that an operation of the plug-in raises. */
  datatype Result<+R, +E> = Success(value: R) | Failure(error: E) {

    predicate IsFailure() {
      Failure?
    }

    function PropagateFailure<U>(): Result<U, E>
      requires Failure?
    {
      Failure(error)
    }

    function Extract(): R
      requires Success?
    {
      value
    }
  }

  /** The .NET exceptions the modelled code can raise. */
  datatype Exception = NullReference | IndexOutOfRange | MissingField
}
